=== FILE: README.md ===
# PyNN parameter translation: NEST synapses and NEURON cells

PyNN describes neurons and plasticity rules with *standard* parameter names and
units. Each simulator backend declares a translation table of tuples
`(standard, native[, factor | forward, reverse])` and maps the standard
parameters onto the names and units its simulator expects. This project
models two backend files and proves properties about them in Dafny.

- The NEST backend's STDP components (`src/nest2/synapses.py`) are covered in
  `nest_synapses.dfy`. This includes the additive and multiplicative weight
  dependences, with their `w_min` restriction and the injected `mu_plus` and
  `mu_minus` constants. It also includes the spike-pair timing rule and the
  delay-fraction restriction of `STDPMechanism`.
- The NEURON backend's cells (`src/neuron2/cells.py`) are split over two files.
  - `neuron_models.dfy` covers the native cell classes. That includes:
    - the synapse-mechanism lookup;
    - the unit arithmetic of the `tau_m` and `c_m` properties;
    - the adaptive neuron's linked fields;
    - the ordered `set_parameters` pass;
    - the completion of `v_reset` and `v_init` from `v_rest`;
    - `memb_init`;
    - `RandomSpikeSource`.
  - `neuron_cell_types.dfy` covers the standard cell types. These are
    `IF_curr_*`, `IF_cond_*`, `IF_facets_hardware1`, `SpikeSourcePoisson` and
    `EIF_cond_*_isfa_ista`. For each it gives the table, the native model, the
    synapse choice and the constants forced after translation.
- `translation.dfy` holds the shared machinery:
  - building a table from tuples;
  - forward translation (`translate`) and reverse translation (`reverse_translate`),
    each in two readings: one where a native or standard name is looked up
    directly, and one (`ToNativeAsEvaluated`, `ToStandardAsEvaluated`) where
    every transform is Python source text handed to `eval`, so a text that
    uses a reserved word such as `lambda` as a name is a `SyntaxError`. The
    second reading is defined on its own, by evaluating the texts
    (`ForwardEvaluated`, `BackwardEvaluated`); a proof by induction over the
    table shows that the two readings agree wherever the applicable texts
    parse;
  - the default-completion step of a standard type's constructor.

  `ValidateTable` is an analysis this model adds, not something the program
  runs: it checks a table statically for repeated names, texts that do not
  parse, formulas reading names the table does not define, and zero scale
  factors. The program finds each of these only when a translation meets it.

  That machinery lives in `pyNN.common`, which is not part of this model.
  Forward formulas read the *standard* values and reverse formulas read the
  *native* values, as the formula strings in the two backend files show.
  The backend files only ever translate complete maps. A weight constructor
  translates all of its arguments (`locals()`, src/nest2/synapses.py:58-60
  and 83-85). A cell type translates its parameters after completing them
  from the defaults (src/neuron2/cells.py:311). Neither backend file calls
  `reverse_translate`. So how the two functions treat a map that is not
  complete, or that has extra keys, is not shown, and the model assumes:
  - A rule takes part only if its source name is present, in both
    directions.
  - Keys that no rule mentions are an error in the forward direction and
    are ignored in the reverse direction.
- `expressions.dfy` is a small arithmetic language for the formula strings,
  and the set of Python 2's reserved words. Evaluation fails with
  `UndefinedName` (Python's `NameError`) or with `DivisionByZero` (Python's
  `ZeroDivisionError`). A text that names a reserved word fails before
  evaluation with `InvalidSyntax` (Python's `SyntaxError`).
- `results.dfy` holds the error, option and result types.

Parameters are maps from strings to `real`. Python exceptions become `Err`
values: an `assert`, a `raise`, a `KeyError`, an unexpected keyword argument
and an evaluation error each map to an error constructor.

## Model

| member | source | states |
|---|---|---|
| NestSynapses.WeightDependence | src/nest2/synapses.py:54-62 | A weight-dependence constructor rejects a non-zero `w_min` before translating. It raises division by zero when `A_plus` is 0. In every other case it succeeds, and the native map holds exactly `w_max` in the unit of 1000, `w_min` forced to the constant 0, `A_plus` renamed, `alpha = A_minus/A_plus`, and the two `mu` constants. Its possible models are `{stdp_synapse}`. |
| NestSynapses.AdditiveWeightDependence | src/nest2/synapses.py:54-62 | The additive constructor fails or succeeds under the same conditions. On success it produces `Wmax`, `lambda` and `alpha`, with `mu_plus = mu_minus = 0`. |
| NestSynapses.AdditiveDefaults | src/nest2/synapses.py:54 | With the default arguments the additive component is `Wmax 1000, lambda 0.01, alpha 1, mu 0`. |
| NestSynapses.MultiplicativeWeightDependence | src/nest2/synapses.py:79-87 | The multiplicative constructor has the same error cases. On success it produces `wmax`, `aLTP` and `alpha`, with `mu_plus = mu_minus = 1`. |
| NestSynapses.WeightNames | src/nest2/synapses.py:46-51 | A weight table's standard names are the four STDP weight parameters. Its native names are the four given ones, and they are pairwise distinct. |
| NestSynapses.WeightTranslation | src/nest2/synapses.py:46-51 | Translating the four weight arguments fails with division by zero exactly when `A_plus` is 0. Otherwise it yields the four native values. |
| NestSynapses.WeightRoundTrip | src/nest2/synapses.py:46-51 | Suppose alpha's reverse formula reads A_plus's native name. Then reverse translation of any successful translation of a weight table gives back the standard parameters. |
| NestSynapses.WeightTableWellFormed | src/nest2/synapses.py:46-51 | Such a table, given native names that are not reserved words, passes the static analysis: its names are distinct, every text parses, and every formula reads only names from its own side. |
| NestSynapses.WeightForwardAsEvaluated | src/nest2/synapses.py:60 | Forward translation by a weight table behaves the same whether its texts are evaluated or its names looked up, because the forward texts never use a reserved word. |
| NestSynapses.AdditiveRoundTrip | src/nest2/synapses.py:46-51 | In the names-looked-up reading, the additive table's reverse translation undoes its forward translation. This is the corrected behaviour; as written the reverse cannot run (next rows). |
| NestSynapses.AdditiveTableReserved | src/nest2/synapses.py:46-51 | Every additive formula reads only defined names and every forward text parses. The reverse texts of `A_plus` and `A_minus` read `lambda`, which is a reserved word, so the table is not well formed. |
| NestSynapses.AdditiveAsWrittenReverseFails | src/nest2/synapses.py:49-50 | As the program runs it, reverse translation of any additive translation that contains `A_plus` or `A_minus` is a `SyntaxError`. |
| NestSynapses.AdditiveAsWrittenDefaultsFail | src/nest2/synapses.py:54-62 | Concrete witness: the component the default arguments construct cannot be read back, because the reverse raises `SyntaxError`. |
| NestSynapses.AdditiveComponentRoundTrip | src/nest2/synapses.py:54-62 | In the names-looked-up reading, a constructed additive component's native parameters translate back to the four arguments. The injected `mu` entries do not disturb the reverse direction. |
| NestSynapses.AlphaTranslated | src/nest2/synapses.py:50 | Any translation by a weight table that contains `A_minus` produces the native `alpha`. |
| NestSynapses.ReservedFactorFails | src/nest2/synapses.py:50 | If alpha's reverse text reads a reserved word, reverse translation of any native set holding `alpha` is a `SyntaxError`. |
| NestSynapses.WeightForwardParses | src/nest2/synapses.py:46-51 | Every forward text of a weight table parses, whatever its native names, because the forward texts read only the standard names. |
| NestSynapses.WeightReverseParsedDefined | src/nest2/synapses.py:46-51 | When alpha's reverse text reads a reserved word, every other applicable reverse text of the weight table evaluates, so no evaluation error can come ahead of the `SyntaxError`. |
| NestSynapses.MismatchedFactorFails | src/nest2/synapses.py:71-76 | Take a weight table whose alpha reverse reads a name that the table never produces. Reversing a translation that contains `A_minus` then always fails with `UndefinedName` of that name. |
| NestSynapses.MultiplicativeAsWrittenUnbound | src/nest2/synapses.py:75 | The multiplicative table as declared has exactly one unbound name, `lambda`, in its `A_minus` reverse formula, so it is not well formed. |
| NestSynapses.MultiplicativeAsWrittenUnparsable | src/nest2/synapses.py:75 | As the program runs it, reverse translation of any multiplicative translation that contains `A_minus` is a `SyntaxError`, because the text `alpha*lambda` does not parse. |
| NestSynapses.MultiplicativeAsWrittenRoundTripFails | src/nest2/synapses.py:71-76 | With the table as declared, every reverse translation of a translation that contains `A_minus` is a `SyntaxError`. Even with names looked up, it fails with `UndefinedName("lambda")`. |
| NestSynapses.MultiplicativeAsWrittenDefaultsFail | src/nest2/synapses.py:79 | Concrete witness: the constructor's default arguments translate, but their native parameters do not translate back, in either reading. |
| NestSynapses.MultiplicativeForwardUnchanged | src/nest2/synapses.py:71-76 | The corrected table translates forward exactly as the declared one does, so the constructor's result is unchanged. |
| NestSynapses.MultiplicativeRoundTrip | src/nest2/synapses.py:71-76 | The corrected multiplicative table's reverse translation undoes its forward translation. |
| NestSynapses.MultiplicativeTableWellFormed | src/nest2/synapses.py:71-76 | The corrected multiplicative table is well formed. |
| NestSynapses.MultiplicativeComponentRoundTrip | src/nest2/synapses.py:79-87 | A constructed multiplicative component translates back to its arguments. |
| NestSynapses.MultiplicativeEvaluatedRoundTrip | src/nest2/synapses.py:71-76 | With the corrected table, the round trip also holds as the program runs it: every text parses. |
| NestSynapses.SpikePairRule | src/nest2/synapses.py:98-102 | The spike-pair rule's native parameters are exactly `tau_plus` and `Tau_minus`, carrying the two time constants. |
| NestSynapses.SpikePairRoundTrip | src/nest2/synapses.py:92-95 | Any subset of `{tau_plus, tau_minus}` translates, and the translation translates back to it. |
| NestSynapses.SpikePairTableWellFormed | src/nest2/synapses.py:92-95 | The spike-pair table is well formed. |
| NestSynapses.SpikePairEvaluatedRoundTrip | src/nest2/synapses.py:92-95 | The spike-pair round trip also holds as the program runs it, with each text evaluated. |
| NestSynapses.STDPMechanism | src/nest2/synapses.py:22-29 | An STDP mechanism is built exactly when the dendritic delay fraction is 1, and then keeps its three components. Any other fraction is an unsupported configuration. |
| NeuronModels.SynapseKind | src/neuron2/cells.py:33-36 | Each of the four mechanisms is listed under a valid (type, shape) pair. Current-based is `ExpISyn`/`AlphaISyn`, and exponential is `ExpISyn`/`ExpSyn`. |
| NeuronModels.SynapseModel | src/neuron2/cells.py:49-51 | An invalid type is reported before an invalid shape. The lookup succeeds exactly for a valid pair and returns the mechanism listed under that pair. |
| NeuronModels.SynapseModelOfKind | src/neuron2/cells.py:33-36 | The lookup inverts the listing: every mechanism is found under its own pair. |
| NeuronModels.Get | src/neuron2/cells.py:70-98 | A parameter reads successfully exactly when the cell has it and, for `tau_m`, the leak is non-zero. A missing one is an unknown parameter, and a zero leak is a division by zero. |
| NeuronModels.SetTauM | src/neuron2/cells.py:70-72 | Setting `tau_m` fails exactly on 0. On a non-zero capacitance, the value then reads back unchanged through the getter's formula. |
| NeuronModels.TauMRoundTrip | src/neuron2/cells.py:70-75 | The setter's conductance `1e-3*cm/x` fed to the getter `1e-3*cm/g` gives `x` back. |
| NeuronModels.Set | src/neuron2/cells.py:77-98 | A property write succeeds exactly when three things hold: the cell has the parameter, a new `tau_m` is non-zero, and, for `c_m`, the current capacitance and leak are non-zero, because that setter first reads `tau_m`. A write keeps the cell's mechanisms. |
| NeuronModels.GetAfterSet | src/neuron2/cells.py:70-98 | On a valid cell, reading a parameter right after writing it returns the written value, and the cell stays valid. |
| NeuronModels.SetFrame | src/neuron2/cells.py:77-84 | Writing one parameter leaves every other parameter's reading unchanged. In particular, writing `c_m` keeps `tau_m`, because the setter rescales the leak. |
| NeuronModels.CapacitanceFrame | src/neuron2/cells.py:80-84 | Setting `c_m` re-derives the leak so that `tau_m` and every other reading stay as before. |
| NeuronModels.SetKeepsLinks | src/neuron2/cells.py:219-236 | On the adaptive neuron, `Vtop = Vspike + 10`, `GL = g` and `EL = e` survive every write. Writing the establishing parameter restores the link. |
| NeuronModels.SetParameters | src/neuron2/cells.py:145-147 | The ordered write pass keeps the cell's mechanisms, and it fails if any listed name is missing from the dictionary. |
| NeuronModels.SetParametersReadBack | src/neuron2/cells.py:145-147 | After a successful pass, every listed parameter reads back its dictionary value, even with `c_m` before `tau_m` and repeated names. Unlisted parameters keep their readings, and the links hold. |
| NeuronModels.BindArguments | src/neuron2/cells.py:153-155 | Keyword binding rejects exactly the unknown keywords. The bound map has every default and supplied key, and supplied values win. |
| NeuronModels.CompleteArguments | src/neuron2/cells.py:159-162 | The completed arguments cover the defaults and the `None`-defaulted names. Supplied values win, and a `None`-defaulted name that is not supplied takes the final `v_rest`. |
| NeuronModels.StandardIfArguments | src/neuron2/cells.py:153-162 | StandardIF's arguments hold its ten defaults plus `v_reset` and `v_init`. Unsupplied `v_reset` and `v_init` equal `v_rest`, and unknown keywords are an error. |
| NeuronModels.BretteGerstnerArguments | src/neuron2/cells.py:184-193 | BretteGerstnerIF's arguments hold its defaults plus `v_init`, which falls back to `v_rest`. |
| NeuronModels.ReversalNames | src/neuron2/cells.py:172-173 | `e_e` and `e_i` are added exactly for conductance synapses. |
| NeuronModels.StandardIfParameterNames | src/neuron2/cells.py:170-173 | StandardIF writes every non-adaptive parameter. The reversal potentials are written iff the type is conductance. |
| NeuronModels.BretteGerstnerParameterNames | src/neuron2/cells.py:200-205 | BretteGerstnerIF writes the reversal potentials iff the type is conductance. |
| NeuronModels.BretteGerstnerNamesComplete | src/neuron2/cells.py:200-205 | BretteGerstnerIF writes every parameter other than the reversal potentials. |
| NeuronModels.NewStandardIf | src/neuron2/cells.py:153-174 | An argument error comes first, then a synapse error. A built cell has the reset mechanism with spike height 40 and a synapse mechanism of the requested kind on both synapses. |
| NeuronModels.NewBretteGerstner | src/neuron2/cells.py:184-206 | It reports the same error cases. A built cell has the adaptive mechanism, with `surf` equal to the section area of 1e-3 cm², and synapses of the requested kind. |
| NeuronModels.StandardIfReadBack | src/neuron2/cells.py:153-174 | A StandardIF built with non-zero `c_m` and `tau_m` is valid, and every written parameter reads back its completed argument. |
| NeuronModels.BretteGerstnerReadBack | src/neuron2/cells.py:184-206 | The adaptive neuron reads back all its completed arguments, and all three links hold. |
| NeuronModels.MembInitAsWritten | src/neuron2/cells.py:122-125 | As written, a truthy `v_init` is stored and used. `None` or `0.0` falls back to the stored `v_init`. The cell keeps its structure, and every other reading is unchanged. |
| NeuronModels.MembInitDropsZero | src/neuron2/cells.py:123 | Witness: asking for 0 mV on a cell with stored -65 mV initialises to -65 mV. |
| NeuronModels.MembInit | src/neuron2/cells.py:122-125 | Any supplied `v_init` is stored and becomes the membrane potential, and `None` uses the stored one. No other parameter changes. |
| NeuronModels.MembInitAgrees | src/neuron2/cells.py:122-125 | The corrected and the written `memb_init` agree on every input except an explicit 0. |
| NeuronModels.MembInitZeroIsAbsent | src/neuron2/cells.py:122-125 | As written, `memb_init(0.0)` gives the same cell as the corrected `memb_init()`: the explicit 0 mV is discarded. |
| NeuronModels.NewRandomSpikeSource | src/neuron2/cells.py:250-256 | The source accepts exactly `start`, `interval` and `number`, defaults them to 0, 1e12 and 0, and sets `noise` to 1. |
| NeuronModels.RandomSpikeSourceRoundTrip | src/neuron2/cells.py:248-254 | Building from a source's three parameter names reproduces that source. |
| Translation.ParseEntry | src/nest2/synapses.py:46-51 | A tuple of two names, two names and a factor, or two names and two formulas is read as a rule that prints back as that tuple. Anything else is a malformed rule at its index. |
| Translation.BuildTranslations | src/nest2/synapses.py:46-51 | A table is built exactly when every tuple parses and no standard or native name repeats. The rules keep the tuples' order and contents. |
| Translation.BuildEntriesRoundTrip | src/nest2/synapses.py:46-51 | Printing a table with distinct names as tuples and building it again gives the same table. |
| Translation.ValidateTable | src/nest2/synapses.py:71-76 | An analysis the model adds; the program has no such pass. It accepts exactly the well-formed tables. A syntax failure points to a rule whose text uses a reserved word. An unbound-name failure names a name that some formula reads but the table does not define. |
| Translation.Forward | src/nest2/synapses.py:60 | The forward pass succeeds iff every applicable rule evaluates. Its keys are the natives of the supplied names, and on distinct names each native holds its rule's value. |
| Translation.ToNative | src/nest2/synapses.py:60 | `translate` rejects names outside the table as unknown parameters. Otherwise it succeeds iff every applicable rule evaluates, and any other error is that of an applicable rule; on success it gives the forward pass's keys and values. |
| Translation.ToStandard | src/neuron2/cells.py:426-430 | `reverse_translate` succeeds iff every rule whose native name is present evaluates, and an error is that of one such rule. On distinct names each standard name holds its reverse value. |
| Translation.RoundTrip | src/neuron2/cells.py:426-430 | When each rule's reverse undoes its forward at the translated values, reverse translation returns the supplied standard parameters. |
| Translation.SimpleRoundTrip | src/neuron2/cells.py:296-307 | A table of renames and non-zero scales translates any subset of its names and back. |
| Translation.ToStandardIgnoresExtra | src/nest2/synapses.py:61-62 | Adding native keys that no rule names or reads does not change the reverse translation. |
| Expressions.EvalText | src/nest2/synapses.py:50 | `eval` of a formula text is a `SyntaxError` exactly when the text uses a reserved word as a name, and succeeds exactly when it parses and evaluates. |
| Translation.ForwardEvaluated | src/nest2/synapses.py:60 | Evaluating each applicable rule's forward text succeeds iff every such text evaluates; an error is the error of one of them; the keys are the supplied names' natives, and on distinct names each holds its text's value. |
| Translation.BackwardEvaluated | src/nest2/synapses.py:49-50 | The same for the reverse texts, keyed by the standard names of the present native names. |
| Translation.ToNativeAsEvaluated | src/nest2/synapses.py:60 | `translate` as the program runs it. Unknown names are reported first. Otherwise it succeeds iff every applicable text parses and its rule evaluates; an error is a `SyntaxError` of some applicable text or the evaluation error of some applicable rule; on success the keys are the natives of the supplied names, each holding its rule's value. |
| Translation.ToStandardAsEvaluated | src/nest2/synapses.py:49-50 | `reverse_translate` as the program runs it. It succeeds iff every applicable reverse text parses and evaluates; an error is a `SyntaxError` of some applicable text or the evaluation error of some applicable rule; on success each standard name holds its rule's reverse value. |
| Translation.ForwardAgrees | src/nest2/synapses.py:60 | Where every applicable forward text parses, evaluating the texts and looking names up give the same result, error for error. |
| Translation.BackwardAgrees | src/nest2/synapses.py:49-50 | The same for the reverse direction. |
| Translation.ParsingTableAgrees | src/nest2/synapses.py:46-51 | On a table whose every text parses, both evaluated translations equal the names-looked-up ones, proved from the independent evaluated definition. |
| Translation.ReservedWordFails | src/nest2/synapses.py:49-50 | One applicable reverse text that uses a reserved word makes the whole reverse translation fail. When every other applicable text that parses evaluates, the failure is the `SyntaxError`, in whatever order the rules are taken. |
| Translation.WellFormedForwardDefined | src/nest2/synapses.py:46-51 | On a well-formed table with every standard name supplied, translation can fail only by division by zero. |
| Translation.WellFormedReverseDefined | src/nest2/synapses.py:46-51 | The same holds in the reverse direction, given every native name. |
| Translation.CheckParameters | src/neuron2/cells.py:311-312 | A standard type's constructor accepts only known names, and completes the supplied values with the defaults. |
| Translation.ApplyOverrides | src/neuron2/cells.py:413-420 | Forced constants are added to or overwrite the native map. Every other entry is kept. |
| NeuronCellTypes.Construct | src/neuron2/cells.py:310-314 | Constructing a standard cell rejects unknown names and otherwise succeeds iff the completed parameters translate. The result carries the type's synapse pair, the translated values and the forced constants. |
| NeuronCellTypes.IfCurrNames | src/neuron2/cells.py:296-307 | The current-based table maps the ten standard names onto ten distinct native names, by renames only. |
| NeuronCellTypes.IfCurrRoundTrip | src/neuron2/cells.py:296-307 | Any subset of the current-based names translates and translates back. |
| NeuronCellTypes.IfCondExtendsIfCurr | src/neuron2/cells.py:345-358 | The conductance table is the current-based table followed by the two reversal potentials. |
| NeuronCellTypes.IfCondNames | src/neuron2/cells.py:345-358 | The conductance table adds `e_rev_E` and `e_rev_I` to the standard names and `e_e` and `e_i` to the native names, and it is distinct and simple. |
| NeuronCellTypes.IfCondRoundTrip | src/neuron2/cells.py:345-358 | Any subset of the conductance names translates and translates back. |
| NeuronCellTypes.EifNames | src/neuron2/cells.py:454-473 | The adaptive exponential table has distinct names and no formulas. |
| NeuronCellTypes.EifRenamesAllButA | src/neuron2/cells.py:454-473 | Every adaptive exponential rule is a rename except `a`, which is scaled by 0.001 to `A`. |
| NeuronCellTypes.EifScalesA | src/neuron2/cells.py:464 | The native `A` is 0.001 times the standard `a` (nS to uS). |
| NeuronCellTypes.EifRenames | src/neuron2/cells.py:454-473 | Every other supplied parameter keeps its value under its native name. |
| NeuronCellTypes.EifRoundTrip | src/neuron2/cells.py:454-473 | Any subset of the adaptive exponential names translates and translates back. |
| NeuronCellTypes.FacetsNames | src/neuron2/cells.py:402-410 | The hardware table's seven standard and native name sets. |
| NeuronCellTypes.FacetsRenamesAllButLeak | src/neuron2/cells.py:402-410 | Every hardware rule is a rename except `g_leak` to `tau_m`. |
| NeuronCellTypes.LeakForward | src/neuron2/cells.py:406 | `tau_m = 0.2*1000/g_leak`, or division by zero when `g_leak` is 0. |
| NeuronCellTypes.LeakInverts | src/neuron2/cells.py:406 | The reverse formula `0.2*1000/tau_m` returns the original `g_leak`. |
| NeuronCellTypes.FacetsDefined | src/neuron2/cells.py:402-410 | Hardware parameters translate iff `g_leak`, when given, is non-zero. |
| NeuronCellTypes.FacetsValues | src/neuron2/cells.py:402-410 | The translated hardware parameters hold `tau_m = 200/g_leak`, and every other value under its native name. |
| NeuronCellTypes.FacetsRoundTrip | src/neuron2/cells.py:402-410 | Hardware parameters translate back to what was supplied. |
| NeuronCellTypes.FacetsOverridesAdded | src/neuron2/cells.py:416-419 | None of the four forced constants is a native name of the hardware table. |
| NeuronCellTypes.FacetsOverridesKept | src/neuron2/cells.py:416-419 | Forcing the constants adds exactly `i_offset`, `c_m`, `t_refrac` and `e_e` with 0, 0.2, 1 and 0. Every translated value is kept. |
| NeuronCellTypes.FacetsConstruct | src/neuron2/cells.py:413-420 | A constructed hardware cell has conductance/exp synapses, and its native keys are the translated names plus the four constants, with their values. |
| NeuronCellTypes.FacetsOverridesIgnored | src/neuron2/cells.py:416-419 | The forced constants are invisible to the hardware table's reverse translation. |
| NeuronCellTypes.PoissonNames | src/neuron2/cells.py:426-430 | The Poisson table maps `start`, `rate` and `duration` onto `start`, `interval` and `number`. |
| NeuronCellTypes.IntervalForward | src/neuron2/cells.py:428 | `interval = 1000/rate`, or division by zero when `rate` is 0. |
| NeuronCellTypes.NumberForward | src/neuron2/cells.py:429 | `number = rate/1000*duration`. The formula reads `rate`, so without a rate it is an undefined name. |
| NeuronCellTypes.SpikeCountTimesInterval | src/neuron2/cells.py:429 | `number*interval` returns `duration` for any non-zero rate. |
| NeuronCellTypes.IntervalInverts | src/neuron2/cells.py:428 | `1000/interval` returns the rate. |
| NeuronCellTypes.NumberInverts | src/neuron2/cells.py:429 | `number*interval` returns the duration. |
| NeuronCellTypes.PoissonDefined | src/neuron2/cells.py:426-430 | Poisson parameters translate iff the rate, when given, is non-zero, and a duration comes with a rate. |
| NeuronCellTypes.PoissonValues | src/neuron2/cells.py:426-430 | The translated Poisson values: start unchanged, `interval = 1000/rate`, and `number = rate/1000*duration`. |
| NeuronCellTypes.PoissonRoundTrip | src/neuron2/cells.py:426-430 | Poisson parameters translate back to what was supplied. |
| NeuronCellTypes.PoissonRateOnly | src/neuron2/cells.py:428 | A rate alone translates to an interval alone. |
| NeuronCellTypes.PoissonRateTwelve | test/system/test_neuron.py:39 | A rate of 12 Hz gives an interval of `1000/12` ms. |
| NeuronCellTypes.TranslationRoundTrip | src/neuron2/cells.py:292-490 | For every standard cell type, reverse translation undoes forward translation. |
| NeuronCellTypes.TranslationsParse | src/neuron2/cells.py:292-490 | No cell type's table uses a reserved word as a name, so every one of its texts parses. |
| NeuronCellTypes.EvaluatedRoundTrip | src/neuron2/cells.py:292-490 | For every standard cell type, the round trip also holds as the program runs it, with each text evaluated. |
| NeuronCellTypes.OverridesInvisible | src/neuron2/cells.py:413-420 | For every type, its forced constants do not change the reverse translation. |
| NeuronCellTypes.ConstructedNative | src/neuron2/cells.py:310-314 | A constructed cell's native parameters are the translation of the completed parameters with the type's constants forced. |
| NeuronCellTypes.ConstructRoundTrip | src/neuron2/cells.py:310-314 | A constructed cell's native parameters translate back to the completed standard parameters, forced constants included. |
| NeuronCellTypes.ConstructEvaluatedRoundTrip | src/neuron2/cells.py:310-314 | A constructed cell's native parameters also read back as the completed standard parameters when the reverse texts are evaluated. |
| NeuronCellTypes.SynapseChoiceAccepted | src/neuron2/cells.py:313-314 | Exactly the neuron types fix a synapse pair, and each pair is accepted by the native synapse lookup. |
| NeuronCellTypes.NativeNamesAccepted | src/neuron2/cells.py:292-490 | Every native name a type produces, forced constants included, is a keyword its native model accepts. |
| Expressions.EvalErrors | src/nest2/synapses.py:50 | Evaluating a formula succeeds only if every name it reads is bound. A failure is a division by zero or an undefined name, and an undefined name is always one the formula reads that is unbound. |
| Expressions.EvalLocal | src/neuron2/cells.py:429 | A formula's value depends only on the names it reads. |
| Expressions.UnreservedBySpelling | src/neuron2/cells.py:296-307 | No reserved word holds an underscore, starts with a capital or is a single letter, so a parameter name spelled that way parses as a name. |

## Left out

- `pyNN.common` is not part of this model. That covers `build_translations`,
  `translate`, `reverse_translate`, the standard types' default tables and
  `checkParameters`. Their behaviour is modelled from the tuples and calls in
  the two backend files. Where those files do not show it, the model states
  its assumptions: partial and extra-key maps, the reverse direction and
  repeated names, each on a line below.
- The defaults of the standard cell types live in `pyNN.common`, so they are
  a parameter of `NeuronCellTypes.Construct`.
- NEURON is not modelled. Hoc objects, `h.Section`, point processes and
  `h.Vector` become an explicit record of the fields the classes read and
  write. The capacitance and leak a new section starts with are a parameter
  of the constructors.
- Recording (`record`, `record_v`, `record_gsyn`) is left out because it only
  attaches NEURON vectors. `use_Tsodyks_Markram_synapses` is left out for the
  same reason: it swaps in a NEURON point process.
- `_new_property` is left out, because its attribute-path reflection has no
  counterpart in a record. Each property it builds is a case of
  `NeuronModels.Get` and `NeuronModels.Set`.
- `SpikeSourceArray` and `VectorSpikeSource` are left out, because spike-time
  arrays are NEURON vectors.
- `setup.py` is left out because it is packaging.
- Floating point: arithmetic is on exact reals. `Product` and `Quotient` name
  the two operations whose cancellation the proofs rely on. Rounding, for
  example in `number*interval`, is not modelled.
- NeuronModels.Set: a write to an attribute the cell lacks is an error here.
  Python would silently create a new attribute.
- The initial `tau` and `e` of a synapse point process are NEURON defaults, so
  the constructors start them at 0.
- The message texts of the `assert`s and `raise`s are not modelled. Only the
  error kind and the offending name are.
- Array-valued parameters and population-level handling are left out. Each
  parameter is a single `real`.
- NeuronCellTypes.PoissonValues states `number` through `Product`/`Quotient`
  rather than as a closed formula, because that is the evaluation order of
  the formula string.
- NeuronCellTypes.FacetsConstruct takes the cell type as a parameter, fixed to
  `IF_facets_hardware1` by its precondition. This is a proof device, not a
  weaker claim.
- NeuronModels.StandardIfReadBack and NeuronModels.BretteGerstnerReadBack
  require a non-zero `c_m` and `tau_m`. A `tau_m` of 0 raises
  `ZeroDivisionError` inside `set_parameters`, and `NeuronModels.Set` models
  that error. A `c_m` of 0 raises nothing: the setter stores `cm = 0` and
  then a leak of 0. Only a later read of `tau_m`, or a later write of `c_m`,
  divides by zero. `NeuronModels.Set` models that too; the read-back lemmas
  just do not cover such a cell.
- The `assert`s at src/neuron2/cells.py:49-50 and src/nest2/synapses.py:25
  are always checked here. Under `python -O` they vanish, and the program
  would go on with an invalid synapse kind or delay fraction.
- NeuronModels.Set: when the `c_m` setter raises on a cell whose capacitance
  is 0, Python has already stored the new `seg.cm`. `Set` returns `Err` and
  drops that partial write, so the cell Python leaves behind is not modelled.
- Translation.ToNativeAsEvaluated and Translation.ToStandardAsEvaluated take
  the rules in table order, and the first one that fails decides the error.
  Python takes them in dictionary order. When two rules fail, the contracts
  only say that the error is one of theirs, not which. For the weight tables
  only the texts that read `lambda` can fail, so the error is the
  `SyntaxError` in any order.
- Translation.ToNative: the real `translate` is not part of this model, and
  the backend only calls it on complete maps. Skipping a rule whose
  standard name is absent is an assumption; the real function may instead
  raise `KeyError` or `NameError`. The results over partial standard maps
  depend on it: Translation.Forward, Translation.RoundTrip,
  Translation.SimpleRoundTrip, NestSynapses.WeightTranslation,
  NestSynapses.WeightRoundTrip, NestSynapses.SpikePairRoundTrip,
  NeuronCellTypes.IfCurrRoundTrip, NeuronCellTypes.IfCondRoundTrip,
  NeuronCellTypes.EifRoundTrip, NeuronCellTypes.FacetsDefined,
  NeuronCellTypes.PoissonDefined, NeuronCellTypes.PoissonRoundTrip,
  NeuronCellTypes.PoissonRateOnly and NeuronCellTypes.TranslationRoundTrip.
- Translation.ToStandard: the real `reverse_translate` is not part of this
  model, and no backend file calls it. It may evaluate every rule, and then
  raise `NameError` when a rule's native name is missing, rather than skip
  that rule. It may also reject extra native keys.
  - The round trips over partial maps depend on the assumption that it skips
    the rule: Translation.RoundTrip, Translation.SimpleRoundTrip,
    NestSynapses.SpikePairRoundTrip, NeuronCellTypes.IfCurrRoundTrip,
    NeuronCellTypes.IfCondRoundTrip, NeuronCellTypes.EifRoundTrip and
    NeuronCellTypes.PoissonRoundTrip.
  - The results that feed it native keys no rule names depend on the
    assumption that it ignores them: Translation.ToStandardIgnoresExtra,
    NestSynapses.AdditiveComponentRoundTrip and
    NestSynapses.MultiplicativeComponentRoundTrip (the `mu` entries),
    NeuronCellTypes.FacetsOverridesIgnored and
    NeuronCellTypes.OverridesInvisible (the forced constants of
    `IF_facets_hardware1`), and through them
    NeuronCellTypes.ConstructRoundTrip and
    NeuronCellTypes.ConstructEvaluatedRoundTrip. These last two supply every
    native name, so they do not depend on the skip.
- NeuronCellTypes.Construct: in the program, a neuron type's
  `self.parameters` also holds `syn_type` and `syn_shape`
  (src/neuron2/cells.py:313-314). The model keeps that pair in the
  `synapse` field of the result, outside the native map. So the
  round trips never meet those two keys, which a real `reverse_translate`
  would also have to skip.
- Translation.BuildTranslations: rejecting a repeated standard or native
  name with `DuplicateName` is this model's way of keeping the table's
  names distinct. Neither backend file shows what the builder does with a
  repeated name; the real builder may keep one of the tuples silently.
- Translation.ForwardText and Translation.ReverseText: a scale's text is
  modelled as a product or quotient with the exact factor. How `pyNN.common`
  prints the factor into the text is not part of this model; a rounded
  factor would change the value.
- The reserved words are decided by a fixed set. The rest of Python's
  grammar is not modelled: every formula here is a well-formed arithmetic
  expression.

## Findings

| source | as written | input that shows it | evidently intended | confidence | as-written member | corrected member |
|---|---|---|---|---|---|---|
| src/nest2/synapses.py:49-50 | The additive table names A_plus's native parameter `lambda`, and alpha's reverse formula is `alpha*lambda`. `lambda` is a reserved word, so the reverse texts `lambda` and `alpha*lambda` do not parse under `eval`. | The default arguments `w_min=0, w_max=1, A_plus=0.01, A_minus=0.01` construct a component, but reverse translation of its parameters raises `SyntaxError`. | A native name that is not a reserved word, or lookup by name rather than `eval`, under which the reverse undoes the forward. | not executed | NestSynapses.AdditiveAsWrittenDefaultsFail | NestSynapses.AdditiveRoundTrip |
| src/nest2/synapses.py:75 | The multiplicative table's `A_minus` reverse formula is `alpha*lambda`. `lambda` is a reserved word, so the text does not parse. Even read as a name it is never defined, because this table names A_plus's native parameter `aLTP`. | The default arguments `w_min=0, w_max=1, A_plus=0.01, A_minus=0.01` translate, but reverse translation raises `SyntaxError`. With names looked up it would raise `NameError: lambda`. | `alpha*aLTP`, which parses and makes reverse translation undo forward translation. | not executed | NestSynapses.MultiplicativeAsWrittenDefaultsFail | NestSynapses.MultiplicativeEvaluatedRoundTrip |
| src/neuron2/cells.py:123 | `memb_init` tests `if v_init:`, so an explicit `0.0` is treated like `None`. | `memb_init(0.0)` on a cell whose `v_init` is -65 mV starts it at -65 mV. | `if v_init is not None:`, so any supplied potential, 0 mV included, is used. | not executed | NeuronModels.MembInitDropsZero | NeuronModels.MembInit |

=== FILE: expressions.dfy ===
/** The restricted arithmetic language of the forward and reverse formulas of a
    translation table: literals, parameter names and the four operators. A
    formula is evaluated against a namespace of parameter values, failing the
    way Python's `eval` does on a missing name or a zero divisor. Whether the
    formula's text parses at all is a separate question, decided by the
    reserved words it uses as names (`Keywords`). */
module Expressions {
  import opened Results

  /** A namespace: parameter name to value. */
  type Env = map<string, real>

  datatype Expr =
    | Lit(value: real)
    | Var(name: string)
    | Add(left: Expr, right: Expr)
    | Sub(left: Expr, right: Expr)
    | Mul(left: Expr, right: Expr)
    | Div(left: Expr, right: Expr)

  /** The parameter names a formula refers to. */
  function FreeVars(e: Expr): set<string> {
    match e
    case Lit(_) => {}
    case Var(x) => {x}
    case Add(a, b) => FreeVars(a) + FreeVars(b)
    case Sub(a, b) => FreeVars(a) + FreeVars(b)
    case Mul(a, b) => FreeVars(a) + FreeVars(b)
    case Div(a, b) => FreeVars(a) + FreeVars(b)
  }

  /** Python 2's reserved words. The formulas are source text handed to
      `eval`, and a text that uses a reserved word as a name does not parse. */
  const Keywords: set<string> := {
    "and", "as", "assert", "break", "class", "continue", "def", "del", "elif", "else",
    "except", "exec", "finally", "for", "from", "global", "if", "import", "in", "is",
    "lambda", "not", "or", "pass", "print", "raise", "return", "try", "while", "with",
    "yield"}

  /** A name spelled with lower-case letters only. */
  predicate LowerCase(w: string) {
    forall j | 0 <= j < |w| :: 'a' <= w[j] <= 'z'
  }

  /** Every reserved word is at least two lower-case letters. */
  lemma KeywordSpelling()
    ensures forall w | w in Keywords :: 2 <= |w| && LowerCase(w)
  {
  }

  /** A name holding an underscore, starting with a capital, or of a single
      letter. */
  predicate SpelledApart(w: string) {
    '_' in w || |w| < 2 || 'A' <= w[0] <= 'Z'
  }

  /** Such a spelling is not a word of two or more lower-case letters. */
  lemma NotLowerWord(w: string)
    requires SpelledApart(w)
    ensures !(2 <= |w| && LowerCase(w))
  {
    if '_' in w {
      var j :| 0 <= j < |w| && w[j] == '_';
    }
  }

  /** So a name spelled apart is not a reserved word. */
  lemma UnreservedBySpelling(w: string)
    requires SpelledApart(w)
    ensures w !in Keywords
  {
    KeywordSpelling();
    NotLowerWord(w);
  }

  /** Real multiplication and division, named so that the solver treats
      products and quotients of evaluated sub-formulas as ordinary terms:
      left as `*` and `/`, nonlinear real arithmetic in the round-trip proofs
      runs past the solver's budget. The lemmas below state the only
      arithmetic facts those proofs use. */
  function Product(x: real, y: real): real {
    x * y
  }

  function Quotient(x: real, y: real): real
    requires y != 0.0
  {
    x / y
  }

  /** Dividing by a non-zero factor undoes multiplying by it. */
  lemma QuotientOfProduct(f: real, x: real)
    requires f != 0.0
    ensures Quotient(Product(f, x), f) == x
    ensures Product(Quotient(x, f), f) == x
  {
  }

  /** Dividing a non-zero constant by a quotient of it gives back the divisor. */
  lemma QuotientOfQuotient(c: real, x: real)
    requires c != 0.0 && x != 0.0
    ensures Quotient(c, x) != 0.0
    ensures Quotient(c, Quotient(c, x)) == x
  {
    assert Quotient(c, x) * x == c;
  }

  /** A product of non-zero factors is non-zero. */
  lemma ProductNonZero(x: real, y: real)
    requires x != 0.0 && y != 0.0
    ensures Product(x, y) != 0.0
  {
  }

  /** Left-to-right evaluation, as Python evaluates a binary operator. */
  function Eval(e: Expr, env: Env): Result<real> {
    match e
    case Lit(v) => Ok(v)
    case Var(x) => if x in env then Ok(env[x]) else Err(UndefinedName(x))
    case Add(a, b) =>
      var x :- Eval(a, env);
      var y :- Eval(b, env);
      Ok(x + y)
    case Sub(a, b) =>
      var x :- Eval(a, env);
      var y :- Eval(b, env);
      Ok(x - y)
    case Mul(a, b) =>
      var x :- Eval(a, env);
      var y :- Eval(b, env);
      Ok(Product(x, y))
    case Div(a, b) =>
      var x :- Eval(a, env);
      var y :- Eval(b, env);
      if y == 0.0 then Err(DivisionByZero) else Ok(Quotient(x, y))
  }

  /** Evaluation fails only with a name the formula mentions and the namespace
      lacks, or with a zero divisor; a successful evaluation found every name. */
  lemma {:induction false} EvalErrors(e: Expr, env: Env)
    ensures Eval(e, env).Ok? ==> FreeVars(e) <= env.Keys
    ensures Eval(e, env).Err? ==>
              Eval(e, env).error == DivisionByZero ||
              (Eval(e, env).error.UndefinedName? && Eval(e, env).error.name in FreeVars(e) - env.Keys)
  {
    match e
    case Lit(_) =>
    case Var(_) =>
    case Add(a, b) => EvalErrors(a, env); EvalErrors(b, env);
    case Sub(a, b) => EvalErrors(a, env); EvalErrors(b, env);
    case Mul(a, b) => EvalErrors(a, env); EvalErrors(b, env);
    case Div(a, b) => EvalErrors(a, env); EvalErrors(b, env);
  }

  /** `eval` of a formula's text. Python parses the whole text before it
      evaluates anything, so a reserved word used as a name is a syntax error
      whatever the namespace holds; a text that parses fails only as `Eval`
      does. */
  function EvalText(e: Expr, env: Env): (r: Result<real>)
    ensures r == Err(InvalidSyntax) <==> !(FreeVars(e) !! Keywords)
    ensures r.Ok? <==> FreeVars(e) !! Keywords && Eval(e, env).Ok?
  {
    EvalErrors(e, env);
    if FreeVars(e) !! Keywords then Eval(e, env) else Err(InvalidSyntax)
  }

  /** With every name bound, the only possible failure is a zero divisor. */
  lemma ClosedEvalNeverUndefined(e: Expr, env: Env)
    requires FreeVars(e) <= env.Keys
    ensures Eval(e, env).Ok? || Eval(e, env).error == DivisionByZero
  {
    EvalErrors(e, env);
  }

  /** `env1` and `env2` bind the same names of `xs`, to the same values. */
  ghost predicate AgreeOn(env1: Env, env2: Env, xs: set<string>) {
    forall x | x in xs :: (x in env1 <==> x in env2) && (x in env1 ==> env1[x] == env2[x])
  }

  /** Two namespaces that agree on a formula's names give it the same value. */
  lemma {:induction false} EvalLocal(e: Expr, env1: Env, env2: Env)
    requires AgreeOn(env1, env2, FreeVars(e))
    ensures Eval(e, env1) == Eval(e, env2)
  {
    match e
    case Lit(_) =>
    case Var(x) => assert x in FreeVars(e);
    case Add(a, b) => EvalLocal(a, env1, env2); EvalLocal(b, env1, env2);
    case Sub(a, b) => EvalLocal(a, env1, env2); EvalLocal(b, env1, env2);
    case Mul(a, b) => EvalLocal(a, env1, env2); EvalLocal(b, env1, env2);
    case Div(a, b) => EvalLocal(a, env1, env2); EvalLocal(b, env1, env2);
  }
}

=== FILE: nest_synapses.dfy ===
/** The NEST backend's synaptic plasticity components: the translation tables
    of the additive and multiplicative weight dependences and of the
    spike-pair timing rule, their constructors (hard backend constraint,
    translation, injected native constants), and the STDP mechanism's
    delay-fraction precondition. */
module NestSynapses {
  import opened Results
  import opened Expressions
  import opened Translation

  /** The only native model these components can target. */
  const StdpModels: set<string> := {"stdp_synapse"}

  /** alpha's forward formula, shared by both weight dependences. */
  const AlphaForwardExpr: Expr := Div(Var("A_minus"), Var("A_plus"))

  /** The table shape both weight dependences declare: w_max scaled to the
      native unit, w_min and A_plus renamed, and A_minus carried as the ratio
      alpha = A_minus/A_plus, whose reverse formula multiplies alpha by the
      native parameter named `factor`. */
  function WeightTable(wMaxNative: string, aPlusNative: string, factor: string): Table {
    [ Rule("w_max", wMaxNative, Scale(1000.0)),   // unit conversion
      Rule("w_min", "w_min_always_zero_in_NEST", Rename),
      Rule("A_plus", aPlusNative, Rename),
      Rule("A_minus", "alpha", Formula(AlphaForwardExpr, Mul(Var("alpha"), Var(factor)))) ]
  }

  /** alpha's reverse reads `lambda`, which is A_plus's native name here. */
  const AdditiveTable: Table := WeightTable("Wmax", "lambda", "lambda")

  /** The multiplicative table as declared: its reverse formula for A_minus
      still reads `lambda`, which this table never produces. */
  const MultiplicativeTableAsWritten: Table := WeightTable("wmax", "aLTP", "lambda")

  /** The multiplicative table with the reverse formula reading A_plus's
      native name, `aLTP`. */
  const MultiplicativeTable: Table := WeightTable("wmax", "aLTP", "aLTP")

  const SpikePairTable: Table := [
    Rule("tau_plus", "tau_plus", Rename),
    Rule("tau_minus", "Tau_minus", Rename)
  ]

  /** The native names a weight table uses are pairwise different, and
      different from the two constants the constructors inject. */
  predicate NamesApart(wMaxNative: string, aPlusNative: string) {
    && wMaxNative != aPlusNative
    && wMaxNative !in {"w_min_always_zero_in_NEST", "alpha", "mu_plus", "mu_minus"}
    && aPlusNative !in {"w_min_always_zero_in_NEST", "alpha", "mu_plus", "mu_minus"}
  }

  /** A constructed plasticity component: its native parameters and the native
      models it may be used with. */
  datatype SynapseComponent = SynapseComponent(parameters: Params, possibleModels: set<string>)

  /** The standard arguments of a weight dependence, keyed by name. */
  function WeightArguments(wMin: real, wMax: real, aPlus: real, aMinus: real): Params {
    map["w_min" := wMin, "w_max" := wMax, "A_plus" := aPlus, "A_minus" := aMinus]
  }

  /** The forward formula of alpha: A_minus/A_plus, failing on a zero A_plus. */
  lemma AlphaForward(r: Rule, s: Params)
    requires r.std == "A_minus" && r.transform.Formula? && r.transform.forward == AlphaForwardExpr
    requires "A_minus" in s && "A_plus" in s
    ensures ForwardValue(r, s) ==
              if s["A_plus"] == 0.0 then Err(DivisionByZero) else Ok(Quotient(s["A_minus"], s["A_plus"]))
  {
    assert Eval(Var("A_minus"), s) == Ok(s["A_minus"]);
    assert Eval(Var("A_plus"), s) == Ok(s["A_plus"]);
  }

  lemma WeightNames(wMaxNative: string, aPlusNative: string, factor: string)
    requires NamesApart(wMaxNative, aPlusNative)
    ensures StdNames(WeightTable(wMaxNative, aPlusNative, factor)) == {"w_max", "w_min", "A_plus", "A_minus"}
    ensures NativeNames(WeightTable(wMaxNative, aPlusNative, factor)) ==
              {wMaxNative, "w_min_always_zero_in_NEST", aPlusNative, "alpha"}
    ensures Distinct(WeightTable(wMaxNative, aPlusNative, factor))
  {
    var t := WeightTable(wMaxNative, aPlusNative, factor);
    assert t[0].std == "w_max" && t[1].std == "w_min" && t[2].std == "A_plus" && t[3].std == "A_minus";
    assert t[0].native == wMaxNative && t[1].native == "w_min_always_zero_in_NEST";
    assert t[2].native == aPlusNative && t[3].native == "alpha";
  }

  /** Translation of complete weight-dependence arguments by a weight table:
      every native value, and the one failure (A_plus zero). */
  lemma WeightTranslation(wMaxNative: string, aPlusNative: string, factor: string,
                          wMin: real, wMax: real, aPlus: real, aMinus: real)
    requires NamesApart(wMaxNative, aPlusNative)
    ensures var r := ToNative(WeightTable(wMaxNative, aPlusNative, factor), WeightArguments(wMin, wMax, aPlus, aMinus));
            && (r.Ok? <==> aPlus != 0.0)
            && (aPlus == 0.0 ==> r == Err(DivisionByZero))
            && (r.Ok? ==> r.value == map[wMaxNative := 1000.0 * wMax, "w_min_always_zero_in_NEST" := wMin,
                                        aPlusNative := aPlus, "alpha" := aMinus / aPlus])
  {
    if aPlus != 0.0 {
      WeightTranslationSucceeds(wMaxNative, aPlusNative, factor, wMin, wMax, aPlus, aMinus);
    } else {
      WeightTranslationFails(wMaxNative, aPlusNative, factor, wMin, wMax, aMinus);
    }
  }

  lemma WeightTranslationSucceeds(wMaxNative: string, aPlusNative: string, factor: string,
                                  wMin: real, wMax: real, aPlus: real, aMinus: real)
    requires NamesApart(wMaxNative, aPlusNative) && aPlus != 0.0
    ensures ToNative(WeightTable(wMaxNative, aPlusNative, factor), WeightArguments(wMin, wMax, aPlus, aMinus))
            == Ok(map[wMaxNative := 1000.0 * wMax, "w_min_always_zero_in_NEST" := wMin,
                      aPlusNative := aPlus, "alpha" := aMinus / aPlus])
  {
    WeightNames(wMaxNative, aPlusNative, factor);
    WeightForwardValues(wMaxNative, aPlusNative, factor, wMin, wMax, aPlus, aMinus);
    ToNativeExact(WeightTable(wMaxNative, aPlusNative, factor), WeightArguments(wMin, wMax, aPlus, aMinus),
                  map[wMaxNative := 1000.0 * wMax, "w_min_always_zero_in_NEST" := wMin,
                      aPlusNative := aPlus, "alpha" := aMinus / aPlus]);
  }

  lemma WeightTranslationFails(wMaxNative: string, aPlusNative: string, factor: string,
                               wMin: real, wMax: real, aMinus: real)
    requires NamesApart(wMaxNative, aPlusNative)
    ensures ToNative(WeightTable(wMaxNative, aPlusNative, factor), WeightArguments(wMin, wMax, 0.0, aMinus))
            == Err(DivisionByZero)
  {
    var s := WeightArguments(wMin, wMax, 0.0, aMinus);
    var t := WeightTable(wMaxNative, aPlusNative, factor);
    WeightNames(wMaxNative, aPlusNative, factor);
    AlphaForward(t[3], s);
    assert ForwardValue(t[3], s) == Err(DivisionByZero);
  }

  /** Each rule of a weight table produces the value its native name gets. */
  lemma WeightForwardValues(wMaxNative: string, aPlusNative: string, factor: string,
                            wMin: real, wMax: real, aPlus: real, aMinus: real)
    requires NamesApart(wMaxNative, aPlusNative) && aPlus != 0.0
    ensures var t := WeightTable(wMaxNative, aPlusNative, factor);
            var expected := map[wMaxNative := 1000.0 * wMax, "w_min_always_zero_in_NEST" := wMin,
                                aPlusNative := aPlus, "alpha" := aMinus / aPlus];
            forall i | 0 <= i < |t| :: ForwardValue(t[i], WeightArguments(wMin, wMax, aPlus, aMinus)) == Ok(expected[t[i].native])
  {
    var t := WeightTable(wMaxNative, aPlusNative, factor);
    AlphaForward(t[3], WeightArguments(wMin, wMax, aPlus, aMinus));
  }

  /** The translated arguments of a weight dependence whose minimum weight
      was accepted. */
  function TranslatedWeights(wMaxNative: string, aPlusNative: string,
                             wMin: real, wMax: real, aPlus: real, aMinus: real): (r: Result<Params>)
    requires NamesApart(wMaxNative, aPlusNative)
    ensures r == if aPlus == 0.0 then Err(DivisionByZero)
                 else Ok(map[wMaxNative := 1000.0 * wMax, "w_min_always_zero_in_NEST" := wMin,
                             aPlusNative := aPlus, "alpha" := aMinus / aPlus])
  {
    WeightTranslation(wMaxNative, aPlusNative, aPlusNative, wMin, wMax, aPlus, aMinus);
    ToNative(WeightTable(wMaxNative, aPlusNative, aPlusNative), WeightArguments(wMin, wMax, aPlus, aMinus))
  }

  /** The constructor both weight dependences share: refuse a non-zero
      minimum weight, translate, then inject mu_plus = mu_minus = `mu`. */
  function WeightDependence(wMaxNative: string, aPlusNative: string, mu: real,
                            wMin: real, wMax: real, aPlus: real, aMinus: real): (r: Result<SynapseComponent>)
    requires NamesApart(wMaxNative, aPlusNative)
    ensures wMin != 0.0 ==> r == Err(UnsupportedConfiguration("w_min"))
    ensures wMin == 0.0 && aPlus == 0.0 ==> r == Err(DivisionByZero)
    ensures r.Ok? <==> wMin == 0.0 && aPlus != 0.0
    ensures r.Ok? ==> r.value.possibleModels == StdpModels
    ensures r.Ok? ==>
              r.value.parameters ==
                map[wMaxNative := 1000.0 * wMax, "w_min_always_zero_in_NEST" := 0.0, aPlusNative := aPlus,
                    "alpha" := aMinus / aPlus, "mu_plus" := mu, "mu_minus" := mu]
  {
    if wMin != 0.0 then Err(UnsupportedConfiguration("w_min"))
    else
      var native :- TranslatedWeights(wMaxNative, aPlusNative, wMin, wMax, aPlus, aMinus);
      OverridesUpdate(native, "mu_plus", mu, "mu_minus", mu);
      Ok(SynapseComponent(ApplyOverrides(native, map["mu_plus" := mu, "mu_minus" := mu]), StdpModels))
  }

  /** The reverse of the alpha rule, alpha * (A_plus's native value), undoes
      its forward A_minus/A_plus whenever that succeeded. */
  lemma AlphaInverts(r: Rule, s: Params, n: Params, aPlusNative: string)
    requires r == Rule("A_minus", "alpha", Formula(AlphaForwardExpr, Mul(Var("alpha"), Var(aPlusNative))))
    requires "A_minus" in s ==> "alpha" in n && ForwardValue(r, s) == Ok(n["alpha"])
    requires "A_plus" in s ==> aPlusNative in n && n[aPlusNative] == s["A_plus"]
    ensures Inverts(r, s, n)
  {
    if "A_minus" in s {
      assert "A_plus" in s by {
        EvalErrors(AlphaForwardExpr, s);
        assert "A_plus" in FreeVars(AlphaForwardExpr);
      }
      var am, ap := s["A_minus"], s["A_plus"];
      AlphaForward(r, s);
      assert ap != 0.0 && n["alpha"] == Quotient(am, ap);
      QuotientOfProduct(ap, am);
      assert Eval(Var("alpha"), n) == Ok(Quotient(am, ap)) && Eval(Var(aPlusNative), n) == Ok(ap);
    }
  }

  /** Gathers the facts AlphaInverts needs from a successful translation. */
  lemma AlphaInvertsIn(t: Table, s: Params, n: Params, aPlusNative: string)
    requires Distinct(t) && |t| == 4
    requires ToNative(t, s) == Ok(n)
    requires t[2] == Rule("A_plus", aPlusNative, Rename)
    requires t[3] == Rule("A_minus", "alpha", Formula(AlphaForwardExpr, Mul(Var("alpha"), Var(aPlusNative))))
    ensures Inverts(t[3], s, n)
  {
    if "A_minus" in s { TranslatedAt(t, s, n, 3); }
    if "A_plus" in s { TranslatedAt(t, s, n, 2); }
    AlphaInverts(t[3], s, n, aPlusNative);
  }

  /** Standard -> native -> standard through a weight table whose alpha
      reverse reads A_plus's native name is exact for every parameter set
      that translates (a zero A_plus does not). */
  lemma WeightRoundTrip(wMaxNative: string, aPlusNative: string, s: Params, n: Params)
    requires NamesApart(wMaxNative, aPlusNative)
    requires ToNative(WeightTable(wMaxNative, aPlusNative, aPlusNative), s) == Ok(n)
    ensures ToStandard(WeightTable(wMaxNative, aPlusNative, aPlusNative), n) == Ok(s)
  {
    var t := WeightTable(wMaxNative, aPlusNative, aPlusNative);
    WeightNames(wMaxNative, aPlusNative, aPlusNative);
    AlphaInvertsIn(t, s, n, aPlusNative);
    assert forall i | 0 <= i < 3 :: Inverts(t[i], s, n);
    RoundTrip(t, s, n);
  }

  lemma WeightReverseVars(wMaxNative: string, aPlusNative: string, factor: string)
    ensures ReverseVars(WeightTable(wMaxNative, aPlusNative, factor)) == {"alpha", factor}
  {
    var t := WeightTable(wMaxNative, aPlusNative, factor);
    assert FreeVars(t[3].transform.reverse) == {"alpha", factor};
    forall x | x in ReverseVars(t) ensures x in {"alpha", factor} {
      var i :| 0 <= i < |t| && t[i].transform.Formula? && x in FreeVars(t[i].transform.reverse);
      assert i == 3;
    }
    assert "alpha" in ReverseVars(t) && factor in ReverseVars(t) by {
      assert t[3].transform.Formula?;
    }
  }

  /** The injected mu constants are neither native names of the table nor
      read by its reverse formulas. */
  lemma MuNotRead(wMaxNative: string, aPlusNative: string, mu: real)
    requires NamesApart(wMaxNative, aPlusNative)
    ensures forall k | k in map["mu_plus" := mu, "mu_minus" := mu] ::
              k !in NativeNames(WeightTable(wMaxNative, aPlusNative, aPlusNative)) &&
              k !in ReverseVars(WeightTable(wMaxNative, aPlusNative, aPlusNative))
  {
    WeightNames(wMaxNative, aPlusNative, aPlusNative);
    WeightReverseVars(wMaxNative, aPlusNative, aPlusNative);
    assert "mu_plus" !in {"w_min_always_zero_in_NEST", "alpha"};
    assert "mu_minus" !in {"w_min_always_zero_in_NEST", "alpha"};
  }

  /** Reading a constructed weight-dependence component back through its
      table recovers the constructor's arguments: the injected mu constants
      are not read. */
  lemma WeightComponentRoundTrip(wMaxNative: string, aPlusNative: string, mu: real,
                                 wMax: real, aPlus: real, aMinus: real)
    requires NamesApart(wMaxNative, aPlusNative)
    requires WeightDependence(wMaxNative, aPlusNative, mu, 0.0, wMax, aPlus, aMinus).Ok?
    ensures ToStandard(WeightTable(wMaxNative, aPlusNative, aPlusNative),
                       WeightDependence(wMaxNative, aPlusNative, mu, 0.0, wMax, aPlus, aMinus).value.parameters)
            == Ok(WeightArguments(0.0, wMax, aPlus, aMinus))
  {
    var t := WeightTable(wMaxNative, aPlusNative, aPlusNative);
    var s := WeightArguments(0.0, wMax, aPlus, aMinus);
    var n := map[wMaxNative := 1000.0 * wMax, "w_min_always_zero_in_NEST" := 0.0, aPlusNative := aPlus,
                 "alpha" := aMinus / aPlus];
    var extra := map["mu_plus" := mu, "mu_minus" := mu];
    WeightTranslation(wMaxNative, aPlusNative, aPlusNative, 0.0, wMax, aPlus, aMinus);
    WeightRoundTrip(wMaxNative, aPlusNative, s, n);
    MuNotRead(wMaxNative, aPlusNative, mu);
    ToStandardIgnoresExtra(t, n, extra);
    OverridesUpdate(n, "mu_plus", mu, "mu_minus", mu);
  }

  /** A weight table whose alpha reverse reads a name the table never
      produces passes the forward direction but fails the static scope
      check. */
  lemma MismatchedFactorUnbound(wMaxNative: string, aPlusNative: string, factor: string)
    requires NamesApart(wMaxNative, aPlusNative)
    requires factor !in {wMaxNative, "w_min_always_zero_in_NEST", aPlusNative, "alpha"}
    ensures UnboundNames(WeightTable(wMaxNative, aPlusNative, factor)[3], WeightTable(wMaxNative, aPlusNative, factor))
            == {factor}
    ensures !WellFormed(WeightTable(wMaxNative, aPlusNative, factor))
  {
    var u := WeightTable(wMaxNative, aPlusNative, factor);
    WeightNames(wMaxNative, aPlusNative, factor);
    assert FreeVars(AlphaForwardExpr) == {"A_minus", "A_plus"};
    assert FreeVars(Mul(Var("alpha"), Var(factor))) == {"alpha", factor};
    assert factor in FreeVars(u[3].transform.reverse) && factor !in NativeNames(u);
    assert factor in UnboundNames(u[3], u);
    assert !RuleChecked(u[3], u);
  }

  /** Reverse values of such a table on its own output: the unit and rename
      rules succeed; alpha's formula fails on the unbound name. */
  lemma MismatchedFactorReverseValues(wMaxNative: string, aPlusNative: string, factor: string, n: Params)
    requires NamesApart(wMaxNative, aPlusNative)
    requires factor !in {wMaxNative, "w_min_always_zero_in_NEST", aPlusNative, "alpha"}
    requires n.Keys <= NativeNames(WeightTable(wMaxNative, aPlusNative, factor)) && "alpha" in n
    ensures forall i | 0 <= i < 3 && WeightTable(wMaxNative, aPlusNative, factor)[i].native in n ::
              ReverseValue(WeightTable(wMaxNative, aPlusNative, factor)[i], n).Ok?
    ensures ReverseValue(WeightTable(wMaxNative, aPlusNative, factor)[3], n) == Err(UndefinedName(factor))
  {
    WeightNames(wMaxNative, aPlusNative, factor);
    assert factor !in n;
    assert Eval(Var("alpha"), n) == Ok(n["alpha"]);
    assert Eval(Var(factor), n) == Err(UndefinedName(factor));
  }

  /** ...and reverse translation of anything the forward translation
      produced from an A_minus fails on that unbound name. */
  lemma MismatchedFactorFails(wMaxNative: string, aPlusNative: string, factor: string, s: Params, n: Params)
    requires NamesApart(wMaxNative, aPlusNative)
    requires factor !in {wMaxNative, "w_min_always_zero_in_NEST", aPlusNative, "alpha"}
    requires ToNative(WeightTable(wMaxNative, aPlusNative, factor), s) == Ok(n)
    requires "A_minus" in s
    ensures ToStandard(WeightTable(wMaxNative, aPlusNative, factor), n) == Err(UndefinedName(factor))
  {
    var u := WeightTable(wMaxNative, aPlusNative, factor);
    WeightNames(wMaxNative, aPlusNative, factor);
    assert n.Keys <= NativeNames(u) by {
      assert n.Keys == Targets(u, s);
    }
    TranslatedAt(u, s, n, 3);
    MismatchedFactorReverseValues(wMaxNative, aPlusNative, factor, n);
    ReverseFailsAt(u, n, 3, UndefinedName(factor));
  }

  /** The names every weight table uses, besides the two given native
      names, are not reserved words. */
  lemma WeightNamesUnreserved()
    ensures "w_max" !in Keywords && "w_min" !in Keywords
    ensures "A_plus" !in Keywords && "A_minus" !in Keywords
    ensures "alpha" !in Keywords && "w_min_always_zero_in_NEST" !in Keywords
  {
  }

  /** Neither native name a weight table is given is a reserved word. */
  predicate Unreserved(wMaxNative: string, aPlusNative: string) {
    wMaxNative !in Keywords && aPlusNative !in Keywords
  }

  /** The forward texts of every weight table parse, whatever its native
      names: they mention only the standard names. So Python's `translate`
      and the model's agree, and the constructors are unaffected by a
      reserved native name. */
  lemma WeightForwardAsEvaluated(wMaxNative: string, aPlusNative: string, factor: string, s: Params)
    ensures ToNativeAsEvaluated(WeightTable(wMaxNative, aPlusNative, factor), s)
            == ToNative(WeightTable(wMaxNative, aPlusNative, factor), s)
  {
    WeightForwardParses(wMaxNative, aPlusNative, factor);
    EvaluatedForwardAgrees(WeightTable(wMaxNative, aPlusNative, factor), s);
  }

  /** The forward texts read only the standard weight names. */
  lemma WeightForwardParses(wMaxNative: string, aPlusNative: string, factor: string)
    ensures forall s: Params :: ForwardParses(WeightTable(wMaxNative, aPlusNative, factor), s)
  {
    var t := WeightTable(wMaxNative, aPlusNative, factor);
    WeightNamesUnreserved();
    PlainReads(t);
    assert ForwardReads(t[3]) == {"A_minus", "A_plus"};
    assert forall i | 0 <= i < |t| :: ForwardReads(t[i]) !! Keywords;
  }

  /** With alpha's reverse text unparsable, every other reverse text of a
      weight table that parses evaluates: a unit scale or a rename. */
  lemma WeightReverseParsedDefined(wMaxNative: string, aPlusNative: string, factor: string, n: Params)
    requires factor in Keywords
    ensures ReverseParsedDefined(WeightTable(wMaxNative, aPlusNative, factor), n)
  {
    var t := WeightTable(wMaxNative, aPlusNative, factor);
    assert factor in ReverseReads(t[3]);
    forall j | 0 <= j < |t| && t[j].native in n && ReverseReads(t[j]) !! Keywords
      ensures ReverseValue(t[j], n).Ok?
    {
      assert j < 3;
    }
  }

  /** A weight table whose alpha reverse reads a reserved word cannot read
      back any native set holding `alpha`, the one name a translated A_minus
      reaches (AlphaTranslated), as the program runs it. */
  lemma ReservedFactorFails(wMaxNative: string, aPlusNative: string, factor: string, n: Params)
    requires factor in Keywords && "alpha" in n
    ensures ToStandardAsEvaluated(WeightTable(wMaxNative, aPlusNative, factor), n) == Err(InvalidSyntax)
  {
    var t := WeightTable(wMaxNative, aPlusNative, factor);
    assert t[3].native == "alpha";
    assert factor in ReverseReads(t[3]);
    WeightReverseParsedDefined(wMaxNative, aPlusNative, factor, n);
    ReservedWordFails(t, n, 3, factor);
  }

  /** A translated A_minus always reaches the native name `alpha`. */
  lemma AlphaTranslated(wMaxNative: string, aPlusNative: string, factor: string, s: Params, n: Params)
    requires NamesApart(wMaxNative, aPlusNative)
    requires ToNative(WeightTable(wMaxNative, aPlusNative, factor), s) == Ok(n)
    requires "A_minus" in s
    ensures "alpha" in n
  {
    var t := WeightTable(wMaxNative, aPlusNative, factor);
    WeightNames(wMaxNative, aPlusNative, factor);
    assert t[3].std == "A_minus";
    TranslatedAt(t, s, n, 3);
  }

  /** A weight table whose alpha reverse reads A_plus's native name, and
      whose native names are not reserved words, passes the static check. */
  lemma WeightTableWellFormed(wMaxNative: string, aPlusNative: string)
    requires NamesApart(wMaxNative, aPlusNative) && Unreserved(wMaxNative, aPlusNative)
    ensures WellFormed(WeightTable(wMaxNative, aPlusNative, aPlusNative))
  {
    var t := WeightTable(wMaxNative, aPlusNative, aPlusNative);
    WeightNames(wMaxNative, aPlusNative, aPlusNative);
    WeightNamesUnreserved();
    PlainReads(t);
    assert FreeVars(AlphaForwardExpr) == {"A_minus", "A_plus"};
    assert FreeVars(Mul(Var("alpha"), Var(aPlusNative))) == {"alpha", aPlusNative};
    assert Parses(t[0]) && Parses(t[1]) && Parses(t[2]) && Parses(t[3]);
    assert RuleChecked(t[3], t);
  }

  // ---------------------------------------------------------------------------
  // Additive weight dependence
  // ---------------------------------------------------------------------------

  lemma AdditiveNames()
    ensures StdNames(AdditiveTable) == {"w_max", "w_min", "A_plus", "A_minus"}
    ensures NativeNames(AdditiveTable) == {"Wmax", "w_min_always_zero_in_NEST", "lambda", "alpha"}
    ensures Distinct(AdditiveTable)
  {
    WeightNames("Wmax", "lambda", "lambda");
  }

  /** AdditiveWeightDependence.__init__: refuses a non-zero minimum weight,
      translates, then injects mu_plus = mu_minus = 0 (additive updates). */
  function AdditiveWeightDependence(wMin: real := 0.0, wMax: real := 1.0,
                                    aPlus: real := 0.01, aMinus: real := 0.01): (r: Result<SynapseComponent>)
    ensures wMin != 0.0 ==> r == Err(UnsupportedConfiguration("w_min"))
    ensures wMin == 0.0 && aPlus == 0.0 ==> r == Err(DivisionByZero)
    ensures r.Ok? <==> wMin == 0.0 && aPlus != 0.0
    ensures r.Ok? ==> r.value.possibleModels == StdpModels
    ensures r.Ok? ==>
              r.value.parameters ==
                map["Wmax" := 1000.0 * wMax, "w_min_always_zero_in_NEST" := 0.0, "lambda" := aPlus,
                    "alpha" := aMinus / aPlus, "mu_plus" := 0.0, "mu_minus" := 0.0]
  {
    WeightDependence("Wmax", "lambda", 0.0, wMin, wMax, aPlus, aMinus)
  }

  /** The defaults give Wmax = 1000 and alpha = 1. */
  lemma AdditiveDefaults()
    ensures AdditiveWeightDependence() ==
              Ok(SynapseComponent(
                   map["Wmax" := 1000.0, "w_min_always_zero_in_NEST" := 0.0, "lambda" := 0.01,
                       "alpha" := 1.0, "mu_plus" := 0.0, "mu_minus" := 0.0],
                   {"stdp_synapse"}))
  {
  }

  /** Standard -> native -> standard through the additive table is exact for
      every parameter set that translates (a zero A_plus does not), when the
      native names are looked up rather than parsed as Python text. */
  lemma AdditiveRoundTrip(s: Params, n: Params)
    requires ToNative(AdditiveTable, s) == Ok(n)
    ensures ToStandard(AdditiveTable, n) == Ok(s)
  {
    WeightRoundTrip("Wmax", "lambda", s, n);
  }

  /** Reading a constructed additive component back through its table, with
      names looked up, recovers the constructor's arguments. */
  lemma AdditiveComponentRoundTrip(wMax: real, aPlus: real, aMinus: real)
    requires AdditiveWeightDependence(0.0, wMax, aPlus, aMinus).Ok?
    ensures ToStandard(AdditiveTable, AdditiveWeightDependence(0.0, wMax, aPlus, aMinus).value.parameters)
            == Ok(WeightArguments(0.0, wMax, aPlus, aMinus))
  {
    WeightComponentRoundTrip("Wmax", "lambda", 0.0, wMax, aPlus, aMinus);
  }

  /** The additive table's formulas are closed over its names and its
      forward texts parse, but NEST's native name `lambda` is a Python
      reserved word: the reverse texts of A_plus and A_minus do not parse. */
  lemma AdditiveTableReserved()
    ensures forall i | 0 <= i < |AdditiveTable| :: UnboundNames(AdditiveTable[i], AdditiveTable) == {}
    ensures forall i | 0 <= i < |AdditiveTable| :: ForwardReads(AdditiveTable[i]) !! Keywords
    ensures ReverseReads(AdditiveTable[2]) == {"lambda"}
    ensures ReverseReads(AdditiveTable[3]) == {"alpha", "lambda"}
    ensures "lambda" in Keywords
    ensures !WellFormed(AdditiveTable)
  {
    var t := AdditiveTable;
    AdditiveNames();
    WeightNamesUnreserved();
    assert FreeVars(AlphaForwardExpr) == {"A_minus", "A_plus"};
    assert FreeVars(Mul(Var("alpha"), Var("lambda"))) == {"alpha", "lambda"};
    assert !Parses(t[2]);
  }

  /** As the program runs it, reverse translation of anything the additive
      table produced from an A_plus or an A_minus is a syntax error. */
  lemma AdditiveAsWrittenReverseFails(s: Params, n: Params)
    requires ToNativeAsEvaluated(AdditiveTable, s) == Ok(n)
    requires "A_plus" in s || "A_minus" in s
    ensures ToStandardAsEvaluated(AdditiveTable, n) == Err(InvalidSyntax)
  {
    var t := AdditiveTable;
    AdditiveNames();
    AdditiveTableReserved();
    WeightForwardAsEvaluated("Wmax", "lambda", "lambda", s);
    WeightReverseParsedDefined("Wmax", "lambda", "lambda", n);
    if "A_plus" in s {
      TranslatedAt(t, s, n, 2);
      ReservedWordFails(t, n, 2, "lambda");
    } else {
      TranslatedAt(t, s, n, 3);
      ReservedWordFails(t, n, 3, "lambda");
    }
  }

  /** A concrete instance: the component the default arguments construct
      cannot be read back. */
  lemma AdditiveAsWrittenDefaultsFail()
    ensures AdditiveWeightDependence().Ok?
    ensures ToStandardAsEvaluated(AdditiveTable, AdditiveWeightDependence().value.parameters) == Err(InvalidSyntax)
  {
    AdditiveDefaults();
    AdditiveTableReserved();
    WeightReverseParsedDefined("Wmax", "lambda", "lambda", AdditiveWeightDependence().value.parameters);
    ReservedWordFails(AdditiveTable, AdditiveWeightDependence().value.parameters, 2, "lambda");
  }

  // ---------------------------------------------------------------------------
  // Multiplicative weight dependence
  // ---------------------------------------------------------------------------

  lemma MultiplicativeNames()
    ensures StdNames(MultiplicativeTable) == {"w_max", "w_min", "A_plus", "A_minus"}
    ensures NativeNames(MultiplicativeTable) == {"wmax", "w_min_always_zero_in_NEST", "aLTP", "alpha"}
    ensures Distinct(MultiplicativeTable)
  {
    WeightNames("wmax", "aLTP", "aLTP");
  }

  /** The declared table and the corrected one translate forward identically:
      they differ only in a reverse formula. */
  lemma MultiplicativeForwardUnchanged(s: Params)
    ensures ToNative(MultiplicativeTableAsWritten, s) == ToNative(MultiplicativeTable, s)
  {
    SameForwardSameNative(MultiplicativeTableAsWritten, MultiplicativeTable, s);
  }

  /** The static scope check flags `lambda` in the declared table. */
  lemma MultiplicativeAsWrittenUnbound()
    ensures UnboundNames(MultiplicativeTableAsWritten[3], MultiplicativeTableAsWritten) == {"lambda"}
    ensures !WellFormed(MultiplicativeTableAsWritten)
  {
    MismatchedFactorUnbound("wmax", "aLTP", "lambda");
  }

  /** With the declared table, reverse translation of anything the forward
      translation produced from an A_minus fails: as the program runs it, on
      the reserved word `lambda`; and with names looked up, on the unbound
      `lambda`. */
  lemma MultiplicativeAsWrittenRoundTripFails(s: Params, n: Params)
    requires ToNative(MultiplicativeTableAsWritten, s) == Ok(n)
    requires "A_minus" in s
    ensures ToStandardAsEvaluated(MultiplicativeTableAsWritten, n) == Err(InvalidSyntax)
    ensures ToStandard(MultiplicativeTableAsWritten, n) == Err(UndefinedName("lambda"))
  {
    MultiplicativeAsWrittenUnparsable(s, n);
    MismatchedFactorFails("wmax", "aLTP", "lambda", s, n);
  }

  /** The syntax-error half of the above. */
  lemma MultiplicativeAsWrittenUnparsable(s: Params, n: Params)
    requires ToNative(MultiplicativeTableAsWritten, s) == Ok(n)
    requires "A_minus" in s
    ensures ToStandardAsEvaluated(MultiplicativeTableAsWritten, n) == Err(InvalidSyntax)
  {
    AlphaTranslated("wmax", "aLTP", "lambda", s, n);
    assert "lambda" in Keywords;
    ReservedFactorFails("wmax", "aLTP", "lambda", n);
  }

  /** A concrete instance: the default arguments. */
  lemma MultiplicativeAsWrittenDefaultsFail()
    ensures ToNative(MultiplicativeTableAsWritten, WeightArguments(0.0, 1.0, 0.01, 0.01)).Ok?
    ensures ToStandardAsEvaluated(MultiplicativeTableAsWritten,
                                  ToNative(MultiplicativeTableAsWritten, WeightArguments(0.0, 1.0, 0.01, 0.01)).value)
            == Err(InvalidSyntax)
    ensures ToStandard(MultiplicativeTableAsWritten,
                       ToNative(MultiplicativeTableAsWritten, WeightArguments(0.0, 1.0, 0.01, 0.01)).value)
            == Err(UndefinedName("lambda"))
  {
    var s := WeightArguments(0.0, 1.0, 0.01, 0.01);
    WeightTranslation("wmax", "aLTP", "lambda", 0.0, 1.0, 0.01, 0.01);
    MultiplicativeAsWrittenRoundTripFails(s, ToNative(MultiplicativeTableAsWritten, s).value);
  }

  /** MultiplicativeWeightDependence.__init__: as the additive one, injecting
      mu_plus = mu_minus = 1 (multiplicative updates). */
  function MultiplicativeWeightDependence(wMin: real := 0.0, wMax: real := 1.0,
                                          aPlus: real := 0.01, aMinus: real := 0.01): (r: Result<SynapseComponent>)
    ensures wMin != 0.0 ==> r == Err(UnsupportedConfiguration("w_min"))
    ensures wMin == 0.0 && aPlus == 0.0 ==> r == Err(DivisionByZero)
    ensures r.Ok? <==> wMin == 0.0 && aPlus != 0.0
    ensures r.Ok? ==> r.value.possibleModels == StdpModels
    ensures r.Ok? ==>
              r.value.parameters ==
                map["wmax" := 1000.0 * wMax, "w_min_always_zero_in_NEST" := 0.0, "aLTP" := aPlus,
                    "alpha" := aMinus / aPlus, "mu_plus" := 1.0, "mu_minus" := 1.0]
  {
    WeightDependence("wmax", "aLTP", 1.0, wMin, wMax, aPlus, aMinus)
  }

  /** With the corrected reverse formula, the multiplicative table round-trips
      every parameter set that translates. */
  lemma MultiplicativeRoundTrip(s: Params, n: Params)
    requires ToNative(MultiplicativeTable, s) == Ok(n)
    ensures ToStandard(MultiplicativeTable, n) == Ok(s)
  {
    WeightRoundTrip("wmax", "aLTP", s, n);
  }

  /** Reading a constructed multiplicative component back through the
      corrected table recovers the constructor's arguments. */
  lemma MultiplicativeComponentRoundTrip(wMax: real, aPlus: real, aMinus: real)
    requires MultiplicativeWeightDependence(0.0, wMax, aPlus, aMinus).Ok?
    ensures ToStandard(MultiplicativeTable, MultiplicativeWeightDependence(0.0, wMax, aPlus, aMinus).value.parameters)
            == Ok(WeightArguments(0.0, wMax, aPlus, aMinus))
  {
    WeightComponentRoundTrip("wmax", "aLTP", 1.0, wMax, aPlus, aMinus);
  }

  lemma MultiplicativeTableWellFormed()
    ensures WellFormed(MultiplicativeTable)
  {
    WeightTableWellFormed("wmax", "aLTP");
  }

  /** The corrected table round-trips also as the program runs it: none of
      its texts uses a reserved word. */
  lemma MultiplicativeEvaluatedRoundTrip(s: Params, n: Params)
    requires ToNativeAsEvaluated(MultiplicativeTable, s) == Ok(n)
    ensures ToStandardAsEvaluated(MultiplicativeTable, n) == Ok(s)
  {
    MultiplicativeTableWellFormed();
    ParsingTableAgrees(MultiplicativeTable, s, n);
    MultiplicativeRoundTrip(s, n);
  }

  lemma SpikePairTableWellFormed()
    ensures WellFormed(SpikePairTable)
  {
    assert "tau_plus" !in Keywords && "tau_minus" !in Keywords && "Tau_minus" !in Keywords;
    assert Parses(SpikePairTable[0]) && Parses(SpikePairTable[1]);
    assert SpikePairTable[0].std != SpikePairTable[1].std;
  }

  // ---------------------------------------------------------------------------
  // Spike-pair timing rule and the STDP mechanism
  // ---------------------------------------------------------------------------

  /** SpikePairRule.__init__: pure renames, so it never fails. */
  function SpikePairRule(tauPlus: real := 20.0, tauMinus: real := 20.0): (r: SynapseComponent)
    ensures r.parameters == map["tau_plus" := tauPlus, "Tau_minus" := tauMinus]
    ensures r.possibleModels == StdpModels
  {
    var s := map["tau_plus" := tauPlus, "tau_minus" := tauMinus];
    var t := SpikePairTable;
    assert StdNames(t) == s.Keys by {
      assert t[0].std == "tau_plus" && t[1].std == "tau_minus";
    }
    assert NativeNames(t) == {"tau_plus", "Tau_minus"} by {
      assert t[0].native == "tau_plus" && t[1].native == "Tau_minus";
    }
    ToNativeExact(t, s, map["tau_plus" := tauPlus, "Tau_minus" := tauMinus]);
    SynapseComponent(ToNative(t, s).value, StdpModels)
  }

  /** Renames only: every subset of the timing parameters round-trips. */
  lemma SpikePairRoundTrip(s: Params)
    requires s.Keys <= {"tau_plus", "tau_minus"}
    ensures ToNative(SpikePairTable, s).Ok?
    ensures ToStandard(SpikePairTable, ToNative(SpikePairTable, s).value) == Ok(s)
  {
    var t := SpikePairTable;
    assert StdNames(t) == {"tau_plus", "tau_minus"} by {
      assert t[0].std == "tau_plus" && t[1].std == "tau_minus";
    }
    SimpleRoundTrip(t, s);
  }

  /** The same round trip as the program runs it: every text parses. */
  lemma SpikePairEvaluatedRoundTrip(s: Params)
    requires s.Keys <= {"tau_plus", "tau_minus"}
    ensures ToNativeAsEvaluated(SpikePairTable, s).Ok?
    ensures ToStandardAsEvaluated(SpikePairTable, ToNativeAsEvaluated(SpikePairTable, s).value) == Ok(s)
  {
    SpikePairTableWellFormed();
    SpikePairRoundTrip(s);
    ParsingTableAgrees(SpikePairTable, s, ToNative(SpikePairTable, s).value);
  }

  /** The plasticity components combined into one STDP specification. */
  datatype StdpMechanism = StdpMechanism(
    timingDependence: Option<SynapseComponent>,
    weightDependence: Option<SynapseComponent>,
    voltageDependence: Option<SynapseComponent>,
    dendriticDelayFraction: real)

  /** STDPMechanism.__init__: NEST treats every delay as dendritic, so any
      other fraction is refused. */
  function STDPMechanism(timingDependence: Option<SynapseComponent> := None,
                         weightDependence: Option<SynapseComponent> := None,
                         voltageDependence: Option<SynapseComponent> := None,
                         dendriticDelayFraction: real := 1.0): (r: Result<StdpMechanism>)
    ensures r.Ok? <==> dendriticDelayFraction == 1.0
    ensures r.Err? ==> r.error == UnsupportedConfiguration("dendritic_delay_fraction")
    ensures r.Ok? ==>
              && r.value.timingDependence == timingDependence
              && r.value.weightDependence == weightDependence
              && r.value.voltageDependence == voltageDependence
              && r.value.dendriticDelayFraction == 1.0
  {
    if dendriticDelayFraction != 1.0 then Err(UnsupportedConfiguration("dendritic_delay_fraction"))
    else Ok(StdpMechanism(timingDependence, weightDependence, voltageDependence, dendriticDelayFraction))
  }
}

=== FILE: neuron_cell_types.dfy ===
/** The NEURON backend's standard cell types: their translation tables, the
    native model each instantiates, the synapse type and shape each fixes, and
    the constants the hardware model forces. A standard cell type checks the
    supplied parameters against its defaults, translates them, and then adds
    its fixed native entries. */
module NeuronCellTypes {
  import opened Results
  import opened Expressions
  import opened Translation
  import opened NeuronModels

  // ---------------------------------------------------------------------------
  // Translation tables
  // ---------------------------------------------------------------------------

  const IfCurrTable: Table := [
    Rule("tau_m", "tau_m", Rename),
    Rule("cm", "c_m", Rename),
    Rule("v_rest", "v_rest", Rename),
    Rule("v_thresh", "v_thresh", Rename),
    Rule("v_reset", "v_reset", Rename),
    Rule("tau_refrac", "t_refrac", Rename),
    Rule("i_offset", "i_offset", Rename),
    Rule("tau_syn_E", "tau_e", Rename),
    Rule("tau_syn_I", "tau_i", Rename),
    Rule("v_init", "v_init", Rename)
  ]

  const IfCondTable: Table := [
    Rule("tau_m", "tau_m", Rename),
    Rule("cm", "c_m", Rename),
    Rule("v_rest", "v_rest", Rename),
    Rule("v_thresh", "v_thresh", Rename),
    Rule("v_reset", "v_reset", Rename),
    Rule("tau_refrac", "t_refrac", Rename),
    Rule("i_offset", "i_offset", Rename),
    Rule("tau_syn_E", "tau_e", Rename),
    Rule("tau_syn_I", "tau_i", Rename),
    Rule("v_init", "v_init", Rename),
    Rule("e_rev_E", "e_e", Rename),
    Rule("e_rev_I", "e_i", Rename)
  ]

  /** 0.2 * 1000.0, the numerator of the hardware model's leak formulas. */
  const LeakNumerator: Expr := Mul(Lit(0.2), Lit(1000.0))

  /** The hardware model gives a leak conductance, turned into tau_m by
      0.2*1000/g_leak and back by 0.2*1000/tau_m. */
  const LeakRule: Rule :=
    Rule("g_leak", "tau_m", Formula(Div(LeakNumerator, Var("g_leak")), Div(LeakNumerator, Var("tau_m"))))

  /** The hardware model's parameters: potentials, a leak conductance and
      synaptic time constants. */
  const FacetsTable: Table := [
    Rule("v_rest", "v_rest", Rename),
    Rule("v_thresh", "v_thresh", Rename),
    Rule("v_reset", "v_reset", Rename),
    LeakRule,
    Rule("tau_syn_E", "tau_e", Rename),
    Rule("tau_syn_I", "tau_i", Rename),
    Rule("e_rev_I", "e_i", Rename)
  ]

  /** A rate in Hz becomes a mean interval in ms: 1000/rate, and back by
      1000/interval. */
  const IntervalRule: Rule :=
    Rule("rate", "interval", Formula(Div(Lit(1000.0), Var("rate")), Div(Lit(1000.0), Var("interval"))))

  /** A duration becomes a number of spikes, rate/1000*duration, and back by
      number*interval. */
  const NumberRule: Rule :=
    Rule("duration", "number", Formula(Mul(Div(Var("rate"), Lit(1000.0)), Var("duration")),
                                       Mul(Var("number"), Var("interval"))))

  /** A Poisson spike source's start, rate and duration. */
  const PoissonTable: Table := [Rule("start", "start", Rename), IntervalRule, NumberRule]

  /** The adaptive exponential model: renames, and `a` from nS to uS. */
  const EifTable: Table := [
    Rule("v_init", "v_init", Rename),
    Rule("w_init", "w_init", Rename),
    Rule("cm", "c_m", Rename),
    Rule("tau_refrac", "t_refrac", Rename),
    Rule("v_spike", "v_spike", Rename),
    Rule("v_reset", "v_reset", Rename),
    Rule("v_rest", "v_rest", Rename),
    Rule("tau_m", "tau_m", Rename),
    Rule("i_offset", "i_offset", Rename),
    Rule("a", "A", Scale(0.001)),
    Rule("b", "B", Rename),
    Rule("delta_T", "delta", Rename),
    Rule("tau_w", "tau_w", Rename),
    Rule("v_thresh", "v_thresh", Rename),
    Rule("e_rev_E", "e_e", Rename),
    Rule("tau_syn_E", "tau_e", Rename),
    Rule("e_rev_I", "e_i", Rename),
    Rule("tau_syn_I", "tau_i", Rename)
  ]

  // ---------------------------------------------------------------------------
  // Cell types
  // ---------------------------------------------------------------------------

  datatype CellType =
    | IfCurrAlpha | IfCurrExp | IfCondAlpha | IfCondExp | IfFacetsHardware1
    | SpikeSourcePoisson | EifCondAlphaIsfaIsta | EifCondExpIsfaIsta

  datatype NativeModel = StandardIF | BretteGerstnerIF | RandomSpikeSource

  function Translations(c: CellType): Table {
    match c
    case IfCurrAlpha | IfCurrExp => IfCurrTable
    case IfCondAlpha | IfCondExp => IfCondTable
    case IfFacetsHardware1 => FacetsTable
    case SpikeSourcePoisson => PoissonTable
    case EifCondAlphaIsfaIsta | EifCondExpIsfaIsta => EifTable
  }

  function Model(c: CellType): NativeModel {
    match c
    case SpikeSourcePoisson => RandomSpikeSource
    case EifCondAlphaIsfaIsta | EifCondExpIsfaIsta => BretteGerstnerIF
    case _ => StandardIF
  }

  /** The (syn_type, syn_shape) a neuron type fixes; spike sources have none. */
  function SynapseChoice(c: CellType): Option<(string, string)> {
    match c
    case IfCurrAlpha => Some(("current", "alpha"))
    case IfCurrExp => Some(("current", "exp"))
    case IfCondAlpha => Some(("conductance", "alpha"))
    case IfCondExp => Some(("conductance", "exp"))
    case IfFacetsHardware1 => Some(("conductance", "exp"))
    case SpikeSourcePoisson => None
    case EifCondAlphaIsfaIsta => Some(("conductance", "alpha"))
    case EifCondExpIsfaIsta => Some(("conductance", "exp"))
  }

  /** The native constants the hardware model forces after translation. */
  const FacetsOverrides: Params := map["i_offset" := 0.0, "c_m" := 0.2, "t_refrac" := 1.0, "e_e" := 0.0]

  function Overrides(c: CellType): Params {
    if c == IfFacetsHardware1 then FacetsOverrides else map[]
  }

  /** The keyword arguments the native model accepts. */
  function ModelArguments(m: NativeModel): set<string> {
    match m
    case StandardIF => StandardIfDefaults.Keys + {"v_reset", "v_init"}
    case BretteGerstnerIF => BretteGerstnerDefaults.Keys + {"v_init"}
    case RandomSpikeSource => RandomSpikeSourceDefaults.Keys
  }

  /** A constructed standard cell: native parameters, and the synapse type and
      shape handed to the native model alongside them. */
  datatype CellParameters = CellParameters(native: Params, synapse: Option<(string, string)>)

  /** A standard cell type's constructor: the supplied parameters are checked
      against the type's defaults and completed from them, translated, and
      the type's forced constants added. The defaults belong to the
      simulator-independent layer and are given. */
  function Construct(c: CellType, defaults: Params, supplied: Params): (r: Result<CellParameters>)
    ensures !(supplied.Keys <= defaults.Keys) ==> r == Err(UnknownParameters(supplied.Keys - defaults.Keys))
    ensures r.Ok? <==> supplied.Keys <= defaults.Keys && ToNative(Translations(c), defaults + supplied).Ok?
    ensures r.Ok? ==> r.value.synapse == SynapseChoice(c)
    ensures r.Ok? ==>
              r.value.native.Keys == Targets(Translations(c), defaults + supplied) + Overrides(c).Keys
    ensures r.Ok? ==> forall k | k in Overrides(c) :: r.value.native[k] == Overrides(c)[k]
    ensures r.Ok? ==> forall k | k in r.value.native && k !in Overrides(c) ::
              r.value.native[k] == ToNative(Translations(c), defaults + supplied).value[k]
  {
    var checked :- CheckParameters(defaults, supplied);
    assert checked == defaults + supplied;
    var native :- ToNative(Translations(c), checked);
    Ok(CellParameters(ApplyOverrides(native, Overrides(c)), SynapseChoice(c)))
  }

  // ---------------------------------------------------------------------------
  // Table properties
  // ---------------------------------------------------------------------------

  const IfCurrStdNames: set<string> :=
    {"tau_m", "cm", "v_rest", "v_thresh", "v_reset", "tau_refrac", "i_offset", "tau_syn_E", "tau_syn_I", "v_init"}

  const IfCurrNativeNames: set<string> :=
    {"tau_m", "c_m", "v_rest", "v_thresh", "v_reset", "t_refrac", "i_offset", "tau_e", "tau_i", "v_init"}

  lemma IfCurrStdNamesAre()
    ensures StdNames(IfCurrTable) == IfCurrStdNames
  {
    var t := IfCurrTable;
    assert t[0].std == "tau_m" && t[1].std == "cm" && t[2].std == "v_rest" && t[3].std == "v_thresh";
    assert t[4].std == "v_reset" && t[5].std == "tau_refrac" && t[6].std == "i_offset";
    assert t[7].std == "tau_syn_E" && t[8].std == "tau_syn_I" && t[9].std == "v_init";
  }

  lemma IfCurrNativeNamesAre()
    ensures NativeNames(IfCurrTable) == IfCurrNativeNames
  {
    var t := IfCurrTable;
    assert t[0].native == "tau_m" && t[1].native == "c_m" && t[2].native == "v_rest" && t[3].native == "v_thresh";
    assert t[4].native == "v_reset" && t[5].native == "t_refrac" && t[6].native == "i_offset";
    assert t[7].native == "tau_e" && t[8].native == "tau_i" && t[9].native == "v_init";
  }

  /** Distinctness is proved slice by slice (DistinctConcat): one goal over
      every pair of names of a ten-row table of string literals runs past
      the solver's budget, while each slice and each pair of slices is
      quick. */
  lemma IfCurrFirstRowsDistinct()
    ensures Distinct(IfCurrTable[..5])
  {
  }

  lemma IfCurrLastRowsDistinct()
    ensures Distinct(IfCurrTable[5..])
  {
  }

  lemma IfCurrFirstLastRowsApart()
    ensures Apart(IfCurrTable[..5], IfCurrTable[5..])
  {
  }

  lemma IfCurrDistinct()
    ensures Distinct(IfCurrTable)
  {
    assert IfCurrTable == IfCurrTable[..5] + IfCurrTable[5..];
    IfCurrFirstRowsDistinct();
    IfCurrLastRowsDistinct();
    IfCurrFirstLastRowsApart();
    DistinctConcat(IfCurrTable[..5], IfCurrTable[5..]);
  }

  lemma IfCurrSimple()
    ensures Simple(IfCurrTable)
  {
  }

  lemma IfCurrNames()
    ensures StdNames(IfCurrTable) == IfCurrStdNames
    ensures NativeNames(IfCurrTable) == IfCurrNativeNames
    ensures Distinct(IfCurrTable) && Simple(IfCurrTable)
  {
    IfCurrStdNamesAre();
    IfCurrNativeNamesAre();
    IfCurrDistinct();
    IfCurrSimple();
  }


  /** The conductance table is the current table plus exactly the two
      synaptic reversal potentials. */
  lemma IfCondExtendsIfCurr()
    ensures IfCondTable == IfCurrTable + ReversalRules
  {
  }

  /** The two rows the conductance table adds. */
  const ReversalRules: Table := [Rule("e_rev_E", "e_e", Rename), Rule("e_rev_I", "e_i", Rename)]

  lemma IfCondStdNamesAre()
    ensures StdNames(IfCondTable) == IfCurrStdNames + {"e_rev_E", "e_rev_I"}
  {
    var t := IfCondTable;
    assert t[0].std == "tau_m" && t[1].std == "cm" && t[2].std == "v_rest" && t[3].std == "v_thresh";
    assert t[4].std == "v_reset" && t[5].std == "tau_refrac" && t[6].std == "i_offset";
    assert t[7].std == "tau_syn_E" && t[8].std == "tau_syn_I" && t[9].std == "v_init";
    assert t[10].std == "e_rev_E" && t[11].std == "e_rev_I";
  }

  lemma IfCondNativeNamesAre()
    ensures NativeNames(IfCondTable) == IfCurrNativeNames + {"e_e", "e_i"}
  {
    var t := IfCondTable;
    assert t[0].native == "tau_m" && t[1].native == "c_m" && t[2].native == "v_rest" && t[3].native == "v_thresh";
    assert t[4].native == "v_reset" && t[5].native == "t_refrac" && t[6].native == "i_offset";
    assert t[7].native == "tau_e" && t[8].native == "tau_i" && t[9].native == "v_init";
    assert t[10].native == "e_e" && t[11].native == "e_i";
  }

  /** Distinctness is proved slice by slice (DistinctConcat): one goal over
      every pair of names of a twelve-row table of string literals runs past
      the solver's budget, while each slice and each pair of slices is
      quick. */
  lemma IfCondFirstRowsDistinct()
    ensures Distinct(IfCondTable[..6])
  {
  }

  lemma IfCondLastRowsDistinct()
    ensures Distinct(IfCondTable[6..])
  {
  }

  lemma IfCondFirstLastRowsApart()
    ensures Apart(IfCondTable[..6], IfCondTable[6..])
  {
  }

  lemma IfCondDistinct()
    ensures Distinct(IfCondTable)
  {
    assert IfCondTable == IfCondTable[..6] + IfCondTable[6..];
    IfCondFirstRowsDistinct();
    IfCondLastRowsDistinct();
    IfCondFirstLastRowsApart();
    DistinctConcat(IfCondTable[..6], IfCondTable[6..]);
  }

  lemma IfCondSimple()
    ensures Simple(IfCondTable)
  {
  }

  lemma IfCondNames()
    ensures StdNames(IfCondTable) == IfCurrStdNames + {"e_rev_E", "e_rev_I"}
    ensures NativeNames(IfCondTable) == IfCurrNativeNames + {"e_e", "e_i"}
    ensures Distinct(IfCondTable) && Simple(IfCondTable)
  {
    IfCondStdNamesAre();
    IfCondNativeNamesAre();
    IfCondDistinct();
    IfCondSimple();
  }


  /** The integrate-and-fire tables are renames: any subset of their
      parameters round-trips unchanged. */
  lemma IfCurrRoundTrip(s: Params)
    requires s.Keys <= IfCurrStdNames
    ensures ToNative(IfCurrTable, s).Ok?
    ensures ToStandard(IfCurrTable, ToNative(IfCurrTable, s).value) == Ok(s)
  {
    IfCurrNames();
    SimpleRoundTrip(IfCurrTable, s);
  }

  lemma IfCondRoundTrip(s: Params)
    requires s.Keys <= IfCurrStdNames + {"e_rev_E", "e_rev_I"}
    ensures ToNative(IfCondTable, s).Ok?
    ensures ToStandard(IfCondTable, ToNative(IfCondTable, s).value) == Ok(s)
  {
    IfCondNames();
    SimpleRoundTrip(IfCondTable, s);
  }

  const EifStdNames: set<string> :=
    {"v_init", "w_init", "cm", "tau_refrac", "v_spike", "v_reset", "v_rest", "tau_m", "i_offset",
     "a", "b", "delta_T", "tau_w", "v_thresh", "e_rev_E", "tau_syn_E", "e_rev_I", "tau_syn_I"}

  const EifNativeNames: set<string> :=
    {"v_init", "w_init", "c_m", "t_refrac", "v_spike", "v_reset", "v_rest", "tau_m", "i_offset",
     "A", "B", "delta", "tau_w", "v_thresh", "e_e", "tau_e", "e_i", "tau_i"}

  lemma EifStdNamesAre()
    ensures StdNames(EifTable) == EifStdNames
  {
    var t := EifTable;
    assert t[0].std == "v_init" && t[1].std == "w_init" && t[2].std == "cm" && t[3].std == "tau_refrac";
    assert t[4].std == "v_spike" && t[5].std == "v_reset" && t[6].std == "v_rest" && t[7].std == "tau_m";
    assert t[8].std == "i_offset" && t[9].std == "a" && t[10].std == "b" && t[11].std == "delta_T";
    assert t[12].std == "tau_w" && t[13].std == "v_thresh" && t[14].std == "e_rev_E";
    assert t[15].std == "tau_syn_E" && t[16].std == "e_rev_I" && t[17].std == "tau_syn_I";
  }

  lemma EifNativeNamesAre()
    ensures NativeNames(EifTable) == EifNativeNames
  {
    var t := EifTable;
    assert t[0].native == "v_init" && t[1].native == "w_init" && t[2].native == "c_m";
    assert t[3].native == "t_refrac" && t[4].native == "v_spike" && t[5].native == "v_reset";
    assert t[6].native == "v_rest" && t[7].native == "tau_m" && t[8].native == "i_offset";
    assert t[9].native == "A" && t[10].native == "B" && t[11].native == "delta";
    assert t[12].native == "tau_w" && t[13].native == "v_thresh" && t[14].native == "e_e";
    assert t[15].native == "tau_e" && t[16].native == "e_i" && t[17].native == "tau_i";
  }

  /** Distinctness is proved slice by slice (DistinctConcat): one goal over
      every pair of names of a eighteen-row table of string literals runs past
      the solver's budget, while each slice and each pair of slices is
      quick. */
  lemma EifFirstRowsDistinct()
    ensures Distinct(EifTable[..6])
  {
  }

  lemma EifMiddleRowsDistinct()
    ensures Distinct(EifTable[6..12])
  {
  }

  lemma EifLastRowsDistinct()
    ensures Distinct(EifTable[12..])
  {
  }

  lemma EifFirstMiddleRowsApart()
    ensures Apart(EifTable[..6], EifTable[6..12])
  {
  }

  lemma EifFirstLastRowsApart()
    ensures Apart(EifTable[..6], EifTable[12..])
  {
  }

  lemma EifMiddleLastRowsApart()
    ensures Apart(EifTable[6..12], EifTable[12..])
  {
  }

  lemma EifDistinct()
    ensures Distinct(EifTable)
  {
    assert EifTable == EifTable[..6] + EifTable[6..12] + EifTable[12..];
    EifFirstRowsDistinct();
    EifMiddleRowsDistinct();
    EifLastRowsDistinct();
    EifFirstMiddleRowsApart();
    EifFirstLastRowsApart();
    EifMiddleLastRowsApart();
    DistinctConcat(EifTable[..6], EifTable[6..12]);
    ApartConcat(EifTable[..6], EifTable[6..12], EifTable[12..]);
    DistinctConcat(EifTable[..6] + EifTable[6..12], EifTable[12..]);
  }

  lemma EifSimple()
    ensures Simple(EifTable)
  {
  }

  lemma EifNames()
    ensures StdNames(EifTable) == EifStdNames
    ensures NativeNames(EifTable) == EifNativeNames
    ensures Distinct(EifTable) && Simple(EifTable)
  {
    EifStdNamesAre();
    EifNativeNamesAre();
    EifDistinct();
    EifSimple();
  }


  /** Every row of the adaptive table but `a` is a plain rename. */
  lemma EifRenamesAllButA()
    ensures EifTable[9] == Rule("a", "A", Scale(0.001))
    ensures forall i | 0 <= i < |EifTable| && i != 9 :: EifTable[i].transform == Rename
    ensures forall i | 0 <= i < |EifTable| && EifTable[i].std != "a" :: EifTable[i].transform == Rename
  {
  }

  /** Any subset of the adaptive table's parameters translates and
      round-trips. */
  lemma EifRoundTrip(s: Params)
    requires s.Keys <= EifStdNames
    ensures ToNative(EifTable, s).Ok?
    ensures ToStandard(EifTable, ToNative(EifTable, s).value) == Ok(s)
  {
    EifNames();
    SimpleRoundTrip(EifTable, s);
  }

  /** The adaptive table scales `a` by 0.001 (nS to uS) into `A`. */
  lemma EifScalesA(s: Params, n: Params)
    requires ToNative(EifTable, s) == Ok(n)
    ensures "a" in s ==> "A" in n && n["A"] == 0.001 * s["a"]
  {
    EifDistinct();
    EifRenamesAllButA();
    if "a" in s {
      TranslatedAt(EifTable, s, n, 9);
    }
  }

  /** The adaptive table copies every parameter but `a` under its native
      name. */
  lemma EifRenames(s: Params, n: Params)
    requires ToNative(EifTable, s) == Ok(n)
    ensures forall i | 0 <= i < |EifTable| && EifTable[i].std in s && EifTable[i].std != "a" ::
              EifTable[i].native in n && n[EifTable[i].native] == s[EifTable[i].std]
  {
    EifDistinct();
    EifRenamesAllButA();
    RenamedExcept(EifTable, s, n, "a");
  }

  // ---------------------------------------------------------------------------
  // The hardware model
  // ---------------------------------------------------------------------------

  const FacetsStdNames: set<string> :=
    {"v_rest", "v_thresh", "v_reset", "g_leak", "tau_syn_E", "tau_syn_I", "e_rev_I"}

  const FacetsNativeNames: set<string> :=
    {"v_rest", "v_thresh", "v_reset", "tau_m", "tau_e", "tau_i", "e_i"}

  lemma FacetsNames()
    ensures StdNames(FacetsTable) == FacetsStdNames
    ensures NativeNames(FacetsTable) == FacetsNativeNames
  {
    var t := FacetsTable;
    assert t[0].std == "v_rest" && t[1].std == "v_thresh" && t[2].std == "v_reset" && t[3].std == "g_leak";
    assert t[4].std == "tau_syn_E" && t[5].std == "tau_syn_I" && t[6].std == "e_rev_I";
    assert t[0].native == "v_rest" && t[1].native == "v_thresh" && t[2].native == "v_reset";
    assert t[3].native == "tau_m" && t[4].native == "tau_e" && t[5].native == "tau_i" && t[6].native == "e_i";
  }

  lemma FacetsDistinct()
    ensures Distinct(FacetsTable)
  {
  }

  /** The leak rule is the hardware table's only formula. */
  lemma FacetsRenamesAllButLeak()
    ensures |FacetsTable| == 7 && FacetsTable[3] == LeakRule
    ensures forall i | 0 <= i < |FacetsTable| && i != 3 :: FacetsTable[i].transform == Rename
    ensures forall i | 0 <= i < |FacetsTable| && FacetsTable[i].std != "g_leak" :: FacetsTable[i].transform == Rename
  {
  }

  lemma LeakNumeratorValue(env: Env)
    ensures Eval(LeakNumerator, env) == Ok(200.0)
  {
    assert Eval(Lit(0.2), env) == Ok(0.2) && Eval(Lit(1000.0), env) == Ok(1000.0);
  }

  /** The leak rule is defined exactly for a nonzero conductance, which it
      maps to 200/g_leak. */
  lemma LeakForward(s: Params)
    requires "g_leak" in s
    ensures ForwardValue(LeakRule, s) ==
              if s["g_leak"] == 0.0 then Err(DivisionByZero) else Ok(200.0 / s["g_leak"])
  {
    LeakNumeratorValue(s);
    assert Eval(Var("g_leak"), s) == Ok(s["g_leak"]);
  }

  /** The reverse leak formula undoes the forward one. */
  lemma LeakInverts(s: Params, n: Params)
    requires "g_leak" in s ==> "tau_m" in n && ForwardValue(LeakRule, s) == Ok(n["tau_m"])
    ensures Inverts(LeakRule, s, n)
  {
    if "g_leak" in s {
      var g := s["g_leak"];
      LeakForward(s);
      LeakNumeratorValue(n);
      assert g != 0.0 && n["tau_m"] == Quotient(200.0, g);
      QuotientOfQuotient(200.0, g);
      assert Eval(Var("tau_m"), n) == Ok(n["tau_m"]);
    }
  }

  /** A hardware parameter set translates exactly when its leak conductance,
      if given, is nonzero. */
  lemma FacetsDefined(s: Params)
    requires s.Keys <= FacetsStdNames
    ensures ToNative(FacetsTable, s).Ok? <==> ("g_leak" in s ==> s["g_leak"] != 0.0)
  {
    FacetsNames();
    FacetsRenamesAllButLeak();
    ToNativeDefinedBy(FacetsTable, s, {3});
    if "g_leak" in s {
      LeakForward(s);
    }
  }

  /** The hardware table copies six parameters and turns g_leak into
      tau_m = 0.2*1000/g_leak. */
  lemma FacetsValues(s: Params, n: Params)
    requires ToNative(FacetsTable, s) == Ok(n)
    ensures "g_leak" in s ==> s["g_leak"] != 0.0 && "tau_m" in n && n["tau_m"] == 200.0 / s["g_leak"]
    ensures forall i | 0 <= i < |FacetsTable| && FacetsTable[i].std in s && FacetsTable[i].std != "g_leak" ::
              FacetsTable[i].native in n && n[FacetsTable[i].native] == s[FacetsTable[i].std]
  {
    FacetsDistinct();
    FacetsRenamesAllButLeak();
    if "g_leak" in s {
      TranslatedAt(FacetsTable, s, n, 3);
      LeakForward(s);
    }
    RenamedExcept(FacetsTable, s, n, "g_leak");
  }

  /** Every hardware parameter set that translates round-trips. */
  lemma FacetsRoundTrip(s: Params, n: Params)
    requires ToNative(FacetsTable, s) == Ok(n)
    ensures ToStandard(FacetsTable, n) == Ok(s)
  {
    var t := FacetsTable;
    FacetsDistinct();
    FacetsRenamesAllButLeak();
    if "g_leak" in s {
      TranslatedAt(t, s, n, 3);
    }
    LeakInverts(s, n);
    RoundTrip(t, s, n);
  }

  /** The forced constants are added beside the translated values and never
      replace one. */
  lemma FacetsOverridesAdded()
    ensures FacetsOverrides.Keys !! NativeNames(FacetsTable)
  {
    FacetsNames();
    assert FacetsOverrides.Keys == {"i_offset", "c_m", "t_refrac", "e_e"};
  }

  /** Overriding a translated hardware parameter set adds the four fixed
      values and keeps every translated one. */
  lemma FacetsOverridesKept(n: Params)
    requires n.Keys <= NativeNames(FacetsTable)
    ensures ApplyOverrides(n, FacetsOverrides).Keys == n.Keys + {"i_offset", "c_m", "t_refrac", "e_e"}
    ensures ApplyOverrides(n, FacetsOverrides)["i_offset"] == 0.0 && ApplyOverrides(n, FacetsOverrides)["c_m"] == 0.2
    ensures ApplyOverrides(n, FacetsOverrides)["t_refrac"] == 1.0 && ApplyOverrides(n, FacetsOverrides)["e_e"] == 0.0
    ensures forall k | k in n :: ApplyOverrides(n, FacetsOverrides)[k] == n[k]
  {
    FacetsOverridesAdded();
    assert FacetsOverrides.Keys == {"i_offset", "c_m", "t_refrac", "e_e"};
  }

  /** Whatever is supplied, a constructed hardware cell has no current
      offset, a 0.2 nF membrane, a 1 ms refractory period, a 0 mV excitatory
      reversal potential and conductance-based exponential synapses; every
      other native value is the translated one. */
  lemma FacetsConstruct(c: CellType, defaults: Params, supplied: Params, r: CellParameters)
    requires c == IfFacetsHardware1
    requires Construct(c, defaults, supplied) == Ok(r)
    ensures r.synapse == Some(("conductance", "exp"))
    ensures r.native.Keys == Targets(FacetsTable, defaults + supplied) + {"i_offset", "c_m", "t_refrac", "e_e"}
    ensures r.native["i_offset"] == 0.0 && r.native["c_m"] == 0.2
    ensures r.native["t_refrac"] == 1.0 && r.native["e_e"] == 0.0
    ensures forall k | k in Targets(FacetsTable, defaults + supplied) ::
              r.native[k] == ToNative(FacetsTable, defaults + supplied).value[k]
  {
    assert Translations(c) == FacetsTable && Overrides(c) == FacetsOverrides;
    ConstructedNative(c, defaults, supplied, r);
    FacetsOverridesKept(ToNative(FacetsTable, defaults + supplied).value);
  }

  // ---------------------------------------------------------------------------
  // The Poisson spike source
  // ---------------------------------------------------------------------------

  lemma PoissonNames()
    ensures StdNames(PoissonTable) == {"start", "rate", "duration"}
    ensures NativeNames(PoissonTable) == {"start", "interval", "number"}
    ensures Distinct(PoissonTable)
  {
    var t := PoissonTable;
    assert t[0].std == "start" && t[1].std == "rate" && t[2].std == "duration";
    assert t[0].native == "start" && t[1].native == "interval" && t[2].native == "number";
  }

  /** The interval rule is defined exactly for a nonzero rate. */
  lemma IntervalForward(s: Params)
    requires "rate" in s
    ensures ForwardValue(IntervalRule, s) ==
              if s["rate"] == 0.0 then Err(DivisionByZero) else Ok(1000.0 / s["rate"])
  {
    assert Eval(Lit(1000.0), s) == Ok(1000.0) && Eval(Var("rate"), s) == Ok(s["rate"]);
  }

  /** The number rule needs the rate beside the duration. */
  lemma NumberForward(s: Params)
    requires "duration" in s
    ensures ForwardValue(NumberRule, s) ==
              if "rate" in s then Ok(Product(Quotient(s["rate"], 1000.0), s["duration"]))
              else Err(UndefinedName("rate"))
  {
    assert Eval(Lit(1000.0), s) == Ok(1000.0) && Eval(Var("duration"), s) == Ok(s["duration"]);
    if "rate" in s {
      assert Eval(Var("rate"), s) == Ok(s["rate"]);
      assert Eval(Div(Var("rate"), Lit(1000.0)), s) == Ok(Quotient(s["rate"], 1000.0));
    } else {
      assert Eval(Var("rate"), s) == Err(UndefinedName("rate"));
      assert Eval(Div(Var("rate"), Lit(1000.0)), s) == Err(UndefinedName("rate"));
    }
  }

  /** rate/1000*duration spikes at 1000/rate ms apart last `duration` ms. */
  lemma SpikeCountTimesInterval(rate: real, duration: real)
    requires rate != 0.0
    ensures Quotient(1000.0, rate) != 0.0
    ensures Product(Product(Quotient(rate, 1000.0), duration), Quotient(1000.0, rate)) == duration
  {
    var q, p := rate / 1000.0, 1000.0 / rate;
    assert q * 1000.0 == rate;
    assert p * rate == 1000.0;
    assert q * p * rate == q * 1000.0;
    assert q * p == 1.0;
    assert q * duration * p == duration * (q * p);
  }

  /** 1000/interval restores the rate. */
  lemma IntervalInverts(s: Params, n: Params)
    requires "rate" in s ==> "interval" in n && ForwardValue(IntervalRule, s) == Ok(n["interval"])
    ensures Inverts(IntervalRule, s, n)
  {
    if "rate" in s {
      IntervalForward(s);
      QuotientOfQuotient(1000.0, s["rate"]);
      assert Eval(Lit(1000.0), n) == Ok(1000.0) && Eval(Var("interval"), n) == Ok(n["interval"]);
    }
  }

  /** number*interval restores the duration. */
  lemma NumberInverts(s: Params, n: Params)
    requires "rate" in s ==> "interval" in n && ForwardValue(IntervalRule, s) == Ok(n["interval"])
    requires "duration" in s ==> "number" in n && ForwardValue(NumberRule, s) == Ok(n["number"])
    ensures Inverts(NumberRule, s, n)
  {
    if "duration" in s {
      NumberForward(s);
      IntervalForward(s);
      SpikeCountTimesInterval(s["rate"], s["duration"]);
      assert Eval(Var("number"), n) == Ok(n["number"]) && Eval(Var("interval"), n) == Ok(n["interval"]);
    }
  }

  /** A Poisson parameter set translates exactly when its rate, if given, is
      nonzero, and a duration comes with a rate. */
  lemma PoissonDefined(s: Params)
    requires s.Keys <= {"start", "rate", "duration"}
    ensures ToNative(PoissonTable, s).Ok? <==>
              ("rate" in s ==> s["rate"] != 0.0) && ("duration" in s ==> "rate" in s)
  {
    PoissonNames();
    ToNativeDefinedBy(PoissonTable, s, {1, 2});
    if "rate" in s { IntervalForward(s); }
    if "duration" in s { NumberForward(s); }
  }

  /** The mean interval is 1000/rate ms and the number of spikes
      rate/1000*duration. */
  lemma PoissonValues(s: Params, n: Params)
    requires ToNative(PoissonTable, s) == Ok(n)
    ensures "start" in s ==> "start" in n && n["start"] == s["start"]
    ensures "rate" in s ==> s["rate"] != 0.0 && "interval" in n && n["interval"] == 1000.0 / s["rate"]
    ensures "duration" in s ==>
              "rate" in s && "number" in n && n["number"] == Product(Quotient(s["rate"], 1000.0), s["duration"])
  {
    var t := PoissonTable;
    PoissonNames();
    if "start" in s { RenamedAt(t, s, n, 0); }
    if "rate" in s {
      TranslatedAt(t, s, n, 1);
      IntervalForward(s);
    }
    if "duration" in s {
      TranslatedAt(t, s, n, 2);
      NumberForward(s);
      assert "rate" in s;
    }
  }

  /** Every Poisson parameter set that translates round-trips: 1000/interval
      restores the rate and number*interval the duration. */
  lemma PoissonRoundTrip(s: Params, n: Params)
    requires ToNative(PoissonTable, s) == Ok(n)
    ensures ToStandard(PoissonTable, n) == Ok(s)
  {
    var t := PoissonTable;
    PoissonNames();
    if "rate" in s { TranslatedAt(t, s, n, 1); }
    if "duration" in s { TranslatedAt(t, s, n, 2); }
    IntervalInverts(s, n);
    NumberInverts(s, n);
    RoundTrip(t, s, n);
  }

  /** A rate alone becomes a mean interval alone. */
  lemma PoissonRateOnly(rate: real)
    requires rate != 0.0
    ensures ToNative(PoissonTable, map["rate" := rate]) == Ok(map["interval" := 1000.0 / rate])
  {
    var s := map["rate" := rate];
    PoissonNames();
    IntervalForward(s);
    ToNativeSingle(PoissonTable, s, 1, 1000.0 / rate);
  }

  /** A rate of 12 Hz alone becomes a mean interval of 1000/12 ms. */
  lemma PoissonRateTwelve()
    ensures ToNative(PoissonTable, map["rate" := 12.0]) == Ok(map["interval" := 1000.0 / 12.0])
  {
    PoissonRateOnly(12.0);
  }

  // ---------------------------------------------------------------------------
  // Cell types and their native models
  // ---------------------------------------------------------------------------

  /** The hardware table's reverse formula reads only tau_m. */
  lemma FacetsReverseVars()
    ensures ReverseVars(FacetsTable) == {"tau_m"}
  {
    var t := FacetsTable;
    FacetsRenamesAllButLeak();
    assert FreeVars(LeakRule.transform.reverse) == {"tau_m"};
    forall x | x in ReverseVars(t) ensures x == "tau_m" {
      var i :| 0 <= i < |t| && t[i].transform.Formula? && x in FreeVars(t[i].transform.reverse);
      assert i == 3;
    }
    assert "tau_m" in ReverseVars(t) by {
      assert t[3].transform.Formula?;
    }
  }

  /** The neuron tables other than the hardware model's are renames and
      non-zero scales between distinct names. */
  lemma SimpleType(c: CellType)
    requires c !in {IfFacetsHardware1, SpikeSourcePoisson}
    ensures Distinct(Translations(c)) && Simple(Translations(c))
  {
    if c == IfCurrAlpha || c == IfCurrExp {
      IfCurrDistinct();
      IfCurrSimple();
    } else if c == IfCondAlpha || c == IfCondExp {
      IfCondDistinct();
      IfCondSimple();
    } else {
      EifDistinct();
      EifSimple();
    }
  }

  lemma PoissonTypeRoundTrip(c: CellType, s: Params, n: Params)
    requires c == SpikeSourcePoisson
    requires ToNative(Translations(c), s) == Ok(n)
    ensures ToStandard(Translations(c), n) == Ok(s)
  {
    assert Translations(c) == PoissonTable;
    PoissonRoundTrip(s, n);
  }

  lemma FacetsTypeRoundTrip(c: CellType, s: Params, n: Params)
    requires c == IfFacetsHardware1
    requires ToNative(Translations(c), s) == Ok(n)
    ensures ToStandard(Translations(c), n) == Ok(s)
  {
    assert Translations(c) == FacetsTable;
    FacetsRoundTrip(s, n);
  }

  /** Every parameter set a cell type's table translates round-trips. */
  lemma TranslationRoundTrip(c: CellType, s: Params, n: Params)
    requires ToNative(Translations(c), s) == Ok(n)
    ensures ToStandard(Translations(c), n) == Ok(s)
  {
    if c == SpikeSourcePoisson {
      PoissonTypeRoundTrip(c, s, n);
    } else if c == IfFacetsHardware1 {
      FacetsTypeRoundTrip(c, s, n);
    } else {
      SimpleType(c);
      SimpleTranslatedRoundTrip(Translations(c), s, n);
    }
  }

  // ---------------------------------------------------------------------------
  // The tables as Python text
  // ---------------------------------------------------------------------------

  /** The cell tables' names that are plain lower-case words. */
  lemma WordNamesUnreserved()
    ensures "cm" !in Keywords && "delta" !in Keywords && "start" !in Keywords
    ensures "rate" !in Keywords && "interval" !in Keywords
    ensures "duration" !in Keywords && "number" !in Keywords
  {
  }

  lemma IfCurrParses()
    ensures TableParses(IfCurrTable)
  {
    WordNamesUnreserved();
    forall i | 0 <= i < |IfCurrTable| ensures Parses(IfCurrTable[i]) {
      var r := IfCurrTable[i];
      if r.std != "cm" {
        UnreservedBySpelling(r.std);
      }
      UnreservedBySpelling(r.native);
    }
  }

  lemma IfCondParses()
    ensures TableParses(IfCondTable)
  {
    WordNamesUnreserved();
    forall i | 0 <= i < |IfCondTable| ensures Parses(IfCondTable[i]) {
      var r := IfCondTable[i];
      if r.std != "cm" {
        UnreservedBySpelling(r.std);
      }
      UnreservedBySpelling(r.native);
    }
  }

  lemma EifParses()
    ensures TableParses(EifTable)
  {
    WordNamesUnreserved();
    forall i | 0 <= i < |EifTable| ensures Parses(EifTable[i]) {
      var r := EifTable[i];
      if r.std != "cm" {
        UnreservedBySpelling(r.std);
      }
      if r.native != "delta" {
        UnreservedBySpelling(r.native);
      }
    }
  }

  lemma FacetsParses()
    ensures TableParses(FacetsTable)
  {
    assert FreeVars(Div(LeakNumerator, Var("g_leak"))) == {"g_leak"};
    assert FreeVars(Div(LeakNumerator, Var("tau_m"))) == {"tau_m"};
    forall i | 0 <= i < |FacetsTable| ensures Parses(FacetsTable[i]) {
      var r := FacetsTable[i];
      UnreservedBySpelling(r.std);
      UnreservedBySpelling(r.native);
    }
  }

  lemma PoissonParses()
    ensures TableParses(PoissonTable)
  {
    WordNamesUnreserved();
    assert ForwardReads(IntervalRule) == {"rate"} && ReverseReads(IntervalRule) == {"interval"};
    assert ForwardReads(NumberRule) == {"rate", "duration"};
    assert ReverseReads(NumberRule) == {"number", "interval"};
    assert Parses(PoissonTable[0]) && Parses(PoissonTable[1]) && Parses(PoissonTable[2]);
  }

  /** No cell type's table uses a reserved word as a name. */
  lemma TranslationsParse(c: CellType)
    ensures TableParses(Translations(c))
  {
    if c == IfCurrAlpha || c == IfCurrExp {
      IfCurrParses();
    } else if c == IfCondAlpha || c == IfCondExp {
      IfCondParses();
    } else if c == EifCondAlphaIsfaIsta || c == EifCondExpIsfaIsta {
      EifParses();
    } else if c == SpikeSourcePoisson {
      PoissonParses();
    } else {
      FacetsParses();
    }
  }

  /** The cell types' round trip also holds as the program runs it, with
      every rule's text evaluated. */
  lemma EvaluatedRoundTrip(c: CellType, s: Params, n: Params)
    requires ToNativeAsEvaluated(Translations(c), s) == Ok(n)
    ensures ToStandardAsEvaluated(Translations(c), n) == Ok(s)
  {
    TranslationsParse(c);
    ParsingTableAgrees(Translations(c), s, n);
    TranslationRoundTrip(c, s, n);
  }

  /** The hardware model's forced constants are invisible to its reverse
      translation. */
  lemma FacetsOverridesIgnored(n: Params)
    ensures ToStandard(FacetsTable, ApplyOverrides(n, FacetsOverrides)) == ToStandard(FacetsTable, n)
  {
    FacetsNames();
    FacetsReverseVars();
    assert FacetsOverrides.Keys == {"i_offset", "c_m", "t_refrac", "e_e"};
    ToStandardIgnoresExtra(FacetsTable, n, FacetsOverrides);
  }

  lemma NoOverrides(n: Params)
    ensures ApplyOverrides(n, map[]) == n
  {
  }

  lemma FacetsTypeOverridesIgnored(c: CellType, n: Params)
    requires c == IfFacetsHardware1
    ensures ToStandard(Translations(c), ApplyOverrides(n, Overrides(c))) == ToStandard(Translations(c), n)
  {
    assert Translations(c) == FacetsTable && Overrides(c) == FacetsOverrides;
    FacetsOverridesIgnored(n);
  }

  /** No cell type's forced constants are read by its reverse translation. */
  lemma OverridesInvisible(c: CellType, n: Params)
    ensures ToStandard(Translations(c), ApplyOverrides(n, Overrides(c))) == ToStandard(Translations(c), n)
  {
    if c == IfFacetsHardware1 {
      FacetsTypeOverridesIgnored(c, n);
    } else {
      assert Overrides(c) == map[];
      NoOverrides(n);
    }
  }

  lemma ConstructedNative(c: CellType, defaults: Params, supplied: Params, r: CellParameters)
    requires Construct(c, defaults, supplied) == Ok(r)
    ensures ToNative(Translations(c), defaults + supplied).Ok?
    ensures r.native == ApplyOverrides(ToNative(Translations(c), defaults + supplied).value, Overrides(c))
  {
    var n := ToNative(Translations(c), defaults + supplied).value;
    var m := ApplyOverrides(n, Overrides(c));
    assert r.native.Keys == m.Keys;
    assert forall k | k in m :: r.native[k] == m[k];
  }

  /** Every constructed standard cell reads back, through the type's reverse
      translation, as exactly its completed standard parameters; the forced
      constants of the hardware model do not disturb it. */
  lemma ConstructRoundTrip(c: CellType, defaults: Params, supplied: Params, r: CellParameters)
    requires Construct(c, defaults, supplied) == Ok(r)
    ensures ToStandard(Translations(c), r.native) == Ok(defaults + supplied)
  {
    var s := defaults + supplied;
    var n := ToNative(Translations(c), s).value;
    ConstructedNative(c, defaults, supplied, r);
    TranslationRoundTrip(c, s, n);
    OverridesInvisible(c, n);
  }

  /** A constructed cell reads back as its completed parameters also when
      the reverse texts are evaluated. */
  lemma ConstructEvaluatedRoundTrip(c: CellType, defaults: Params, supplied: Params, r: CellParameters)
    requires Construct(c, defaults, supplied) == Ok(r)
    ensures ToStandardAsEvaluated(Translations(c), r.native) == Ok(defaults + supplied)
  {
    TranslationsParse(c);
    ParsingTableAgrees(Translations(c), defaults + supplied, r.native);
    ConstructRoundTrip(c, defaults, supplied, r);
  }

  /** Exactly the neuron types fix a synapse type and shape, and the pair each
      fixes is one the native model accepts. */
  lemma SynapseChoiceAccepted(c: CellType)
    ensures SynapseChoice(c).Some? <==> Model(c) != RandomSpikeSource
    ensures SynapseChoice(c).Some? ==> SynapseModel(SynapseChoice(c).value.0, SynapseChoice(c).value.1).Ok?
  {
  }

  lemma IfCondNativeNamesAccepted()
    ensures NativeNames(IfCondTable) <= ModelArguments(StandardIF)
  {
    IfCondNativeNamesAre();
    assert IfCurrNativeNames + {"e_e", "e_i"} <= StandardIfDefaults.Keys + {"v_reset", "v_init"};
  }

  lemma IfCurrNativeNamesAccepted()
    ensures NativeNames(IfCurrTable) <= ModelArguments(StandardIF)
  {
    IfCurrNativeNamesAre();
    assert IfCurrNativeNames <= StandardIfDefaults.Keys + {"v_reset", "v_init"};
  }

  lemma FacetsNativeNamesAccepted()
    ensures NativeNames(FacetsTable) + FacetsOverrides.Keys <= ModelArguments(StandardIF)
  {
    FacetsNames();
    assert FacetsOverrides.Keys == {"i_offset", "c_m", "t_refrac", "e_e"};
  }

  lemma EifNativeNamesAccepted()
    ensures NativeNames(EifTable) <= ModelArguments(BretteGerstnerIF)
  {
    EifNativeNamesAre();
    assert EifNativeNames <= BretteGerstnerDefaults.Keys + {"v_init"};
  }

  /** Every native name a cell type produces, translated or forced, is an
      argument its native model accepts. */
  lemma NativeNamesAccepted(c: CellType)
    ensures NativeNames(Translations(c)) + Overrides(c).Keys <= ModelArguments(Model(c))
  {
    match c
    case IfCurrAlpha | IfCurrExp => IfCurrNativeNamesAccepted();
    case IfCondAlpha | IfCondExp => IfCondNativeNamesAccepted();
    case IfFacetsHardware1 => FacetsNativeNamesAccepted();
    case SpikeSourcePoisson => PoissonNames();
    case EifCondAlphaIsfaIsta | EifCondExpIsfaIsta => EifNativeNamesAccepted();
  }
}

=== FILE: neuron_models.dfy ===
/** The NEURON backend's native single-compartment neurons: the choice of
    synapse mechanism, the segment and mechanism fields their parameters are
    stored in, the unit arithmetic of the property setters, argument
    completion, the ordered `set_parameters` pass that builds a cell, and
    `memb_init`. NEURON objects are replaced by an explicit record of the
    fields these classes read and write. */
module NeuronModels {
  import opened Results
  import opened Expressions

  // ---------------------------------------------------------------------------
  // Synapse mechanisms
  // ---------------------------------------------------------------------------

  /** The four point processes a synapse can be: current- or
      conductance-based, with exponential or alpha-function time course. */
  datatype SynapseMechanism = ExpISyn | AlphaISyn | ExpSyn | AlphaSyn

  const SynapseTypes: set<string> := {"current", "conductance"}
  const SynapseShapes: set<string> := {"alpha", "exp"}

  /** The (syn_type, syn_shape) pair a mechanism is selected by. */
  function SynapseKind(m: SynapseMechanism): (r: (string, string))
    ensures r.0 in SynapseTypes && r.1 in SynapseShapes
    ensures r.0 == "current" <==> m.ExpISyn? || m.AlphaISyn?
    ensures r.1 == "exp" <==> m.ExpISyn? || m.ExpSyn?
  {
    match m
    case ExpISyn => ("current", "exp")
    case AlphaISyn => ("current", "alpha")
    case ExpSyn => ("conductance", "exp")
    case AlphaSyn => ("conductance", "alpha")
  }

  /** The two-level lookup of the synapse-model table, guarded by the checks
      on the type and the shape. */
  function SynapseModel(synType: string, synShape: string): (r: Result<SynapseMechanism>)
    ensures synType !in SynapseTypes ==> r == Err(InvalidSynapseType(synType))
    ensures synType in SynapseTypes && synShape !in SynapseShapes ==> r == Err(InvalidSynapseShape(synShape))
    ensures r.Ok? <==> synType in SynapseTypes && synShape in SynapseShapes
    ensures r.Ok? ==> SynapseKind(r.value) == (synType, synShape)
  {
    if synType !in SynapseTypes then Err(InvalidSynapseType(synType))
    else if synShape !in SynapseShapes then Err(InvalidSynapseShape(synShape))
    else if synType == "current" then Ok(if synShape == "exp" then ExpISyn else AlphaISyn)
    else Ok(if synShape == "exp" then ExpSyn else AlphaSyn)
  }

  /** Every mechanism is selected by exactly its own pair. */
  lemma SynapseModelOfKind(m: SynapseMechanism)
    ensures SynapseModel(SynapseKind(m).0, SynapseKind(m).1) == Ok(m)
  {
  }

  // ---------------------------------------------------------------------------
  // Cell state
  // ---------------------------------------------------------------------------

  /** The section's segment: specific capacitance, passive leak conductance
      and reversal potential, membrane potential. */
  datatype Segment = Segment(cm: real, g: real, e: real, v: real)

  /** A synapse point process; a current-based one has no reversal potential
      and keeps `e` at 0. */
  datatype Synapse = Synapse(mechanism: SynapseMechanism, tau: real, e: real)

  /** The spike mechanism: the reset-and-refractory point process of the
      standard integrate-and-fire neuron, or the adaptive exponential
      mechanism with its own copies of the leak conductance and reversal. */
  datatype SpikeMechanism =
    | ResetRefrac(vthresh: real, vreset: real, trefrac: real, vspike: real)
    | IfBg5(vtr: real, vbot: real, ref: real, a: real, b: real, tauW: real, delta: real,
            wInit: real, vspike: real, vtop: real, gl: real, el: real, surf: real)

  /** A native cell. `vInit` is the initial potential a standard
      integrate-and-fire cell keeps as a plain attribute; the adaptive cell
      aliases `v_init` to the segment's potential instead. */
  datatype Cell = Cell(seg: Segment, esyn: Synapse, isyn: Synapse, stimAmp: real, vInit: real,
                       spike: SpikeMechanism)

  /** The native parameters the cell classes expose. */
  datatype Param =
    | CM | TauM | VRest | VThresh | TRefrac | IOffset | VReset | VInit | TauE | TauI | EE | EI
    | A | B | TauW | Delta | WInit | VSpike

  function ParamName(p: Param): string {
    match p
    case CM => "c_m"
    case TauM => "tau_m"
    case VRest => "v_rest"
    case VThresh => "v_thresh"
    case TRefrac => "t_refrac"
    case IOffset => "i_offset"
    case VReset => "v_reset"
    case VInit => "v_init"
    case TauE => "tau_e"
    case TauI => "tau_i"
    case EE => "e_e"
    case EI => "e_i"
    case A => "A"
    case B => "B"
    case TauW => "tau_w"
    case Delta => "delta"
    case WInit => "w_init"
    case VSpike => "v_spike"
  }

  /** Parameters only the adaptive exponential neuron has. */
  predicate AdaptiveOnly(p: Param) {
    p.A? || p.B? || p.TauW? || p.Delta? || p.WInit? || p.VSpike?
  }

  /** Whether the cell has the parameter at all. */
  predicate Has(c: Cell, p: Param) {
    c.spike.IfBg5? || !AdaptiveOnly(p)
  }

  /** The section area, 1e-3 cm^2: length 100 um times pi times a diameter of
      1000/pi um, in which pi cancels. */
  const SectionArea: real := 100.0 * 1000.0

  /** tau_m (ms) from capacitance and leak: cm(nF)/g(uS), with the factor
      1e-3 from the 1e-3 cm^2 area. */
  function MembraneTime(cm: real, g: real): real
    requires g != 0.0
  {
    Quotient(Product(0.001, cm), g)
  }

  /** Reading a parameter. */
  function Get(c: Cell, p: Param): (r: Result<real>)
    ensures r.Ok? <==> Has(c, p) && (p == TauM ==> c.seg.g != 0.0)
    ensures !Has(c, p) ==> r == Err(UnknownParameters({ParamName(p)}))
    ensures p == TauM && c.seg.g == 0.0 ==> r == Err(DivisionByZero)
  {
    if !Has(c, p) then Err(UnknownParameters({ParamName(p)}))
    else
      match p
      case CM => Ok(c.seg.cm)
      case TauM => if c.seg.g == 0.0 then Err(DivisionByZero) else Ok(MembraneTime(c.seg.cm, c.seg.g))
      case VRest => Ok(c.seg.e)
      case VThresh => Ok(if c.spike.IfBg5? then c.spike.vtr else c.spike.vthresh)
      case TRefrac => Ok(if c.spike.IfBg5? then c.spike.ref else c.spike.trefrac)
      case IOffset => Ok(c.stimAmp)
      case VReset => Ok(if c.spike.IfBg5? then c.spike.vbot else c.spike.vreset)
      case VInit => Ok(if c.spike.IfBg5? then c.seg.v else c.vInit)
      case TauE => Ok(c.esyn.tau)
      case TauI => Ok(c.isyn.tau)
      case EE => Ok(c.esyn.e)
      case EI => Ok(c.isyn.e)
      case A => Ok(c.spike.a)
      case B => Ok(c.spike.b)
      case TauW => Ok(c.spike.tauW)
      case Delta => Ok(c.spike.delta)
      case WInit => Ok(c.spike.wInit)
      case VSpike => Ok(c.spike.vspike)
  }

  /** The tau_m setter: stores the leak conductance 1e-3*cm/tau_m; the
      adaptive mechanism's copy GL follows. */
  function SetTauM(c: Cell, x: real): (r: Result<Cell>)
    ensures r.Ok? <==> x != 0.0
    ensures r.Err? ==> r.error == DivisionByZero
    ensures r.Ok? && c.seg.cm != 0.0 ==> Get(r.value, TauM) == Ok(x)
  {
    if x == 0.0 then Err(DivisionByZero)
    else
      var g := Quotient(Product(0.001, c.seg.cm), x);
      TauMRoundTrip(c.seg.cm, x);
      var c1 := c.(seg := c.seg.(g := g));
      Ok(if c1.spike.IfBg5? then c1.(spike := c1.spike.(gl := g)) else c1)
  }

  /** The leak conductance stored for tau_m gives tau_m back. */
  lemma TauMRoundTrip(cm: real, x: real)
    requires x != 0.0
    ensures cm != 0.0 ==> Quotient(Product(0.001, cm), x) != 0.0
    ensures cm != 0.0 ==> MembraneTime(cm, Quotient(Product(0.001, cm), x)) == x
  {
    if cm != 0.0 {
      ProductNonZero(0.001, cm);
      QuotientOfQuotient(Product(0.001, cm), x);
    }
  }

  /** What no parameter setter changes: the kind of spike mechanism and its
      fixed constants, and the synapse mechanisms. */
  predicate SameStructure(c: Cell, d: Cell) {
    && d.spike.IfBg5? == c.spike.IfBg5?
    && (c.spike.ResetRefrac? ==> d.spike.vspike == c.spike.vspike)
    && (c.spike.IfBg5? ==> d.spike.surf == c.spike.surf)
    && d.esyn.mechanism == c.esyn.mechanism
    && d.isyn.mechanism == c.isyn.mechanism
  }

  /** Writing a parameter. The c_m setter reads tau_m, changes the capacitance
      and writes tau_m back, so that tau_m is kept. */
  function Set(c: Cell, p: Param, x: real): (r: Result<Cell>)
    ensures r.Ok? <==>
              && Has(c, p)
              && (p == TauM ==> x != 0.0)
              && (p == CM ==> c.seg.g != 0.0 && c.seg.cm != 0.0)
    ensures r.Ok? ==> SameStructure(c, r.value)
  {
    if !Has(c, p) then Err(UnknownParameters({ParamName(p)}))
    else
      match p
      case CM =>
        var tau :- Get(c, TauM);
        TauMRoundTrip(c.seg.cm, c.seg.g);
        SetTauM(c.(seg := c.seg.(cm := x)), tau)
      case TauM => SetTauM(c, x)
      case VRest =>
        var c1 := c.(seg := c.seg.(e := x));
        Ok(if c1.spike.IfBg5? then c1.(spike := c1.spike.(el := x)) else c1)
      case VThresh => Ok(c.(spike := if c.spike.IfBg5? then c.spike.(vtr := x) else c.spike.(vthresh := x)))
      case TRefrac => Ok(c.(spike := if c.spike.IfBg5? then c.spike.(ref := x) else c.spike.(trefrac := x)))
      case IOffset => Ok(c.(stimAmp := x))
      case VReset => Ok(c.(spike := if c.spike.IfBg5? then c.spike.(vbot := x) else c.spike.(vreset := x)))
      case VInit => Ok(if c.spike.IfBg5? then c.(seg := c.seg.(v := x)) else c.(vInit := x))
      case TauE => Ok(c.(esyn := c.esyn.(tau := x)))
      case TauI => Ok(c.(isyn := c.isyn.(tau := x)))
      case EE => Ok(c.(esyn := c.esyn.(e := x)))
      case EI => Ok(c.(isyn := c.isyn.(e := x)))
      case A => Ok(c.(spike := c.spike.(a := x)))
      case B => Ok(c.(spike := c.spike.(b := x)))
      case TauW => Ok(c.(spike := c.spike.(tauW := x)))
      case Delta => Ok(c.(spike := c.spike.(delta := x)))
      case WInit => Ok(c.(spike := c.spike.(wInit := x)))
      case VSpike => Ok(c.(spike := c.spike.(vspike := x, vtop := x + 10.0)))
  }

  /** Capacitance and leak both non-zero: tau_m is readable and the c_m
      setter works. */
  predicate Valid(c: Cell) {
    c.seg.cm != 0.0 && c.seg.g != 0.0
  }

  /** A value the setter of `p` accepts without breaking validity. */
  predicate Admissible(p: Param, x: real) {
    (p == CM || p == TauM) ==> x != 0.0
  }

  /** Get after set returns the value written. */
  lemma GetAfterSet(c: Cell, p: Param, x: real)
    requires Valid(c) && Has(c, p) && Admissible(p, x)
    ensures Set(c, p, x).Ok?
    ensures Valid(Set(c, p, x).value)
    ensures Get(Set(c, p, x).value, p) == Ok(x)
  {
    var c1 := Set(c, p, x).value;
    if p == CM {
      var tau := MembraneTime(c.seg.cm, c.seg.g);
      TauMRoundTrip(c.seg.cm, c.seg.g);
      TauMRoundTrip(x, tau);
      assert c1.seg.cm == x;
    } else if p == TauM {
      TauMRoundTrip(c.seg.cm, x);
    }
  }

  /** Setting one parameter leaves every other parameter's value unchanged;
      in particular setting c_m keeps tau_m. */
  lemma SetFrame(c: Cell, p: Param, x: real, q: Param)
    requires Valid(c) && Has(c, p) && Admissible(p, x)
    requires q != p
    ensures Set(c, p, x).Ok?
    ensures Get(Set(c, p, x).value, q) == Get(c, q)
  {
    GetAfterSet(c, p, x);
    if p == CM {
      CapacitanceFrame(c, x, q);
    } else {
      FieldFrame(c, p, x, q);
    }
  }

  /** The c_m case of SetFrame: tau_m is kept, every other field too. */
  lemma CapacitanceFrame(c: Cell, x: real, q: Param)
    requires Valid(c) && x != 0.0 && q != CM
    ensures Set(c, CM, x).Ok? && Get(Set(c, CM, x).value, q) == Get(c, q)
  {
    var tau := MembraneTime(c.seg.cm, c.seg.g);
    TauMRoundTrip(c.seg.cm, c.seg.g);
    if q == TauM {
      TauMRoundTrip(x, tau);
    }
  }

  /** The other setters write fields that no other parameter reads. */
  lemma FieldFrame(c: Cell, p: Param, x: real, q: Param)
    requires Valid(c) && Has(c, p) && Admissible(p, x) && p != CM && q != p
    ensures Set(c, p, x).Ok? && Get(Set(c, p, x).value, q) == Get(c, q)
  {
  }

  /** The couplings the adaptive mechanism keeps to the segment: GL is the
      leak conductance, EL the leak reversal, Vtop ten above Vspike. */
  datatype Link = LeakConductance | LeakReversal | SpikeTop

  predicate Linked(c: Cell, k: Link) {
    c.spike.IfBg5? ==>
      match k
      case LeakConductance => c.spike.gl == c.seg.g
      case LeakReversal => c.spike.el == c.seg.e
      case SpikeTop => c.spike.vtop == c.spike.vspike + 10.0
  }

  /** The setter that establishes each coupling. */
  function Establisher(k: Link): Param {
    match k
    case LeakConductance => TauM
    case LeakReversal => VRest
    case SpikeTop => VSpike
  }

  /** Every setter keeps each coupling, and the coupling's own setter
      establishes it. */
  lemma SetKeepsLinks(c: Cell, p: Param, x: real, k: Link)
    requires Set(c, p, x).Ok?
    ensures Linked(c, k) ==> Linked(Set(c, p, x).value, k)
    ensures p == Establisher(k) ==> Linked(Set(c, p, x).value, k)
  {
  }

  // ---------------------------------------------------------------------------
  // set_parameters and construction
  // ---------------------------------------------------------------------------

  /** `set_parameters`: writes each named parameter in order, reading its
      value from `values`; a missing value is a KeyError. */
  function SetParameters(c: Cell, names: seq<Param>, values: map<string, real>): (r: Result<Cell>)
    ensures r.Ok? ==> SameStructure(c, r.value)
    ensures (exists i | 0 <= i < |names| :: ParamName(names[i]) !in values) ==> r.Err?
    decreases |names|
  {
    if |names| == 0 then Ok(c)
    else
      var name := ParamName(names[0]);
      if name !in values then Err(MissingParameter(name))
      else
        var c1 :- Set(c, names[0], values[name]);
        var r := SetParameters(c1, names[1..], values);
        assert forall i | 1 <= i < |names| :: names[1..][i - 1] == names[i];
        r
  }

  /** What `set_parameters` needs to succeed and read back. */
  predicate Writable(c: Cell, names: seq<Param>, values: map<string, real>) {
    forall p | p in names :: Has(c, p) && ParamName(p) in values && Admissible(p, values[ParamName(p)])
  }

  /** After `set_parameters` every named parameter reads back its value, every
      other parameter is unchanged, validity is kept, and the adaptive
      couplings hold once their setters ran. */
  lemma {:induction false} SetParametersReadBack(c: Cell, names: seq<Param>, values: map<string, real>)
    requires Valid(c) && Writable(c, names, values)
    ensures SetParameters(c, names, values).Ok?
    ensures Valid(SetParameters(c, names, values).value)
    ensures forall p | p in names :: Get(SetParameters(c, names, values).value, p) == Ok(values[ParamName(p)])
    ensures forall q | q !in names :: Get(SetParameters(c, names, values).value, q) == Get(c, q)
    ensures forall k: Link | Linked(c, k) || Establisher(k) in names ::
              Linked(SetParameters(c, names, values).value, k)
    decreases |names|
  {
    if |names| > 0 {
      var p0 := names[0];
      var x := values[ParamName(p0)];
      GetAfterSet(c, p0, x);
      var c1 := Set(c, p0, x).value;
      var rest := names[1..];
      assert names == [p0] + rest;
      assert Valid(c1);
      assert SameStructure(c, c1);
      forall p | p in rest ensures Has(c1, p) && ParamName(p) in values && Admissible(p, values[ParamName(p)]) {
        assert p in names;
      }
      SetParametersReadBack(c1, rest, values);
      var r := SetParameters(c1, rest, values).value;
      assert SetParameters(c, names, values) == SetParameters(c1, rest, values);
      forall p | p in names ensures Get(r, p) == Ok(values[ParamName(p)]) {
        if p !in rest {
          assert p == p0;
        }
      }
      forall q | q !in names ensures Get(r, q) == Get(c, q) {
        assert q !in rest && q != p0;
        SetFrame(c, p0, x, q);
      }
      forall k: Link | Linked(c, k) || Establisher(k) in names ensures Linked(r, k) {
        SetKeepsLinks(c, p0, x, k);
        if Establisher(k) in names && Establisher(k) !in rest {
          assert names == [p0] + rest;
          assert Establisher(k) == p0;
        }
      }
    }
  }

  /** A keyword argument list: the supplied arguments by name. */
  type Kwargs = map<string, real>

  /** Python's binding of keyword arguments: an unknown name is refused, a
      missing one takes its default. Defaults of `None` are absent from
      `defaults` and listed in `optional`. */
  function BindArguments(kwargs: Kwargs, defaults: Kwargs, optional: set<string>): (r: Result<Kwargs>)
    ensures r.Ok? <==> kwargs.Keys <= defaults.Keys + optional
    ensures r.Err? ==> r.error == UnknownParameters(kwargs.Keys - (defaults.Keys + optional))
    ensures r.Ok? ==> r.value.Keys == defaults.Keys + kwargs.Keys
    ensures r.Ok? ==> forall k | k in r.value :: r.value[k] == if k in kwargs then kwargs[k] else defaults[k]
  {
    if kwargs.Keys <= defaults.Keys + optional then Ok(defaults + kwargs)
    else Err(UnknownParameters(kwargs.Keys - (defaults.Keys + optional)))
  }

  /** Keyword binding followed by the `is None` completions of the cell
      constructors: each name in `fromRest` left at None takes v_rest's
      value. */
  function CompleteArguments(kwargs: Kwargs, defaults: Kwargs, fromRest: set<string>): (r: Result<Kwargs>)
    requires "v_rest" in defaults && fromRest !! defaults.Keys
    ensures r.Ok? <==> kwargs.Keys <= defaults.Keys + fromRest
    ensures r.Err? ==> r.error == UnknownParameters(kwargs.Keys - (defaults.Keys + fromRest))
    ensures r.Ok? ==> r.value.Keys == defaults.Keys + fromRest
    ensures r.Ok? ==> forall k | k in kwargs :: r.value[k] == kwargs[k]
    ensures r.Ok? ==> forall k | k in defaults && k !in kwargs :: r.value[k] == defaults[k]
    ensures r.Ok? ==> forall k | k in fromRest && k !in kwargs :: r.value[k] == r.value["v_rest"]
  {
    var args :- BindArguments(kwargs, defaults, fromRest);
    Ok(map k | k in args.Keys + fromRest :: if k in args then args[k] else args["v_rest"])
  }

  const StandardIfDefaults: Kwargs := map[
    "tau_m" := 20.0, "c_m" := 1.0, "v_rest" := -65.0, "v_thresh" := -55.0, "t_refrac" := 2.0,
    "i_offset" := 0.0, "tau_e" := 5.0, "tau_i" := 5.0, "e_e" := 0.0, "e_i" := -70.0]

  /** StandardIF's arguments with v_reset and v_init completed from v_rest. */
  function StandardIfArguments(kwargs: Kwargs): (r: Result<Kwargs>)
    ensures r.Ok? <==> kwargs.Keys <= StandardIfDefaults.Keys + {"v_reset", "v_init"}
    ensures r.Ok? ==> r.value.Keys == StandardIfDefaults.Keys + {"v_reset", "v_init"}
    ensures r.Ok? ==> forall k | k in kwargs :: r.value[k] == kwargs[k]
    ensures r.Ok? ==> forall k | k in StandardIfDefaults && k !in kwargs :: r.value[k] == StandardIfDefaults[k]
    ensures r.Ok? && "v_reset" !in kwargs ==> r.value["v_reset"] == r.value["v_rest"]
    ensures r.Ok? && "v_init" !in kwargs ==> r.value["v_init"] == r.value["v_rest"]
  {
    StandardIfDefaultsShape();
    CompleteArguments(kwargs, StandardIfDefaults, {"v_reset", "v_init"})
  }

  lemma StandardIfDefaultsShape()
    ensures "v_rest" in StandardIfDefaults && {"v_reset", "v_init"} !! StandardIfDefaults.Keys
  {
  }

  const BretteGerstnerDefaults: Kwargs := map[
    "tau_m" := 20.0, "c_m" := 1.0, "v_rest" := -65.0, "v_thresh" := -55.0, "t_refrac" := 2.0,
    "i_offset" := 0.0, "tau_e" := 5.0, "tau_i" := 5.0, "e_e" := 0.0, "e_i" := -70.0,
    "v_spike" := 0.0, "v_reset" := -70.6, "A" := 4.0, "B" := 0.0805, "tau_w" := 144.0,
    "w_init" := 0.0, "delta" := 2.0]

  /** BretteGerstnerIF's arguments with v_init completed from v_rest. */
  function BretteGerstnerArguments(kwargs: Kwargs): (r: Result<Kwargs>)
    ensures r.Ok? <==> kwargs.Keys <= BretteGerstnerDefaults.Keys + {"v_init"}
    ensures r.Ok? ==> r.value.Keys == BretteGerstnerDefaults.Keys + {"v_init"}
    ensures r.Ok? ==> forall k | k in kwargs :: r.value[k] == kwargs[k]
    ensures r.Ok? ==> forall k | k in BretteGerstnerDefaults && k !in kwargs :: r.value[k] == BretteGerstnerDefaults[k]
    ensures r.Ok? && "v_init" !in kwargs ==> r.value["v_init"] == r.value["v_rest"]
  {
    BretteGerstnerDefaultsShape();
    CompleteArguments(kwargs, BretteGerstnerDefaults, {"v_init"})
  }

  lemma BretteGerstnerDefaultsShape()
    ensures "v_rest" in BretteGerstnerDefaults && {"v_init"} !! BretteGerstnerDefaults.Keys
  {
  }

  /** The synaptic reversal potentials are parameters of conductance
      synapses only. */
  function ReversalNames(synType: string): (r: seq<Param>)
    ensures EE in r <==> synType == "conductance"
    ensures EI in r <==> synType == "conductance"
  {
    if synType == "conductance" then [EE, EI] else []
  }

  /** StandardIF's parameter names, c_m before tau_m. */
  function StandardIfParameterNames(synType: string): (r: seq<Param>)
    ensures forall p | p in r :: !AdaptiveOnly(p)
    ensures forall p: Param | !AdaptiveOnly(p) && p != EE && p != EI :: p in r
    ensures (EE in r <==> synType == "conductance") && (EI in r <==> synType == "conductance")
  {
    [CM, TauM, VRest, VThresh, TRefrac, IOffset, VReset, VInit, TauE, TauI] + ReversalNames(synType)
  }

  const BretteGerstnerCommonNames: seq<Param> :=
    [CM, TauM, VRest, VThresh, TRefrac, IOffset, VReset, VInit, TauE, TauI,
     VThresh, A, B, TauW, Delta, WInit, VSpike]

  /** BretteGerstnerIF's parameter names; v_thresh is listed twice, which is
      harmless since both writes store the same value. */
  function BretteGerstnerParameterNames(synType: string): (r: seq<Param>)
    ensures (EE in r <==> synType == "conductance") && (EI in r <==> synType == "conductance")
  {
    BretteGerstnerCommonNames + ReversalNames(synType)
  }

  /** Capacitance and membrane time constant both given and non-zero, as
      the c_m and tau_m setters need. */
  predicate Constructible(args: Kwargs) {
    "c_m" in args && "tau_m" in args && args["c_m"] != 0.0 && args["tau_m"] != 0.0
  }

  /** Spike height of the reset mechanism, mV. */
  const ResetSpikeHeight: real := 40.0

  /** StandardIF.__init__ from keyword arguments, on an initial segment whose
      capacitance and leak are NEURON's (not part of this model). */
  function NewStandardIf(synType: string, synShape: string, kwargs: Kwargs, initial: Segment): (r: Result<Cell>)
    ensures StandardIfArguments(kwargs).Err? ==> r == Err(StandardIfArguments(kwargs).error)
    ensures StandardIfArguments(kwargs).Ok? && SynapseModel(synType, synShape).Err? ==>
              r == Err(SynapseModel(synType, synShape).error)
    ensures r.Ok? ==> r.value.spike.ResetRefrac? && r.value.spike.vspike == ResetSpikeHeight
    ensures r.Ok? ==> SynapseKind(r.value.esyn.mechanism) == (synType, synShape)
    ensures r.Ok? ==> r.value.isyn.mechanism == r.value.esyn.mechanism
  {
    var args :- StandardIfArguments(kwargs);
    var mechanism :- SynapseModel(synType, synShape);
    var blank := Cell(initial, Synapse(mechanism, 0.0, 0.0), Synapse(mechanism, 0.0, 0.0), args["i_offset"], 0.0,
                      ResetRefrac(0.0, 0.0, 0.0, ResetSpikeHeight));
    SetParameters(blank, StandardIfParameterNames(synType), args)
  }

  /** BretteGerstnerIF.__init__ from keyword arguments. */
  function NewBretteGerstner(synType: string, synShape: string, kwargs: Kwargs, initial: Segment): (r: Result<Cell>)
    ensures BretteGerstnerArguments(kwargs).Err? ==> r == Err(BretteGerstnerArguments(kwargs).error)
    ensures BretteGerstnerArguments(kwargs).Ok? && SynapseModel(synType, synShape).Err? ==>
              r == Err(SynapseModel(synType, synShape).error)
    ensures r.Ok? ==> r.value.spike.IfBg5? && r.value.spike.surf == SectionArea
    ensures r.Ok? ==> SynapseKind(r.value.esyn.mechanism) == (synType, synShape)
    ensures r.Ok? ==> r.value.isyn.mechanism == r.value.esyn.mechanism
  {
    var args :- BretteGerstnerArguments(kwargs);
    var mechanism :- SynapseModel(synType, synShape);
    var blank := Cell(initial, Synapse(mechanism, 0.0, 0.0), Synapse(mechanism, 0.0, 0.0), args["i_offset"], 0.0,
                      IfBg5(0.0, 0.0, 0.0, 0.0, 0.0, 0.0, 0.0, 0.0, 0.0, 0.0, 0.0, 0.0, SectionArea));
    SetParameters(blank, BretteGerstnerParameterNames(synType), args)
  }

  /** The cell constructed on a valid segment from a non-zero capacitance and
      membrane time constant reads back every completed argument, and is
      valid. */
  lemma StandardIfReadBack(synType: string, synShape: string, kwargs: Kwargs, initial: Segment)
    requires StandardIfArguments(kwargs).Ok? && SynapseModel(synType, synShape).Ok?
    requires initial.cm != 0.0 && initial.g != 0.0
    requires Constructible(StandardIfArguments(kwargs).value)
    ensures NewStandardIf(synType, synShape, kwargs, initial).Ok?
    ensures Valid(NewStandardIf(synType, synShape, kwargs, initial).value)
    ensures forall p | p in StandardIfParameterNames(synType) ::
              Get(NewStandardIf(synType, synShape, kwargs, initial).value, p)
              == Ok(StandardIfArguments(kwargs).value[ParamName(p)])
  {
    var args := StandardIfArguments(kwargs).value;
    var mechanism := SynapseModel(synType, synShape).value;
    var blank := Cell(initial, Synapse(mechanism, 0.0, 0.0), Synapse(mechanism, 0.0, 0.0), args["i_offset"], 0.0,
                      ResetRefrac(0.0, 0.0, 0.0, ResetSpikeHeight));
    StandardIfWritable(synType, blank, args);
    SetParametersReadBack(blank, StandardIfParameterNames(synType), args);
  }

  /** Every parameter is in BretteGerstnerIF's list, the reversal potentials
      exactly for conductance synapses. */
  lemma BretteGerstnerNamesComplete(synType: string)
    ensures forall p: Param | p != EE && p != EI :: p in BretteGerstnerParameterNames(synType)
  {
    var r := BretteGerstnerCommonNames;
    forall p: Param | p != EE && p != EI ensures p in r {
      match p
      case CM => assert r[0] == p;
      case TauM => assert r[1] == p;
      case VRest => assert r[2] == p;
      case VThresh => assert r[3] == p;
      case TRefrac => assert r[4] == p;
      case IOffset => assert r[5] == p;
      case VReset => assert r[6] == p;
      case VInit => assert r[7] == p;
      case TauE => assert r[8] == p;
      case TauI => assert r[9] == p;
      case A => assert r[11] == p;
      case B => assert r[12] == p;
      case TauW => assert r[13] == p;
      case Delta => assert r[14] == p;
      case WInit => assert r[15] == p;
      case VSpike => assert r[16] == p;
    }
  }

  /** Completed arguments with a non-zero capacitance and membrane time
      constant can be written in full to a cell of the right kind. */
  lemma StandardIfWritable(synType: string, blank: Cell, args: Kwargs)
    requires args.Keys == StandardIfDefaults.Keys + {"v_reset", "v_init"} && Constructible(args)
    requires blank.spike.ResetRefrac?
    ensures Writable(blank, StandardIfParameterNames(synType), args)
  {
    StandardIfNamesBound(synType);
  }

  /** The names StandardIF sets are among its arguments. */
  lemma StandardIfNamesBound(synType: string)
    ensures forall p | p in StandardIfParameterNames(synType) ::
              ParamName(p) in StandardIfDefaults.Keys + {"v_reset", "v_init"}
  {
    forall p | p in StandardIfParameterNames(synType)
      ensures ParamName(p) in StandardIfDefaults.Keys + {"v_reset", "v_init"}
    {
      assert !AdaptiveOnly(p);
    }
  }

  /** Completed arguments with a non-zero capacitance and membrane time
      constant can be written in full to a cell of the right kind. */
  lemma BretteGerstnerWritable(synType: string, blank: Cell, args: Kwargs)
    requires args.Keys == BretteGerstnerDefaults.Keys + {"v_init"} && Constructible(args)
    requires blank.spike.IfBg5?
    ensures Writable(blank, BretteGerstnerParameterNames(synType), args)
  {
    BretteGerstnerNamesBound(synType);
  }

  /** The names BretteGerstnerIF sets are among its arguments. */
  lemma BretteGerstnerNamesBound(synType: string)
    ensures forall p | p in BretteGerstnerParameterNames(synType) ::
              ParamName(p) in BretteGerstnerDefaults.Keys + {"v_init"}
  {
  }

  /** The adaptive cell reads back every completed argument, and its
      mechanism's GL, EL and Vtop are coupled to the segment. */
  lemma BretteGerstnerReadBack(synType: string, synShape: string, kwargs: Kwargs, initial: Segment)
    requires BretteGerstnerArguments(kwargs).Ok? && SynapseModel(synType, synShape).Ok?
    requires initial.cm != 0.0 && initial.g != 0.0
    requires Constructible(BretteGerstnerArguments(kwargs).value)
    ensures NewBretteGerstner(synType, synShape, kwargs, initial).Ok?
    ensures Valid(NewBretteGerstner(synType, synShape, kwargs, initial).value)
    ensures forall p | p in BretteGerstnerParameterNames(synType) ::
              Get(NewBretteGerstner(synType, synShape, kwargs, initial).value, p)
              == Ok(BretteGerstnerArguments(kwargs).value[ParamName(p)])
    ensures forall k: Link :: Linked(NewBretteGerstner(synType, synShape, kwargs, initial).value, k)
  {
    var args := BretteGerstnerArguments(kwargs).value;
    var mechanism := SynapseModel(synType, synShape).value;
    var blank := Cell(initial, Synapse(mechanism, 0.0, 0.0), Synapse(mechanism, 0.0, 0.0), args["i_offset"], 0.0,
                      IfBg5(0.0, 0.0, 0.0, 0.0, 0.0, 0.0, 0.0, 0.0, 0.0, 0.0, 0.0, 0.0, SectionArea));
    BretteGerstnerWritable(synType, blank, args);
    SetParametersReadBack(blank, BretteGerstnerParameterNames(synType), args);
  }

  // ---------------------------------------------------------------------------
  // memb_init
  // ---------------------------------------------------------------------------

  /** `memb_init` as written: a supplied initial potential is stored only when
      it is truthy, so an explicit 0.0 mV is ignored; the segment then starts
      at the stored value. */
  function MembInitAsWritten(c: Cell, vInit: Option<real>): (r: Cell)
    ensures vInit.Some? && vInit.value != 0.0 ==> r.seg.v == vInit.value
    ensures (vInit.None? || vInit.value == 0.0) ==> r.seg.v == Get(c, VInit).value
    ensures Get(r, VInit) == if vInit.Some? && vInit.value != 0.0 then Ok(vInit.value) else Get(c, VInit)
    ensures SameStructure(c, r)
    ensures forall p | p != VInit :: Get(r, p) == Get(c, p)
  {
    var c1 := if vInit.Some? && vInit.value != 0.0 then Set(c, VInit, vInit.value).value else c;
    c1.(seg := c1.seg.(v := Get(c1, VInit).value))
  }

  /** An explicit initial potential of 0.0 mV is dropped by `memb_init`. */
  lemma MembInitDropsZero(c: Cell)
    requires Get(c, VInit) == Ok(-65.0)
    ensures MembInitAsWritten(c, Some(0.0)).seg.v == -65.0
  {
  }

  /** `memb_init` with the test for an absent argument: a supplied initial
      potential, zero included, is stored and applied. */
  function MembInit(c: Cell, vInit: Option<real>): (r: Cell)
    ensures vInit.Some? ==> r.seg.v == vInit.value && Get(r, VInit) == Ok(vInit.value)
    ensures vInit.None? ==> r.seg.v == Get(c, VInit).value && Get(r, VInit) == Get(c, VInit)
    ensures SameStructure(c, r)
    ensures forall p | p != VInit :: Get(r, p) == Get(c, p)
  {
    var c1 := if vInit.Some? then Set(c, VInit, vInit.value).value else c;
    c1.(seg := c1.seg.(v := Get(c1, VInit).value))
  }

  /** The corrected `memb_init` agrees with the original except on an explicit
      0.0. */
  lemma MembInitAgrees(c: Cell, vInit: Option<real>)
    requires vInit.None? || vInit.value != 0.0
    ensures MembInit(c, vInit) == MembInitAsWritten(c, vInit)
  {
  }

  /** As written, `memb_init(0.0)` does what the corrected `memb_init()`
      does: it keeps the stored potential. */
  lemma MembInitZeroIsAbsent(c: Cell)
    ensures MembInitAsWritten(c, Some(0.0)) == MembInit(c, None)
  {
  }

  // ---------------------------------------------------------------------------
  // Poisson spike source
  // ---------------------------------------------------------------------------

  /** The random spike generator behind the Poisson source: start time,
      mean interval, number of spikes, and fully random timing (noise 1). */
  datatype NetStim = NetStim(start: real, interval: real, number: real, noise: real)

  const RandomSpikeSourceDefaults: Kwargs := map["start" := 0.0, "interval" := 1e12, "number" := 0.0]

  /** RandomSpikeSource.__init__ from keyword arguments. */
  function NewRandomSpikeSource(kwargs: Kwargs): (r: Result<NetStim>)
    ensures r.Ok? <==> kwargs.Keys <= {"start", "interval", "number"}
    ensures r.Ok? ==> r.value.noise == 1.0
    ensures r.Ok? ==>
              && r.value.start == (if "start" in kwargs then kwargs["start"] else 0.0)
              && r.value.interval == (if "interval" in kwargs then kwargs["interval"] else 1e12)
              && r.value.number == (if "number" in kwargs then kwargs["number"] else 0.0)
  {
    var args :- BindArguments(kwargs, RandomSpikeSourceDefaults, {});
    Ok(NetStim(args["start"], args["interval"], args["number"], 1.0))
  }

  /** Reading a generator's parameters back as keyword arguments rebuilds it. */
  lemma RandomSpikeSourceRoundTrip(n: NetStim)
    requires n.noise == 1.0
    ensures NewRandomSpikeSource(map["start" := n.start, "interval" := n.interval, "number" := n.number]) == Ok(n)
  {
  }
}

=== FILE: results.dfy ===
/** Failure-compatible result type shared by the translation engine and the
    backend models. Each `Error` constructor stands for one exception the
    Python code raises. */
module Results {

  datatype Error =
    | UndefinedName(name: string)             // NameError while evaluating a formula
    | DivisionByZero                          // ZeroDivisionError
    | InvalidSyntax                           // SyntaxError from text `eval` cannot parse
    | UnknownParameters(names: set<string>)   // keys that no rule / keyword accepts
    | MissingParameter(name: string)          // KeyError on a parameter dictionary
    | MalformedRule(index: nat)               // a translation tuple of unsupported shape
    | DuplicateName(name: string)             // two rules share a standard or native name
    | UnsupportedConfiguration(parameter: string)  // a hard backend constraint is violated
    | InvalidSynapseType(synType: string)
    | InvalidSynapseShape(synShape: string)

  datatype Option<+T> = None | Some(value: T)

  datatype Result<+T> = Ok(value: T) | Err(error: Error) {

    predicate IsFailure() {
      Err?
    }

    function PropagateFailure<U>(): Result<U>
      requires Err?
    {
      Err(error)
    }

    function Extract(): T
      requires Ok?
    {
      value
    }
  }
}

=== FILE: translation.dfy ===
/** The generic parameter-translation engine that every standard model type
    uses: a table of rules, each mapping one standard (simulator-independent)
    parameter to one native (backend) parameter by renaming, by a scale factor,
    or by a pair of forward/reverse formulas. */
module Translation {
  import opened Results
  import opened Expressions

  /** A parameter dictionary: name to scalar value. */
  type Params = map<string, real>

  datatype Transform =
    | Rename                                   // ('std', 'native')
    | Scale(factor: real)                      // ('std', 'native', factor)
    | Formula(forward: Expr, reverse: Expr)    // ('std', 'native', "fwd", "rev")

  datatype Rule = Rule(std: string, native: string, transform: Transform)

  /** Rules in declaration order. */
  type Table = seq<Rule>

  function StdNames(t: Table): set<string> {
    set i | 0 <= i < |t| :: t[i].std
  }

  function NativeNames(t: Table): set<string> {
    set i | 0 <= i < |t| :: t[i].native
  }

  /** No two rules share a standard name, and no two share a native name. */
  predicate Distinct(t: Table) {
    forall i, j | 0 <= i < j < |t| :: t[i].std != t[j].std && t[i].native != t[j].native
  }

  // ---------------------------------------------------------------------------
  // Building a table from its declarative tuples
  // ---------------------------------------------------------------------------

  /** One element of a declarative translation tuple. */
  datatype Item = Name(name: string) | Factor(factor: real) | Code(expr: Expr)

  /** A translation tuple of two, three or four items. */
  type Entry = seq<Item>

  /** The tuple a rule is declared by. */
  function EntryOf(r: Rule): Entry {
    match r.transform
    case Rename => [Name(r.std), Name(r.native)]
    case Scale(f) => [Name(r.std), Name(r.native), Factor(f)]
    case Formula(fwd, rev) => [Name(r.std), Name(r.native), Code(fwd), Code(rev)]
  }

  /** Reads one tuple; `index` is its position, reported on failure. */
  function ParseEntry(e: Entry, index: nat): (r: Result<Rule>)
    ensures r.Ok? ==> EntryOf(r.value) == e
    ensures r.Err? ==> r.error == MalformedRule(index)
  {
    if |e| == 2 && e[0].Name? && e[1].Name? then
      Ok(Rule(e[0].name, e[1].name, Rename))
    else if |e| == 3 && e[0].Name? && e[1].Name? && e[2].Factor? then
      Ok(Rule(e[0].name, e[1].name, Scale(e[2].factor)))
    else if |e| == 4 && e[0].Name? && e[1].Name? && e[2].Code? && e[3].Code? then
      Ok(Rule(e[0].name, e[1].name, Formula(e[2].expr, e[3].expr)))
    else
      Err(MalformedRule(index))
  }

  /** The rules of tuples that all read successfully. */
  function ParsedRules(entries: seq<Entry>): seq<Rule>
    requires forall i | 0 <= i < |entries| :: ParseEntry(entries[i], i).Ok?
  {
    seq(|entries|, i requires 0 <= i < |entries| => ParseEntry(entries[i], i).value)
  }

  /** Two tables share no standard and no native name. */
  predicate Apart(a: Table, b: Table) {
    forall i, j | 0 <= i < |a| && 0 <= j < |b| :: a[i].std != b[j].std && a[i].native != b[j].native
  }

  /** Concatenating distinct tables that share no name gives a distinct
      table. */
  lemma DistinctConcat(a: Table, b: Table)
    requires Distinct(a) && Distinct(b) && Apart(a, b)
    ensures Distinct(a + b)
  {
    var t := a + b;
    forall i, j | 0 <= i < j < |t| ensures t[i].std != t[j].std && t[i].native != t[j].native {
      if j < |a| {
        assert t[i] == a[i] && t[j] == a[j];
      } else if i < |a| {
        assert t[i] == a[i] && t[j] == b[j - |a|];
      } else {
        assert t[i] == b[i - |a|] && t[j] == b[j - |a|];
      }
    }
  }

  /** A table apart from two tables is apart from their concatenation. */
  lemma ApartConcat(a: Table, b: Table, c: Table)
    requires Apart(a, c) && Apart(b, c)
    ensures Apart(a + b, c)
  {
    var t := a + b;
    forall i, j | 0 <= i < |t| && 0 <= j < |c| ensures t[i].std != c[j].std && t[i].native != c[j].native {
      if i < |a| {
        assert t[i] == a[i];
      } else {
        assert t[i] == b[i - |a|];
      }
    }
  }

  /** Builds a table from its tuples, refusing a malformed tuple and a
      standard or native name declared twice. */
  function BuildTranslations(entries: seq<Entry>): (r: Result<Table>)
    ensures r.Ok? <==>
              (forall i | 0 <= i < |entries| :: ParseEntry(entries[i], i).Ok?) &&
              Distinct(ParsedRules(entries))
    ensures r.Ok? ==> r.value == ParsedRules(entries)
    ensures r.Ok? ==> forall i | 0 <= i < |entries| :: EntryOf(r.value[i]) == entries[i]
  {
    if |entries| == 0 then Ok([])
    else
      var n := |entries| - 1;
      ParsedSnoc(entries);
      var prefix := BuildTranslations(entries[..n]);
      var rule := ParseEntry(entries[n], n);
      if prefix.Err? then Err(prefix.error)
      else if rule.Err? then Err(rule.error)
      else
        DistinctSnoc(prefix.value, rule.value);
        if rule.value.std in StdNames(prefix.value) then Err(DuplicateName(rule.value.std))
        else if rule.value.native in NativeNames(prefix.value) then Err(DuplicateName(rule.value.native))
        else Ok(prefix.value + [rule.value])
  }

  lemma ParsedSnoc(entries: seq<Entry>)
    requires |entries| > 0
    ensures var n := |entries| - 1;
            (forall i | 0 <= i < |entries| :: ParseEntry(entries[i], i).Ok?) <==>
            (forall i | 0 <= i < n :: ParseEntry(entries[..n][i], i).Ok?) && ParseEntry(entries[n], n).Ok?
    ensures var n := |entries| - 1;
            (forall i | 0 <= i < |entries| :: ParseEntry(entries[i], i).Ok?) ==>
            ParsedRules(entries) == ParsedRules(entries[..n]) + [ParseEntry(entries[n], n).value]
    ensures var n := |entries| - 1;
            (forall i | 0 <= i < |entries| :: ParseEntry(entries[i], i).Ok?) ==>
            (Distinct(ParsedRules(entries)) ==> Distinct(ParsedRules(entries[..n])))
  {
    var n := |entries| - 1;
    var prefix := entries[..n];
    assert forall i | 0 <= i < n :: prefix[i] == entries[i];
    if forall i | 0 <= i < |entries| :: ParseEntry(entries[i], i).Ok? {
      var whole, front := ParsedRules(entries), ParsedRules(prefix);
      var last := ParseEntry(entries[n], n).value;
      assert forall i | 0 <= i < n :: whole[i] == front[i];
      assert whole == front + [last];
      DistinctSnoc(front, last);
    }
  }

  lemma DistinctSnoc(t: Table, r: Rule)
    ensures Distinct(t + [r]) <==>
              Distinct(t) && r.std !in StdNames(t) && r.native !in NativeNames(t)
  {
    var u := t + [r];
    assert forall i | 0 <= i < |t| :: u[i] == t[i];
    assert u[|t|] == r;
  }

  /** The tuples of a table with distinct names build that very table. */
  lemma BuildEntriesRoundTrip(t: Table)
    requires Distinct(t)
    ensures BuildTranslations(seq(|t|, i requires 0 <= i < |t| => EntryOf(t[i]))) == Ok(t)
  {
    var entries := seq(|t|, i requires 0 <= i < |t| => EntryOf(t[i]));
    forall i | 0 <= i < |t|
      ensures ParseEntry(entries[i], i) == Ok(t[i])
    {
      match t[i].transform
      case Rename =>
      case Scale(_) =>
      case Formula(_, _) =>
    }
    assert ParsedRules(entries) == t;
  }

  // ---------------------------------------------------------------------------
  // Static scope check
  // ---------------------------------------------------------------------------

  /** Names a rule's formulas use that the table cannot supply: a forward
      formula sees standard values, a reverse formula sees native values. */
  function UnboundNames(r: Rule, t: Table): set<string> {
    match r.transform
    case Formula(fwd, rev) => (FreeVars(fwd) - StdNames(t)) + (FreeVars(rev) - NativeNames(t))
    case _ => {}
  }

  /** The text `build_translations` gives a rule's forward transform: the
      standard name itself, the factor times the name for a scale, or the
      formula. */
  function ForwardText(r: Rule): Expr {
    match r.transform
    case Rename => Var(r.std)
    case Scale(f) => Mul(Lit(f), Var(r.std))
    case Formula(fwd, _) => fwd
  }

  /** The text of a rule's reverse transform: the native name, the name
      divided by the factor for a scale, or the formula. */
  function ReverseText(r: Rule): Expr {
    match r.transform
    case Rename => Var(r.native)
    case Scale(f) => Div(Var(r.native), Lit(f))
    case Formula(_, rev) => rev
  }

  /** The names the text of a rule's forward transform mentions. */
  function ForwardReads(r: Rule): set<string> {
    FreeVars(ForwardText(r))
  }

  /** The names the text of a rule's reverse transform mentions. */
  function ReverseReads(r: Rule): set<string> {
    FreeVars(ReverseText(r))
  }

  /** A rename or a scale mentions only its own name in each direction. */
  lemma PlainReads(t: Table)
    ensures forall i | 0 <= i < |t| && !t[i].transform.Formula? ::
              ForwardReads(t[i]) == {t[i].std} && ReverseReads(t[i]) == {t[i].native}
  {
    forall i | 0 <= i < |t| && !t[i].transform.Formula?
      ensures ForwardReads(t[i]) == {t[i].std} && ReverseReads(t[i]) == {t[i].native}
    {
      var r := t[i];
      if r.transform.Scale? {
        var f := r.transform.factor;
        assert ForwardText(r) == Mul(Lit(f), Var(r.std));
        assert FreeVars(Mul(Lit(f), Var(r.std))) == FreeVars(Lit(f)) + FreeVars(Var(r.std));
        assert ReverseText(r) == Div(Var(r.native), Lit(f));
        assert FreeVars(Div(Var(r.native), Lit(f))) == FreeVars(Var(r.native)) + FreeVars(Lit(f));
      }
    }
  }

  /** Both transform texts of a rule parse: neither uses a reserved word as a
      name. */
  predicate Parses(r: Rule) {
    ForwardReads(r) !! Keywords && ReverseReads(r) !! Keywords
  }

  /** A rule that can always be evaluated in both directions, given a complete
      parameter set: its texts parse, its formulas are closed over the table
      and its scale factor can be divided by. */
  predicate RuleChecked(r: Rule, t: Table) {
    && Parses(r)
    && UnboundNames(r, t) == {}
    && (r.transform.Scale? ==> r.transform.factor != 0.0)
  }

  predicate WellFormed(t: Table) {
    Distinct(t) && forall i | 0 <= i < |t| :: RuleChecked(t[i], t)
  }

  /** A static analysis of a table (the program itself runs no such pass):
      succeeds exactly on well-formed tables, and otherwise reports a
      duplicate, a text that does not parse, or an unbound name. */
  method ValidateTable(t: Table) returns (r: Result<Table>)
    ensures r.Ok? <==> WellFormed(t)
    ensures r.Ok? ==> r.value == t
    ensures r.Err? && r.error.InvalidSyntax? ==> exists i | 0 <= i < |t| :: !Parses(t[i])
    ensures r.Err? && r.error.UndefinedName? ==>
              exists i | 0 <= i < |t| :: r.error.name in UnboundNames(t[i], t)
  {
    var i := 0;
    while i < |t|
      invariant 0 <= i <= |t|
      invariant forall a, b | 0 <= a < b < i :: t[a].std != t[b].std && t[a].native != t[b].native
      invariant forall a | 0 <= a < i :: RuleChecked(t[a], t)
    {
      var j := 0;
      while j < i
        invariant 0 <= j <= i
        invariant forall a | 0 <= a < j :: t[a].std != t[i].std && t[a].native != t[i].native
      {
        if t[j].std == t[i].std {
          return Err(DuplicateName(t[i].std));
        }
        if t[j].native == t[i].native {
          return Err(DuplicateName(t[i].native));
        }
        j := j + 1;
      }
      if !Parses(t[i]) {
        return Err(InvalidSyntax);
      }
      var unbound := UnboundNames(t[i], t);
      if unbound != {} {
        var x :| x in unbound;
        return Err(UndefinedName(x));
      }
      if t[i].transform.Scale? && t[i].transform.factor == 0.0 {
        return Err(DivisionByZero);
      }
      i := i + 1;
    }
    return Ok(t);
  }

  // ---------------------------------------------------------------------------
  // Translation
  // ---------------------------------------------------------------------------

  /** The native value of one rule, computed from standard values. */
  function ForwardValue(r: Rule, s: Params): Result<real>
    requires r.std in s
  {
    match r.transform
    case Rename => Ok(s[r.std])
    case Scale(f) => Ok(Product(f, s[r.std]))
    case Formula(fwd, _) => Eval(fwd, s)
  }

  /** The standard value of one rule, computed from native values. */
  function ReverseValue(r: Rule, n: Params): Result<real>
    requires r.native in n
  {
    match r.transform
    case Rename => Ok(n[r.native])
    case Scale(f) => if f == 0.0 then Err(DivisionByZero) else Ok(Quotient(n[r.native], f))
    case Formula(_, rev) => Eval(rev, n)
  }

  /** Native names of the rules whose standard name is supplied. */
  function Targets(t: Table, s: Params): set<string> {
    set i | 0 <= i < |t| && t[i].std in s :: t[i].native
  }

  /** Standard names of the rules whose native name is supplied. */
  function Sources(t: Table, n: Params): set<string> {
    set i | 0 <= i < |t| && t[i].native in n :: t[i].std
  }

  /** The rules after the first of a distinct table are distinct and share
      no name with the first. */
  lemma DistinctTail(t: Table)
    requires |t| > 0
    ensures Distinct(t) ==> Distinct(t[1..])
    ensures Distinct(t) ==> forall i | 1 <= i < |t| :: t[i].std != t[0].std && t[i].native != t[0].native
  {
    assert forall i | 0 <= i < |t| - 1 :: t[1..][i] == t[i + 1];
  }

  /** The targets of a table: its first rule's, then those of the rest. */
  lemma TargetsOfRest(t: Table, s: Params)
    requires |t| > 0
    ensures forall i | 1 <= i < |t| :: t[i] == t[1..][i - 1]
    ensures Targets(t, s) == (if t[0].std in s then {t[0].native} else {}) + Targets(t[1..], s)
  {
    assert forall i | 1 <= i < |t| :: t[i] == t[1..][i - 1];
    forall x | x in Targets(t, s) ensures x in (if t[0].std in s then {t[0].native} else {}) + Targets(t[1..], s) {
      var i :| 0 <= i < |t| && t[i].std in s && t[i].native == x;
      if i > 0 { assert t[1..][i - 1].native == x; }
    }
  }

  /** The sources of a table: its first rule's, then those of the rest. */
  lemma SourcesOfRest(t: Table, n: Params)
    requires |t| > 0
    ensures forall i | 1 <= i < |t| :: t[i] == t[1..][i - 1]
    ensures Sources(t, n) == (if t[0].native in n then {t[0].std} else {}) + Sources(t[1..], n)
  {
    assert forall i | 1 <= i < |t| :: t[i] == t[1..][i - 1];
    forall x | x in Sources(t, n) ensures x in (if t[0].native in n then {t[0].std} else {}) + Sources(t[1..], n) {
      var i :| 0 <= i < |t| && t[i].native in n && t[i].std == x;
      if i > 0 { assert t[1..][i - 1].std == x; }
    }
  }

  /** Translates, in table order, every rule whose standard name is supplied. */
  function Forward(t: Table, s: Params): (r: Result<Params>)
    ensures r.Ok? <==> forall i | 0 <= i < |t| && t[i].std in s :: ForwardValue(t[i], s).Ok?
    ensures r.Err? ==> exists i | 0 <= i < |t| && t[i].std in s :: ForwardValue(t[i], s) == Err(r.error)
    ensures r.Ok? ==> r.value.Keys == Targets(t, s)
    ensures r.Ok? && Distinct(t) ==>
              forall i | 0 <= i < |t| && t[i].std in s :: ForwardValue(t[i], s) == Ok(r.value[t[i].native])
    decreases |t|
  {
    if |t| == 0 then Ok(map[])
    else
      var rest := Forward(t[1..], s);
      TargetsOfRest(t, s);
      DistinctTail(t);
      if t[0].std !in s then rest
      else
        var v :- ForwardValue(t[0], s);
        var m :- rest;
        Ok(m[t[0].native := v])
  }

  /** Reverse-translates, in table order, every rule whose native name is
      supplied; native entries no rule produces are ignored. */
  function Backward(t: Table, n: Params): (r: Result<Params>)
    ensures r.Ok? <==> forall i | 0 <= i < |t| && t[i].native in n :: ReverseValue(t[i], n).Ok?
    ensures r.Err? ==> exists i | 0 <= i < |t| && t[i].native in n :: ReverseValue(t[i], n) == Err(r.error)
    ensures r.Ok? ==> r.value.Keys == Sources(t, n)
    ensures r.Ok? && Distinct(t) ==>
              forall i | 0 <= i < |t| && t[i].native in n :: ReverseValue(t[i], n) == Ok(r.value[t[i].std])
    decreases |t|
  {
    if |t| == 0 then Ok(map[])
    else
      var rest := Backward(t[1..], n);
      SourcesOfRest(t, n);
      DistinctTail(t);
      if t[0].native !in n then rest
      else
        var v :- ReverseValue(t[0], n);
        var m :- rest;
        Ok(m[t[0].std := v])
  }

  /** With every standard name supplied, every rule is translated. */
  lemma TargetsOfComplete(t: Table, s: Params)
    requires s.Keys == StdNames(t)
    ensures Targets(t, s) == NativeNames(t)
  {
  }

  /** With every native name supplied, every rule is reverse-translated. */
  lemma SourcesOfComplete(t: Table, n: Params)
    requires NativeNames(t) <= n.Keys
    ensures Sources(t, n) == StdNames(t)
  {
  }

  /** Standard to native: refuses a supplied name the table does not declare,
      then translates each supplied parameter. */
  function ToNative(t: Table, s: Params): (r: Result<Params>)
    ensures !(s.Keys <= StdNames(t)) ==> r == Err(UnknownParameters(s.Keys - StdNames(t)))
    ensures r.Ok? <==>
              s.Keys <= StdNames(t) &&
              forall i | 0 <= i < |t| && t[i].std in s :: ForwardValue(t[i], s).Ok?
    ensures r.Err? && s.Keys <= StdNames(t) ==>
              exists i | 0 <= i < |t| && t[i].std in s :: ForwardValue(t[i], s) == Err(r.error)
    ensures r.Ok? ==> r.value.Keys == Targets(t, s)
    ensures r.Ok? && Distinct(t) ==>
              forall i | 0 <= i < |t| && t[i].std in s :: ForwardValue(t[i], s) == Ok(r.value[t[i].native])
  {
    if s.Keys <= StdNames(t) then Forward(t, s)
    else Err(UnknownParameters(s.Keys - StdNames(t)))
  }

  /** Two parameter sets with the same names and values are equal. */
  lemma MapsAgree(a: Params, b: Params)
    requires a.Keys == b.Keys
    requires forall k | k in b :: a[k] == b[k]
    ensures a == b
  {
  }

  /** A complete standard parameter set whose every rule translates to the
      value `expected` holds for its native name translates to `expected`. */
  lemma ToNativeExact(t: Table, s: Params, expected: Params)
    requires Distinct(t)
    requires s.Keys == StdNames(t)
    requires expected.Keys == NativeNames(t)
    requires forall i | 0 <= i < |t| :: ForwardValue(t[i], s) == Ok(expected[t[i].native])
    ensures ToNative(t, s) == Ok(expected)
  {
    assert forall i | 0 <= i < |t| && t[i].std in s :: ForwardValue(t[i], s).Ok?;
    var r := ToNative(t, s);
    var v := r.value;
    TargetsOfComplete(t, s);
    forall x | x in expected ensures v[x] == expected[x] {
      var i :| 0 <= i < |t| && t[i].native == x;
      assert t[i].std in s;
    }
    MapsAgree(v, expected);
  }

  /** A parameter set holding one standard name translates to the one
      native entry its rule produces. */
  lemma ToNativeSingle(t: Table, s: Params, i: int, v: real)
    requires Distinct(t)
    requires 0 <= i < |t| && s.Keys == {t[i].std}
    requires ForwardValue(t[i], s) == Ok(v)
    ensures ToNative(t, s) == Ok(map[t[i].native := v])
  {
    assert forall j | 0 <= j < |t| && t[j].std in s :: j == i;
    var r := ToNative(t, s);
    assert r.value.Keys == {t[i].native} by {
      assert forall x | x in Targets(t, s) :: x == t[i].native;
    }
    MapsAgree(r.value, map[t[i].native := v]);
  }

  /** The reverse counterpart: a native parameter set holding every native
      name (and possibly more) whose every rule reverses to the value
      `expected` holds for its standard name translates back to `expected`. */
  lemma ToStandardExact(t: Table, n: Params, expected: Params)
    requires Distinct(t)
    requires NativeNames(t) <= n.Keys
    requires expected.Keys == StdNames(t)
    requires forall i | 0 <= i < |t| :: ReverseValue(t[i], n) == Ok(expected[t[i].std])
    ensures ToStandard(t, n) == Ok(expected)
  {
    assert forall i | 0 <= i < |t| && t[i].native in n :: ReverseValue(t[i], n).Ok?;
    var r := ToStandard(t, n);
    var v := r.value;
    SourcesOfComplete(t, n);
    forall x | x in expected ensures v[x] == expected[x] {
      var i :| 0 <= i < |t| && t[i].std == x;
      assert t[i].native in n;
    }
    MapsAgree(v, expected);
  }

  /** Two tables that agree rule by rule on names and forward computation. */
  predicate SameForward(t1: Table, t2: Table) {
    && |t1| == |t2|
    && forall i | 0 <= i < |t1| ::
         && t1[i].std == t2[i].std
         && t1[i].native == t2[i].native
         && (t1[i].transform == t2[i].transform ||
             (t1[i].transform.Formula? && t2[i].transform.Formula? &&
              t1[i].transform.forward == t2[i].transform.forward))
  }

  /** Standard-to-native translation never reads a reverse formula. */
  lemma {:induction false} SameForwardSameNative(t1: Table, t2: Table, s: Params)
    requires SameForward(t1, t2)
    ensures ToNative(t1, s) == ToNative(t2, s)
  {
    assert StdNames(t1) == StdNames(t2) by {
      forall x | x in StdNames(t2) ensures x in StdNames(t1) {
        var i :| 0 <= i < |t2| && t2[i].std == x;
        assert t1[i].std == x;
      }
    }
    SameForwardSameForward(t1, t2, s);
  }

  lemma {:induction false} SameForwardSameForward(t1: Table, t2: Table, s: Params)
    requires SameForward(t1, t2)
    ensures Forward(t1, s) == Forward(t2, s)
    decreases |t1|
  {
    if |t1| > 0 {
      assert SameForward(t1[1..], t2[1..]) by {
        forall i | 0 <= i < |t1| - 1 ensures t1[1..][i] == t1[i + 1] && t2[1..][i] == t2[i + 1] {
        }
      }
      SameForwardSameForward(t1[1..], t2[1..], s);
      if t1[0].std in s {
        assert ForwardValue(t1[0], s) == ForwardValue(t2[0], s);
      }
    }
  }

  /** One translated rule: its native name is present and holds the rule's
      forward value. */
  lemma TranslatedAt(t: Table, s: Params, n: Params, i: int)
    requires Distinct(t)
    requires ToNative(t, s) == Ok(n)
    requires 0 <= i < |t| && t[i].std in s
    ensures t[i].native in n && ForwardValue(t[i], s) == Ok(n[t[i].native])
  {
    assert t[i].native in Targets(t, s);
  }

  /** When only the rows in `formulas` carry a formula, a parameter set
      within the table translates exactly when those of its formulas that
      apply can be evaluated. */
  lemma ToNativeDefinedBy(t: Table, s: Params, formulas: set<int>)
    requires s.Keys <= StdNames(t)
    requires forall i | 0 <= i < |t| && i !in formulas :: !t[i].transform.Formula?
    ensures ToNative(t, s).Ok? <==>
              forall j | j in formulas && 0 <= j < |t| && t[j].std in s :: ForwardValue(t[j], s).Ok?
  {
  }

  /** A translated rename rule copies its value under the native name. */
  lemma RenamedAt(t: Table, s: Params, n: Params, i: int)
    requires Distinct(t)
    requires ToNative(t, s) == Ok(n)
    requires 0 <= i < |t| && t[i].std in s && t[i].transform == Rename
    ensures t[i].native in n && n[t[i].native] == s[t[i].std]
  {
    TranslatedAt(t, s, n, i);
  }

  /** In a table of renames but for the rule of standard name `x`, every
      other translated parameter keeps its value under its native name. */
  lemma RenamedExcept(t: Table, s: Params, n: Params, x: string)
    requires Distinct(t)
    requires ToNative(t, s) == Ok(n)
    requires forall i | 0 <= i < |t| && t[i].std != x :: t[i].transform == Rename
    ensures forall i | 0 <= i < |t| && t[i].std in s && t[i].std != x ::
              t[i].native in n && n[t[i].native] == s[t[i].std]
  {
    forall i | 0 <= i < |t| && t[i].std in s && t[i].std != x
      ensures t[i].native in n && n[t[i].native] == s[t[i].std]
    {
      RenamedAt(t, s, n, i);
    }
  }

  /** When exactly one present rule fails to reverse-translate, the reverse
      translation fails with that rule's error. */
  lemma ReverseFailsAt(t: Table, n: Params, j: int, e: Error)
    requires 0 <= j < |t| && t[j].native in n && ReverseValue(t[j], n) == Err(e)
    requires forall i | 0 <= i < |t| && i != j && t[i].native in n :: ReverseValue(t[i], n).Ok?
    ensures ToStandard(t, n) == Err(e)
  {
    var r := Backward(t, n);
    assert r.Err?;
    var i :| 0 <= i < |t| && t[i].native in n && ReverseValue(t[i], n) == Err(r.error);
    assert i == j;
  }

  /** Native to standard. */
  function ToStandard(t: Table, n: Params): (r: Result<Params>)
    ensures r.Ok? <==> forall i | 0 <= i < |t| && t[i].native in n :: ReverseValue(t[i], n).Ok?
    ensures r.Err? ==> exists i | 0 <= i < |t| && t[i].native in n :: ReverseValue(t[i], n) == Err(r.error)
    ensures r.Ok? ==> r.value.Keys == Sources(t, n)
    ensures r.Ok? && Distinct(t) ==>
              forall i | 0 <= i < |t| && t[i].native in n :: ReverseValue(t[i], n) == Ok(r.value[t[i].std])
  {
    Backward(t, n)
  }

  // ---------------------------------------------------------------------------
  // The transforms as Python text
  // ---------------------------------------------------------------------------

  /** Every text of the table parses. */
  predicate TableParses(t: Table) {
    forall i | 0 <= i < |t| :: Parses(t[i])
  }

  /** Every forward text `translate` evaluates for `s` parses. */
  predicate ForwardParses(t: Table, s: Params) {
    forall i | 0 <= i < |t| && t[i].std in s :: ForwardReads(t[i]) !! Keywords
  }

  /** Every reverse text `reverse_translate` evaluates for `n` parses. */
  predicate ReverseParses(t: Table, n: Params) {
    forall i | 0 <= i < |t| && t[i].native in n :: ReverseReads(t[i]) !! Keywords
  }

  /** Evaluating a rule's forward text gives the rule's forward value once
      the text parses. */
  lemma ForwardTextValue(r: Rule, s: Params)
    requires r.std in s
    ensures EvalText(ForwardText(r), s) ==
              if ForwardReads(r) !! Keywords then ForwardValue(r, s) else Err(InvalidSyntax)
  {
    match r.transform
    case Rename =>
    case Scale(f) => assert Eval(ForwardText(r), s) == Ok(Product(f, s[r.std]));
    case Formula(_, _) =>
  }

  /** Evaluating a rule's reverse text gives the rule's reverse value once
      the text parses. */
  lemma ReverseTextValue(r: Rule, n: Params)
    requires r.native in n
    ensures EvalText(ReverseText(r), n) ==
              if ReverseReads(r) !! Keywords then ReverseValue(r, n) else Err(InvalidSyntax)
  {
    match r.transform
    case Rename =>
    case Scale(f) =>
      assert Eval(ReverseText(r), n) ==
               if f == 0.0 then Err(DivisionByZero) else Ok(Quotient(n[r.native], f));
    case Formula(_, _) =>
  }

  lemma ForwardTextValues(t: Table, s: Params)
    ensures forall i | 0 <= i < |t| && t[i].std in s :: EvalText(ForwardText(t[i]), s) ==
              if ForwardReads(t[i]) !! Keywords then ForwardValue(t[i], s) else Err(InvalidSyntax)
  {
    forall i | 0 <= i < |t| && t[i].std in s
      ensures EvalText(ForwardText(t[i]), s) ==
                if ForwardReads(t[i]) !! Keywords then ForwardValue(t[i], s) else Err(InvalidSyntax)
    {
      ForwardTextValue(t[i], s);
    }
  }

  lemma ReverseTextValues(t: Table, n: Params)
    ensures forall i | 0 <= i < |t| && t[i].native in n :: EvalText(ReverseText(t[i]), n) ==
              if ReverseReads(t[i]) !! Keywords then ReverseValue(t[i], n) else Err(InvalidSyntax)
  {
    forall i | 0 <= i < |t| && t[i].native in n
      ensures EvalText(ReverseText(t[i]), n) ==
                if ReverseReads(t[i]) !! Keywords then ReverseValue(t[i], n) else Err(InvalidSyntax)
    {
      ReverseTextValue(t[i], n);
    }
  }

  /** `eval` of each applicable rule's forward text, in table order; the
      first rule that fails decides the error. */
  function ForwardEvaluated(t: Table, s: Params): (r: Result<Params>)
    ensures r.Ok? <==> forall i | 0 <= i < |t| && t[i].std in s :: EvalText(ForwardText(t[i]), s).Ok?
    ensures r.Err? ==> exists i | 0 <= i < |t| && t[i].std in s :: EvalText(ForwardText(t[i]), s) == Err(r.error)
    ensures r.Ok? ==> r.value.Keys == Targets(t, s)
    ensures r.Ok? && Distinct(t) ==>
              forall i | 0 <= i < |t| && t[i].std in s :: EvalText(ForwardText(t[i]), s) == Ok(r.value[t[i].native])
    decreases |t|
  {
    if |t| == 0 then Ok(map[])
    else
      var rest := ForwardEvaluated(t[1..], s);
      TargetsOfRest(t, s);
      DistinctTail(t);
      if t[0].std !in s then rest
      else
        var v :- EvalText(ForwardText(t[0]), s);
        var m :- rest;
        Ok(m[t[0].native := v])
  }

  /** `eval` of each applicable rule's reverse text, in table order. */
  function BackwardEvaluated(t: Table, n: Params): (r: Result<Params>)
    ensures r.Ok? <==> forall i | 0 <= i < |t| && t[i].native in n :: EvalText(ReverseText(t[i]), n).Ok?
    ensures r.Err? ==> exists i | 0 <= i < |t| && t[i].native in n :: EvalText(ReverseText(t[i]), n) == Err(r.error)
    ensures r.Ok? ==> r.value.Keys == Sources(t, n)
    ensures r.Ok? && Distinct(t) ==>
              forall i | 0 <= i < |t| && t[i].native in n :: EvalText(ReverseText(t[i]), n) == Ok(r.value[t[i].std])
    decreases |t|
  {
    if |t| == 0 then Ok(map[])
    else
      var rest := BackwardEvaluated(t[1..], n);
      SourcesOfRest(t, n);
      DistinctTail(t);
      if t[0].native !in n then rest
      else
        var v :- EvalText(ReverseText(t[0]), n);
        var m :- rest;
        Ok(m[t[0].std := v])
  }

  /** `translate` as the program runs it: each transform is source text given
      to `eval`. It succeeds exactly when every supplied name is known and
      every applicable text parses and evaluates; an error is an unknown
      name, a syntax error of some applicable text, or the evaluation error
      of some applicable rule. */
  function ToNativeAsEvaluated(t: Table, s: Params): (r: Result<Params>)
    ensures !(s.Keys <= StdNames(t)) ==> r == Err(UnknownParameters(s.Keys - StdNames(t)))
    ensures r.Ok? <==>
              && s.Keys <= StdNames(t)
              && forall i | 0 <= i < |t| && t[i].std in s ::
                   ForwardReads(t[i]) !! Keywords && ForwardValue(t[i], s).Ok?
    ensures r.Err? && s.Keys <= StdNames(t) ==>
              exists i | 0 <= i < |t| && t[i].std in s ::
                if ForwardReads(t[i]) !! Keywords then ForwardValue(t[i], s) == Err(r.error)
                else r.error == InvalidSyntax
    ensures r.Ok? ==> r.value.Keys == Targets(t, s)
    ensures r.Ok? && Distinct(t) ==>
              forall i | 0 <= i < |t| && t[i].std in s :: ForwardValue(t[i], s) == Ok(r.value[t[i].native])
  {
    ForwardTextValues(t, s);
    if s.Keys <= StdNames(t) then ForwardEvaluated(t, s)
    else Err(UnknownParameters(s.Keys - StdNames(t)))
  }

  /** `reverse_translate` as the program runs it: it succeeds exactly when
      every applicable reverse text parses and evaluates; an error is a
      syntax error of some applicable text or the evaluation error of some
      applicable rule. */
  function ToStandardAsEvaluated(t: Table, n: Params): (r: Result<Params>)
    ensures r.Ok? <==>
              forall i | 0 <= i < |t| && t[i].native in n ::
                ReverseReads(t[i]) !! Keywords && ReverseValue(t[i], n).Ok?
    ensures r.Err? ==>
              exists i | 0 <= i < |t| && t[i].native in n ::
                if ReverseReads(t[i]) !! Keywords then ReverseValue(t[i], n) == Err(r.error)
                else r.error == InvalidSyntax
    ensures r.Ok? ==> r.value.Keys == Sources(t, n)
    ensures r.Ok? && Distinct(t) ==>
              forall i | 0 <= i < |t| && t[i].native in n :: ReverseValue(t[i], n) == Ok(r.value[t[i].std])
  {
    ReverseTextValues(t, n);
    BackwardEvaluated(t, n)
  }

  /** Where every applicable forward text parses, evaluating the texts and
      looking the names up translate alike, error for error. */
  lemma {:induction false} ForwardAgrees(t: Table, s: Params)
    requires ForwardParses(t, s)
    ensures ForwardEvaluated(t, s) == Forward(t, s)
    decreases |t|
  {
    if |t| > 0 {
      assert forall i | 0 <= i < |t| - 1 :: t[1..][i] == t[i + 1];
      ForwardAgrees(t[1..], s);
      if t[0].std in s {
        ForwardTextValue(t[0], s);
      }
    }
  }

  /** The same for the reverse texts. */
  lemma {:induction false} BackwardAgrees(t: Table, n: Params)
    requires ReverseParses(t, n)
    ensures BackwardEvaluated(t, n) == Backward(t, n)
    decreases |t|
  {
    if |t| > 0 {
      assert forall i | 0 <= i < |t| - 1 :: t[1..][i] == t[i + 1];
      BackwardAgrees(t[1..], n);
      if t[0].native in n {
        ReverseTextValue(t[0], n);
      }
    }
  }

  lemma EvaluatedForwardAgrees(t: Table, s: Params)
    requires ForwardParses(t, s)
    ensures ToNativeAsEvaluated(t, s) == ToNative(t, s)
  {
    if s.Keys <= StdNames(t) {
      ForwardAgrees(t, s);
    }
  }

  lemma EvaluatedReverseAgrees(t: Table, n: Params)
    requires ReverseParses(t, n)
    ensures ToStandardAsEvaluated(t, n) == ToStandard(t, n)
  {
    BackwardAgrees(t, n);
  }

  /** A table whose every rule parses is evaluated by Python exactly as the
      names-looked-up reading says, in both directions. */
  lemma ParsingTableAgrees(t: Table, s: Params, n: Params)
    requires TableParses(t)
    ensures ToNativeAsEvaluated(t, s) == ToNative(t, s)
    ensures ToStandardAsEvaluated(t, n) == ToStandard(t, n)
  {
    EvaluatedForwardAgrees(t, s);
    EvaluatedReverseAgrees(t, n);
  }

  /** Every applicable reverse text that parses also evaluates. */
  predicate ReverseParsedDefined(t: Table, n: Params) {
    forall j | 0 <= j < |t| && t[j].native in n && ReverseReads(t[j]) !! Keywords :: ReverseValue(t[j], n).Ok?
  }

  /** A rule whose reverse text uses a reserved word makes every reverse
      translation that reaches it fail; when every other applicable text
      that parses evaluates, in whatever order Python takes the rules, the
      failure is the syntax error. */
  lemma ReservedWordFails(t: Table, n: Params, i: int, w: string)
    requires 0 <= i < |t| && t[i].native in n
    requires w in ReverseReads(t[i]) && w in Keywords
    ensures ToStandardAsEvaluated(t, n).Err?
    ensures ReverseParsedDefined(t, n) ==> ToStandardAsEvaluated(t, n) == Err(InvalidSyntax)
  {
  }

  // ---------------------------------------------------------------------------
  // Round trips
  // ---------------------------------------------------------------------------

  /** The reverse of rule `r` undoes its forward translation of `s` into `n`. */
  ghost predicate Inverts(r: Rule, s: Params, n: Params) {
    r.std in s ==>
      match r.transform
      case Rename => true
      case Scale(f) => f != 0.0
      case Formula(_, rev) => Eval(rev, n) == Ok(s[r.std])
  }

  /** With distinct native names, a native name is produced exactly when its
      rule's standard name was supplied. */
  lemma TranslatedRules(t: Table, s: Params, n: Params)
    requires Distinct(t)
    requires ToNative(t, s) == Ok(n)
    ensures forall i | 0 <= i < |t| :: t[i].native in n <==> t[i].std in s
  {
    forall i | 0 <= i < |t| && t[i].native in n
      ensures t[i].std in s
    {
      var j :| 0 <= j < |t| && t[j].std in s && t[j].native == t[i].native;
      assert i == j;
    }
  }

  /** Each rule's reverse gives back the standard value it was given. */
  lemma ReverseUndoesForward(t: Table, s: Params, n: Params)
    requires Distinct(t)
    requires ToNative(t, s) == Ok(n)
    requires forall i | 0 <= i < |t| :: Inverts(t[i], s, n)
    ensures forall i | 0 <= i < |t| && t[i].std in s ::
              t[i].native in n && ReverseValue(t[i], n) == Ok(s[t[i].std])
  {
    forall i | 0 <= i < |t| && t[i].std in s
      ensures t[i].native in n && ReverseValue(t[i], n) == Ok(s[t[i].std])
    {
      ReverseUndoesForwardAt(t, s, n, i);
    }
  }

  lemma ReverseUndoesForwardAt(t: Table, s: Params, n: Params, i: int)
    requires Distinct(t)
    requires ToNative(t, s) == Ok(n)
    requires 0 <= i < |t| && t[i].std in s
    requires Inverts(t[i], s, n)
    ensures t[i].native in n && ReverseValue(t[i], n) == Ok(s[t[i].std])
  {
    var r := t[i];
    assert r.native in Targets(t, s);
    assert ForwardValue(r, s) == Ok(n[r.native]);
    match r.transform
    case Rename =>
    case Scale(f) => QuotientOfProduct(f, s[r.std]);
    case Formula(_, _) =>
  }

  lemma SourcesOfTranslated(t: Table, s: Params, n: Params)
    requires forall i | 0 <= i < |t| :: t[i].native in n <==> t[i].std in s
    requires s.Keys <= StdNames(t)
    ensures Sources(t, n) == s.Keys
  {
    forall x | x in s ensures x in Sources(t, n) {
      var i :| 0 <= i < |t| && t[i].std == x;
      assert t[i].native in n;
    }
  }

  /** Standard -> native -> standard is the identity, provided each formula's
      reverse undoes its forward. */
  lemma RoundTrip(t: Table, s: Params, n: Params)
    requires Distinct(t)
    requires ToNative(t, s) == Ok(n)
    requires forall i | 0 <= i < |t| :: Inverts(t[i], s, n)
    ensures ToStandard(t, n) == Ok(s)
  {
    TranslatedRules(t, s, n);
    ReverseUndoesForward(t, s, n);
    BackwardIdentity(t, s, n);
  }

  /** Reverse translation gives back `s` when exactly the rules of `s` are
      present in `n` and each reverses to its value in `s`. */
  lemma BackwardIdentity(t: Table, s: Params, n: Params)
    requires Distinct(t)
    requires s.Keys <= StdNames(t)
    requires forall i | 0 <= i < |t| :: t[i].native in n <==> t[i].std in s
    requires forall i | 0 <= i < |t| && t[i].std in s ::
               t[i].native in n && ReverseValue(t[i], n) == Ok(s[t[i].std])
    ensures ToStandard(t, n) == Ok(s)
  {
    var m := ToStandard(t, n);
    assert m.Ok?;
    var v := m.value;
    SourcesOfTranslated(t, s, n);
    forall x | x in s ensures v[x] == s[x] {
      var i :| 0 <= i < |t| && t[i].std == x;
      assert ReverseValue(t[i], n) == Ok(v[t[i].std]);
    }
    assert v == s;
  }

  /** A table of renames and non-zero scale factors only. */
  predicate Simple(t: Table) {
    forall i | 0 <= i < |t| ::
      !t[i].transform.Formula? && (t[i].transform.Scale? ==> t[i].transform.factor != 0.0)
  }

  /** For a simple table, whatever translates translates back. */
  lemma SimpleTranslatedRoundTrip(t: Table, s: Params, n: Params)
    requires Distinct(t) && Simple(t)
    requires ToNative(t, s) == Ok(n)
    ensures ToStandard(t, n) == Ok(s)
  {
    RoundTrip(t, s, n);
  }

  /** For a simple table, every subset of its standard names translates, and
      translates back to itself. */
  lemma SimpleRoundTrip(t: Table, s: Params)
    requires Distinct(t) && Simple(t)
    requires s.Keys <= StdNames(t)
    ensures ToNative(t, s).Ok?
    ensures ToStandard(t, ToNative(t, s).value) == Ok(s)
  {
    assert ToNative(t, s).Ok?;
    RoundTrip(t, s, ToNative(t, s).value);
  }

  /** Names used by some reverse formula of the table. */
  function ReverseVars(t: Table): set<string> {
    set i, x | 0 <= i < |t| && t[i].transform.Formula? && x in FreeVars(t[i].transform.reverse) :: x
  }

  /** Native entries that no rule produces and no reverse formula reads (the
      backend-only constants injected after translation) do not change the
      reverse translation. */
  lemma {:induction false} ToStandardIgnoresExtra(t: Table, n: Params, extra: Params)
    requires forall k | k in extra :: k !in NativeNames(t) && k !in ReverseVars(t)
    ensures ToStandard(t, n + extra) == ToStandard(t, n)
    decreases |t|
  {
    if |t| > 0 {
      assert NativeNames(t[1..]) <= NativeNames(t) && ReverseVars(t[1..]) <= ReverseVars(t) by {
        assert forall i | 0 <= i < |t[1..]| :: t[1..][i] == t[i + 1];
      }
      ToStandardIgnoresExtra(t[1..], n, extra);
      assert t[0].native in n + extra <==> t[0].native in n by {
        assert t[0].native in NativeNames(t);
      }
      if t[0].native in n {
        match t[0].transform
        case Rename =>
        case Scale(_) =>
        case Formula(_, rev) =>
          assert forall x | x in FreeVars(rev) :: x in ReverseVars(t);
          EvalLocal(rev, n + extra, n);
      }
    }
  }

  /** A checked rule applied to a complete parameter set can fail only by a
      zero divisor. */
  lemma CheckedForwardDefined(r: Rule, t: Table, s: Params)
    requires RuleChecked(r, t) && s.Keys == StdNames(t) && r.std in s
    ensures ForwardValue(r, s).Ok? || ForwardValue(r, s).error == DivisionByZero
  {
    if r.transform.Formula? {
      var f := r.transform.forward;
      assert UnboundNames(r, t) == (FreeVars(f) - StdNames(t)) + (FreeVars(r.transform.reverse) - NativeNames(t));
      assert FreeVars(f) - StdNames(t) == {};
      assert FreeVars(f) <= s.Keys by {
        forall x | x in FreeVars(f) ensures x in StdNames(t) {
          assert x !in FreeVars(f) - StdNames(t);
        }
      }
      ClosedEvalNeverUndefined(f, s);
    }
  }

  lemma CheckedReverseDefined(r: Rule, t: Table, n: Params)
    requires RuleChecked(r, t) && NativeNames(t) <= n.Keys && r.native in n
    ensures ReverseValue(r, n).Ok? || ReverseValue(r, n).error == DivisionByZero
  {
    if r.transform.Formula? {
      var b := r.transform.reverse;
      assert UnboundNames(r, t) == (FreeVars(r.transform.forward) - StdNames(t)) + (FreeVars(b) - NativeNames(t));
      assert FreeVars(b) - NativeNames(t) == {};
      assert FreeVars(b) <= n.Keys by {
        forall x | x in FreeVars(b) ensures x in NativeNames(t) {
          assert x !in FreeVars(b) - NativeNames(t);
        }
      }
      ClosedEvalNeverUndefined(b, n);
    }
  }

  /** After the static validation pass accepts a table, translating a complete
      standard parameter set can fail only by a zero divisor, never by an
      undefined name. */
  lemma WellFormedForwardDefined(t: Table, s: Params)
    requires WellFormed(t)
    requires s.Keys == StdNames(t)
    ensures ToNative(t, s).Ok? || ToNative(t, s).error == DivisionByZero
  {
    var r := ToNative(t, s);
    if r.Err? {
      var i :| 0 <= i < |t| && t[i].std in s && ForwardValue(t[i], s) == Err(r.error);
      CheckedForwardDefined(t[i], t, s);
    }
  }

  /** The same for reverse translation of a complete native parameter set. */
  lemma WellFormedReverseDefined(t: Table, n: Params)
    requires WellFormed(t)
    requires NativeNames(t) <= n.Keys
    ensures ToStandard(t, n).Ok? || ToStandard(t, n).error == DivisionByZero
  {
    var r := ToStandard(t, n);
    if r.Err? {
      var i :| 0 <= i < |t| && t[i].native in n && ReverseValue(t[i], n) == Err(r.error);
      CheckedReverseDefined(t[i], t, n);
    }
  }

  // ---------------------------------------------------------------------------
  // Model-type construction helpers
  // ---------------------------------------------------------------------------

  /** Checks the supplied standard parameters against a model type's defaults
      and completes them: a supplied value wins over the default. */
  function CheckParameters(defaults: Params, supplied: Params): (r: Result<Params>)
    ensures r.Ok? <==> supplied.Keys <= defaults.Keys
    ensures r.Err? ==> r.error == UnknownParameters(supplied.Keys - defaults.Keys)
    ensures r.Ok? ==> r.value.Keys == defaults.Keys
    ensures r.Ok? ==> forall k | k in r.value ::
                        r.value[k] == if k in supplied then supplied[k] else defaults[k]
  {
    if supplied.Keys <= defaults.Keys then Ok(defaults + supplied)
    else Err(UnknownParameters(supplied.Keys - defaults.Keys))
  }

  /** Injects backend-only constants after translation: each override appears
      with its value whatever the translation computed; every other entry is
      kept. */
  function ApplyOverrides(n: Params, overrides: Params): (r: Params)
    ensures r.Keys == n.Keys + overrides.Keys
    ensures forall k | k in overrides :: r[k] == overrides[k]
    ensures forall k | k in n && k !in overrides :: r[k] == n[k]
  {
    n + overrides
  }

  /** Overriding two entries is updating them one after the other. */
  lemma OverridesUpdate(n: Params, k1: string, v1: real, k2: string, v2: real)
    ensures ApplyOverrides(n, map[k1 := v1, k2 := v2]) == n[k1 := v1][k2 := v2]
  {
  }
}
